=== FILE: README.md ===
# Rehab minigames: the game rules in Dafny

This project models the rules layer of a pair of touch-driven hand-rehabilitation
minigames, the **Sorting Game** and the **Kitchen Game**, with the engine taken out.
Every engine query is an explicit input:
- a collider overlap is a boolean;
- a frame's touches are a sequence of `(fingerId, phase, position, overlaps)` records;
- `Random` draws and the float spawn-interval thresholds are input choices;
- the tag of a colliding object is a string;
- new object ids come from a counter.

Each component is an immutable record with a pure step function per method of the
original class, and there are event types and `Run` functions for whole sessions.

## What is modelled

Each module below models one component.
- `Common`: the C# integer semantics that matter:
  - the `uint` ↔ `int` casts;
  - truncating `%` and `/`;
  - `List.Remove`.
- `Touchable`: the start/drag/drop touch-ownership protocol shared by every draggable
  object. It keeps `isTouched` ⇔ `touchId ≠ −1`, captures at most one touch, and drops
  when the owning finger vanishes.
- `Box`, `Filling`, `Coin`: the sorting objects.
  - Box: fill/full state machine, sprite state, arbitration against boxes and coins.
  - Filling: layer-order arbitration modulo 32000, tile handling, shrink timer.
  - Coin: collect and fade.
- `SGGameManager` and `SGSetUp`: the Sorting Game.
  - SGGameManager: the manager's state machine and counters, box spawning with equal
    shares, the win check, money, the per-session statistic list, and the "continue"
    progression.
  - SGSetUp: the difficulty tables.
- `SortingRound`, `SGSession`: whole-round and whole-session invariants over event
  sequences.
  - Boxes never hold more than their share.
  - A round is won exactly when every box is full.
  - The user's money stays between the starting money and the starting money plus
    the coins collected. Coins are banked only when a round is won, at EndGame, so
    the upper bound is reached only after a win.
- `SGMenu`: the pre-game menu: skin cycling, difficulty clamping, skin purchase and
  play gating.
- `Position`: the handedness mirroring of the spawn areas and tilemaps.
- `Profile`: the `User` ↔ `UserData` conversion, the defaults and the `Hand` encoding.
- `MainMenu`: user-list validation, the six-slot add button, the game toggle and the
  choice of which user to resume.
- `Statistics`, `Grid`, `Line`: the progress charts.
  - Statistics: min-max alignment of value lists, polyline points, chart widths.
  - Grid and Line: the index arithmetic of the grid and polyline meshes.
- `Holder`, `Jug`, `Glass`, `Shake`, `Frying`, `Pouring`, `Kitchen`: the Kitchen Game.
  - Two-holder gating.
  - The frying game's win/lose precedence and egg count.
  - The pouring game's glass switching, water counting and win.
  - Shake direction toggling and scoring.
  - The statistic appends of a won kitchen session.

Floats are modelled as `real`. Where the source divides by zero, `Statistics` uses a
`Float` value with infinities and NaN, so the IEEE outcome can be stated.

Engine behaviour is handled as follows:
- the device's averaged acceleration and tilt, the per-frame time and collider
  contacts are inputs;
- a coroutine's effect is modelled by the event that ends it:
  - the arrival of a moving glass;
  - the end of the pouring game's two-second wait.

## Model

| member | source | states |
|---|---|---|
| Common.ToUInt32 | Assets/Scripts/SortingGame/Filling.cs:56 | the C# `(uint)` conversion: the result lies in [0, 2^32), differs from the value by a multiple of 2^32, and equals the value when it is already in range |
| Common.UIntToInt32 | Assets/Scripts/SortingGame/Filling.cs:56 | the C# `(int)` conversion of a uint: the result is a 32-bit signed value that converts back to the same uint |
| Common.TruncMod | Assets/Scripts/SortingGame/Filling.cs:56 | the C# `%` for a positive divisor: the remainder is what the truncating quotient leaves (a − b·TruncDiv(a, b)), has the sign of the dividend and is smaller than the divisor in magnitude |
| Common.TruncDiv | Assets/Scripts/SortingGame/SGGameManager.cs:283 | the C# integer `/` for a positive divisor: the quotient rounds toward zero, so the remainder it leaves lies in [0, b) for a non-negative dividend and in (−b, 0] for a negative one |
| Common.FirstIndex | Assets/Scripts/SortingGame/SGGameManager.cs:359-369 | the position `List.Remove` removes: it holds the element and no earlier position does |
| Common.RemoveFirst | Assets/Scripts/SortingGame/SGGameManager.cs:359-369 | `List.Remove`: when present, the first occurrence goes and the elements before and after it keep their order (the length drops by one); otherwise the list is unchanged; the multiset loses exactly that element |
| Common.CutKeepsDistinct | Assets/Scripts/SortingGame/SGGameManager.cs:359-381 | cutting one position out of a duplicate-free list leaves it duplicate-free |
| Common.CutRemovesOnlyIt | Assets/Scripts/SortingGame/SGGameManager.cs:359-381 | cutting one position out of a duplicate-free list removes exactly the element that stood there |
| Common.RemoveFirstDistinct | Assets/Scripts/SortingGame/SGGameManager.cs:359-381 | removing from a duplicate-free list keeps it duplicate-free and removes exactly the given element |
| Common.MaxInt | Assets/Scripts/Common/StatisticsManager.cs:22-23 | `Mathf.Max` on counts: at least both arguments and equal to one of them |
| Touchable.Start | Assets/Scripts/Common/Touchable.cs:44-54 | a new object accepts touches, is untouched, holds touch id −1 and remembers its position as the drag origin |
| Touchable.FirstQualifying | Assets/Scripts/Common/Touchable.cs:71-81 | the index of the first touch that has just begun, lies on the collider and is granted by the arbitration; no earlier touch qualifies; none exactly when no touch qualifies |
| Touchable.TouchToStart | Assets/Scripts/Common/Touchable.cs:67-83 | a touch is captured exactly when the object is untouched, accepts touches and some touch qualifies, and it is the first qualifying one |
| Touchable.StartTouch | Assets/Scripts/Common/Touchable.cs:118-122 | the object becomes touched with the finger's id; with a non-negative finger id "touched iff it holds an id" holds; the position is untouched |
| Touchable.Drop | Assets/Scripts/Common/Touchable.cs:173-178 | the object is untouched with id −1, and the drag origin becomes the current position |
| Touchable.CheckCollisions | Assets/Scripts/Common/Touchable.cs:142-168 | a top/bottom border pins y and a side border pins x to the current position; with neither the target passes unchanged |
| Touchable.Drag | Assets/Scripts/Common/Touchable.cs:128-135 | only a touched object moves, to the target as CheckCollisions adjusts it; nothing else changes |
| Touchable.TouchExist | Assets/Scripts/Common/Touchable.cs:202-210 | true exactly when some current touch has the finger id |
| Touchable.FindTouch | Assets/Scripts/Common/Touchable.cs:185-195 | a current touch with the id when one exists, and the default touch (phase Began) otherwise |
| Touchable.DragDecision | Assets/Scripts/Common/Touchable.cs:88-112 | only a touched object acts; a vanished finger drops; otherwise Ended or Canceled drops, Moved drags to the touch position, Stationary and a present Began do nothing |
| Touchable.OnTriggerTouch | Assets/Scripts/Common/Touchable.cs:67-83 | with the default arbitration the object starts the chosen touch, or is left unchanged when there is none |
| Touchable.DefaultClosest | Assets/Scripts/Common/Touchable.cs:218-221 | the base arbitration grants every touch |
| Touchable.ProtocolKeepsOwnership | Assets/Scripts/Common/Touchable.cs:67-178 | with non-negative finger ids a frame of touch and drag handling keeps "touched iff it holds a finger id" |
| Touchable.VanishedFingerDrops | Assets/Scripts/Common/Touchable.cs:88-112 | a held finger that is no longer on the screen always drops the object |
| Box.Start | Assets/Scripts/SortingGame/Box.cs:38-55 | a new box is closed, empty, not full, with the base touch state and the target and coin probability the manager set |
| Box.StartTouch | Assets/Scripts/SortingGame/Box.cs:57-62 | the box takes the finger and shows the opened sprite unless it is full, whose sprite is kept |
| Box.Drop | Assets/Scripts/SortingGame/Box.cs:112-117 | the box lets go and shows the closed sprite unless it is full, whose sprite is kept |
| Box.IsClosest | Assets/Scripts/SortingGame/Box.cs:65-86 | a box wins a touch exactly when no coin lies under it and no overlapping box has a greater order modulo 32000 |
| Box.OnTriggerTouch | Assets/Scripts/SortingGame/Box.cs:65-86 | a free box that accepts touches becomes touched exactly when some touch began over it with no coin under it and no overlapping box drawn higher; it then holds the first such touch, and otherwise it is unchanged |
| Box.CheckCollisions | Assets/Scripts/SortingGame/Box.cs:88-110 | grass near the target pins x to the current position; y always follows the target |
| Box.OnTriggerDrag | Assets/Scripts/SortingGame/Box.cs:88-117 | the base drag decision with the box's drop and collision rule: stay, drop with sprite rule, or move |
| Box.BoxIsFull | Assets/Scripts/SortingGame/Box.cs:189-205 | a box that is not full and holds its target becomes full, with its full sprite or the green tint; otherwise nothing changes |
| Box.CorrectFilling | Assets/Scripts/SortingGame/Box.cs:158-186 | a full box is unchanged; otherwise the count rises by one, and a coin drop releases the box and blocks touches |
| Box.WrongFilling | Assets/Scripts/SortingGame/Box.cs:149-155 | the box is released and blocked while its flash runs; count and fullness unchanged |
| Box.FinishFlash | Assets/Scripts/SortingGame/Box.cs:208-226 | the end of a blocking flash gives the box its touches back; a non-blocking one changes nothing |
| Box.FillingInBox | Assets/Scripts/SortingGame/Box.cs:130-146 | a matching filling is deleted, sorted exactly when the box was not full, and the box takes it; a wrong one is dropped and counts one error |
| Box.OnTriggerEnter | Assets/Scripts/SortingGame/Box.cs:119-127 | only a touched box meeting a touched "Filling" reacts; otherwise nothing happens |
| Box.EntryKeepsBoxValid | Assets/Scripts/SortingGame/Box.cs:130-205 | a valid box stays valid (count within target, full iff at target), fullness never clears, and a filling counts as sorted exactly when the count rose by one |
| Filling.ReducedOrder | Assets/Scripts/SortingGame/Filling.cs:74 | the peer order as the arbitration reads it lies in [0, 32000), is congruent modulo 32000 to the order's `(uint)` value, and equals the order when already in range |
| Filling.SetOrderInLayerAsWritten | Assets/Scripts/SortingGame/Filling.cs:54-58 | the code as written: the next counter value stays a uint |
| Filling.SetOrderInLayer | Assets/Scripts/SortingGame/Filling.cs:54-58 | corrected: the order is in [0, 32000), is congruent to the counter modulo 32000, equals the counter while it is below 32000, and the counter advances by one (wrapping at 2^32) |
| Filling.SetOrderAgreesBelowSignBit | Assets/Scripts/SortingGame/Filling.cs:54-58 | the code as written and the corrected one agree for every counter below 2^31 |
| Filling.SetOrderAsWrittenGoesNegative | Assets/Scripts/SortingGame/Filling.cs:56 | at counter 2^31 the code as written gives order −27648 where 27648 is meant |
| Filling.NoHigherPeer | Assets/Scripts/SortingGame/Filling.cs:65-80 | a filling wins a touch exactly when no overlapping filling has a greater reduced order |
| Filling.TopPeer | Assets/Scripts/SortingGame/Filling.cs:65-80 | the overlapping peer with the greatest order, none exactly when nothing overlaps |
| Filling.ExactlyOneFillingClaims | Assets/Scripts/SortingGame/Filling.cs:65-80 | with distinct in-range orders and some overlap, exactly one overlapping filling wins the touch |
| Filling.Start | Assets/Scripts/SortingGame/Filling.cs:25-40 | corrected (through SetOrderInLayer): a new filling takes the next order, is off any tile, has timer 0 and copies the manager's shrink settings |
| Filling.OnTriggerTouch | Assets/Scripts/SortingGame/Filling.cs:65-80 | a free filling that accepts touches becomes touched exactly when some touch began over it with no overlapping filling drawn higher; it then holds the first such touch; nothing but its touch state changes |
| Filling.Drop | Assets/Scripts/SortingGame/Filling.cs:85-93 | one released over a tile returns to its drag origin and leaves the tile; then the base drop |
| Filling.DropIdempotent | Assets/Scripts/SortingGame/Filling.cs:85-93 | dropping twice is dropping once |
| Filling.OnTriggerEnter | Assets/Scripts/SortingGame/Filling.cs:108-112 | only a "Tile" collider puts the filling on a tile |
| Filling.OnTriggerExit | Assets/Scripts/SortingGame/Filling.cs:118-122 | only a "Tile" collider takes the filling off a tile |
| Filling.Update | Assets/Scripts/SortingGame/Filling.cs:45-49 | a touched or non-shrinking filling is unchanged; an untouched shrinking one is deleted, not sorted, exactly when its timer reached the duration, and otherwise its timer grows |
| Filling.UntouchedFillingShrinksAway | Assets/Scripts/SortingGame/Filling.cs:137-152 | an untouched shrinking filling is deleted as not sorted once enough frames have passed to cover the remaining duration |
| Coin.Start | Assets/Scripts/SortingGame/Coin.cs:31-39 | a new coin has the base touch state, the manager's fade settings, its original alpha and timer 0 |
| Coin.AlphaFadesToZero | Assets/Scripts/SortingGame/Coin.cs:35-38 | the alpha starts at the original value, reaches 0 exactly at the fade duration and stays between the two |
| Coin.FadeObject | Assets/Scripts/SortingGame/Coin.cs:53-71 | before the duration the coin shows the linear alpha and its timer advances; at the duration it is deleted as not collected |
| Coin.Update | Assets/Scripts/SortingGame/Coin.cs:44-48 | a coin that does not fade is unchanged; a fading one fades |
| Coin.UncollectedCoinFadesAway | Assets/Scripts/SortingGame/Coin.cs:53-71 | a fading coin nobody collects is deleted as not collected once enough frames have passed |
| Coin.OnTriggerTouch | Assets/Scripts/SortingGame/Coin.cs:77-83 | a coin is deleted as collected exactly when a begun touch lies on it and it accepts touches; otherwise it is unchanged |
| SGGameManager.TierKinds | Assets/Scripts/SortingGame/SGGameManager.cs:119-127 | difficulty 1, 2 and 3 play with the first one, two or three filling types in order; nothing below 1, all three above 3 |
| SGGameManager.TierPrefabs | Assets/Scripts/SortingGame/SGGameManager.cs:119-127 | one box prefab of the chosen skin per filling type in play, in type order |
| SGGameManager.Initial | Assets/Scripts/SortingGame/SGGameManager.cs:70-75 | the scene starts in the menu, not asked to play, with empty lists, and with the given user or a default user when there is none |
| SGGameManager.SetUpGame | Assets/Scripts/SortingGame/SGGameManager.cs:99-130 | corrected: a session resets coins collected and rounds played, starts from the user's money, loads the difficulty's setup values and copies each into the manager, and chooses the prefabs for the difficulty afresh |
| SGGameManager.BoxPrefabsAsWritten | Assets/Scripts/SortingGame/SGGameManager.cs:257-261 | as written, the prefabs of a setup are appended to the earlier setups' prefabs, which stay in front |
| SGGameManager.SpawnedPrefabs | Assets/Scripts/SortingGame/SGGameManager.cs:277-278 | the boxes spawned are the first `boxesNum` prefabs of the list (none for a non-positive count) |
| SGGameManager.SecondSessionGetsStaleBoxes | Assets/Scripts/SortingGame/SGGameManager.cs:120-127 | as written, an easy session followed by a medium one in the same scene spawns two boxes of the first filling type and none of the second |
| SGGameManager.EverySessionGetsItsBoxes | Assets/Scripts/SortingGame/SGGameManager.cs:99-130 | with prefabs chosen afresh, a session of difficulty d spawns exactly d boxes, one per filling type in play, of the chosen skin |
| SGGameManager.SpawnBoxes | Assets/Scripts/SortingGame/SGGameManager.cs:275-286 | one box with a fresh id per chosen prefab, each given the target divided toward zero by the number of boxes; nothing else changes |
| SGGameManager.SharesAddUpToTarget | Assets/Scripts/SortingGame/SGGameManager.cs:283 | when the target is a multiple of the number of boxes, the boxes' shares add up to exactly the round's target |
| SGGameManager.Targets | Assets/Scripts/SortingGame/SGGameManager.cs:281-285 | the share each spawned box was given, box by box |
| SGGameManager.SumOfEqualShares | Assets/Scripts/SortingGame/SGGameManager.cs:283 | n equal shares sum to n times the share |
| SGGameManager.StartGame | Assets/Scripts/SortingGame/SGGameManager.cs:135-156 | a round starts playing with its timers, touch count, layers, sorted count and errors at zero, no fillings or coins, freshly spawned boxes, and the session's money, rounds and statistics untouched |
| SGGameManager.NewItems | Assets/Scripts/SortingGame/SGGameManager.cs:291-307 | the new fillings carry consecutive fresh ids, one per given type |
| SGGameManager.SpawnFillings | Assets/Scripts/SortingGame/SGGameManager.cs:291-307 | below the interval only the spawn timer runs; once it reaches the interval one filling of each type in play is added with fresh ids and the timer restarts |
| SGGameManager.Play | Assets/Scripts/SortingGame/SGGameManager.cs:162-170 | a frame of play advances the round's duration by the frame time and spawns fillings; the remembered touch count is not changed |
| SGGameManager.Update | Assets/Scripts/SortingGame/SGGameManager.cs:77-93 | in the menu with play requested a session is set up and its first round started; while playing a frame of play; in any other case nothing changes |
| SGGameManager.RecordStat | Assets/Scripts/SortingGame/SGGameManager.cs:197-203 | the session's first won round appends its value; every later round overwrites the last entry |
| SGGameManager.RecordGame | Assets/Scripts/SortingGame/SGGameManager.cs:195-225 | the statistic list chosen by the number of boxes is written and no other; other box counts write nothing |
| SGGameManager.EndGame | Assets/Scripts/SortingGame/SGGameManager.cs:175-230 | a round short of its target changes nothing; a won round clears coins, returns to the menu, logs its info, counts one more round, sets the user's money to starting money plus coins collected and records the statistic |
| SGGameManager.DeleteFilling | Assets/Scripts/SortingGame/SGGameManager.cs:359-369 | a filling dropped in its box counts as sorted and may end the round; either way exactly that one filling leaves the scene, and the round's error count is untouched |
| SGGameManager.SpawnCoin | Assets/Scripts/SortingGame/SGGameManager.cs:312-322 | the coin joins the end of the list with an id no coin in the scene has, and ids stay below the counter |
| SGGameManager.DeleteCoin | Assets/Scripts/SortingGame/SGGameManager.cs:374-381 | a collected coin adds one to the coins collected; either way exactly that coin leaves the scene and nothing else changes |
| SGGameManager.Harder | Assets/Scripts/SortingGame/SGGameManager.cs:386-446 | the target grows by the step, or step plus extra; a positive interval shrinks and stays positive; shrinking once on stays on; the shrink time does not drop below 1.8 s unless it already was |
| SGGameManager.Harden | Assets/Scripts/SortingGame/SGGameManager.cs:235-248 | for one to three boxes the target grows by a multiple of the number of boxes and the interval shortens; other counts change nothing |
| SGGameManager.ContinueGame | Assets/Scripts/SortingGame/SGGameManager.cs:235-252 | the next round keeps the number of boxes, asks for more fillings by a multiple of the box count, plays faster, and keeps money, rounds and statistics |
| SGGameManager.TargetStaysShareable | Assets/Scripts/SortingGame/SGGameManager.cs:235-252 | over any number of harder rounds the target stays a multiple of the number of boxes and grows by at least one per round |
| SGGameManager.SharesAdd | Assets/Scripts/SortingGame/SGGameManager.cs:283 | adding an amount that shares out evenly among one to three boxes to a target that does keeps the target evenly shareable |
| SGSetUp.Defaults | Assets/Scripts/SortingGame/SGSetUp.cs:6-27 | before any setup there is no user, the name is empty, the difficulty is 2, the skin 1 and the hand right, with every game parameter at its zero value: no boxes, no target, no fading or shrinking, and a spawn interval, fade duration, drop probability and shrink duration of 0 |
| SGSetUp.SetCommonValues | Assets/Scripts/SortingGame/SGSetUp.cs:88-96 | coins fade after 5 s, a coin drops with probability 0.15, fillings do not shrink (5 s when they would); the selection and the per-difficulty values are untouched |
| SGSetUp.SetValues | Assets/Scripts/SortingGame/SGSetUp.cs:32-84 | difficulty 1, 2 or 3 loads (2.5 s, 1 box, 10), (3.5 s, 2 boxes, 10) or (5 s, 3 boxes, 12) plus the common values, so the number of boxes equals the difficulty and the target divides evenly among them; any other difficulty changes nothing |
| SortingRound.FreshBoxesHoldNothing | Assets/Scripts/SortingGame/SGGameManager.cs:135-156 | freshly spawned empty boxes hold nothing in total, matching the sorted count of zero a round starts with |
| SortingRound.HeldUpdate | Assets/Scripts/SortingGame/Box.cs:158-186 | the total held changes by exactly the change in the one box a filling met |
| SortingRound.Enter | Assets/Scripts/SortingGame/Box.cs:119-154 | only a held box meeting a held filling reacts: one more sorted filling exactly when the types match and the box was not full, one more error exactly when the types differ; only that box of the round changes |
| SortingRound.EnterKeepsConsistent | Assets/Scripts/SortingGame/SGGameManager.cs:359-369 | every filling meeting a box keeps the manager's sorted count equal to what the boxes hold and every box valid |
| SortingRound.HeldAtMostTargets | Assets/Scripts/SortingGame/Box.cs:189-205 | boxes with equal shares hold at most the sum of the shares, and exactly that only when every box is full |
| SortingRound.WonExactlyWhenAllFull | Assets/Scripts/SortingGame/SGGameManager.cs:175-178 | with the target split evenly, the sorted count never exceeds the target and reaches it exactly when every box is full |
| SGSession.PlayOpensAccounts | Assets/Scripts/SortingGame/SGGameManager.cs:77-130 | pressing Play opens a session whose money is the user's, with nothing collected, nothing won and the user's statistics untouched |
| SGSession.WinKeepsAccounts | Assets/Scripts/SortingGame/SGGameManager.cs:175-230 | a won round keeps the accounts: the money lies between the starting money and that plus the coins collected, and the statistic list of the session's box count gains one value at most once per session |
| SGSession.FrameKeepsAccounts | Assets/Scripts/SortingGame/SGGameManager.cs:77-93 | a frame changes none of the fields the accounts read |
| SGSession.ContinueKeepsAccounts | Assets/Scripts/SortingGame/SGGameManager.cs:235-252 | a harder round keeps the accounts |
| SGSession.FillingGoneKeepsAccounts | Assets/Scripts/SortingGame/SGGameManager.cs:359-369 | a filling leaving the scene, sorted or not, keeps the accounts |
| SGSession.AccountsOnlyReadTheirFields | Assets/Scripts/SortingGame/SGGameManager.cs:99-230 | two managers that agree on money, coins, rounds, statistics and state agree on the accounts |
| SGSession.EventKeepsAccounts | Assets/Scripts/SortingGame/SGGameManager.cs:77-446 | every event keeps the accounts, a collected coin adding one to the coins counted |
| SGSession.RunKeepsAccounts | Assets/Scripts/SortingGame/SGGameManager.cs:77-446 | any sequence of events keeps the accounts, counting every coin collected |
| SGSession.SessionKeepsAccounts | Assets/Scripts/SortingGame/SGGameManager.cs:175-192 | after Play and any events the user never has less money than at the start nor more than that plus the coins collected, and a win pays exactly the starting money plus every coin collected |
| SGMenu.SetCurrentSkin | Assets/Scripts/SortingGame/SGMenuManager.cs:159-167 | a skin number in the list makes the skin playable exactly when the user bought it and shows the purchase panel exactly when not; a number outside the list fails |
| SGMenu.NextSkin | Assets/Scripts/SortingGame/SGMenuManager.cs:107-113 | from a valid skin the next one is chosen, wrapping to the first after the last; only the chosen skin of the user changes and playability follows ownership |
| SGMenu.PreviousSkin | Assets/Scripts/SortingGame/SGMenuManager.cs:115-121 | from a valid skin the previous one is chosen, wrapping to the last before the first; only the chosen skin changes and playability follows ownership |
| SGMenu.PreviousUndoesNext | Assets/Scripts/SortingGame/SGMenuManager.cs:107-121 | stepping to the next skin and back restores the user and the playability exactly, from any valid skin |
| SGMenu.AdjustDifficulty | Assets/Scripts/SortingGame/SGMenuManager.cs:186-205 | every first-row image is shown; second-row images are shown exactly unless the difficulty is 1, third-row images exactly unless it is 1 or 2 |
| SGMenu.AllShown | Assets/Scripts/SortingGame/SGMenuManager.cs:213-217 | every image of the row is shown and the row keeps its length |
| SGMenu.HideImages | Assets/Scripts/SortingGame/SGMenuManager.cs:207-211 | the last `num` images are hidden and every other keeps its state |
| SGMenu.IncreaseDifficulty | Assets/Scripts/SortingGame/SGMenuManager.cs:126-132 | the difficulty goes up by one but never above 3, and the rows shown follow the new difficulty |
| SGMenu.DecreaseDifficulty | Assets/Scripts/SortingGame/SGMenuManager.cs:134-140 | the difficulty goes down by one but never below 1, and the rows shown follow the new difficulty |
| SGMenu.DifficultyButtons | Assets/Scripts/SortingGame/SGMenuManager.cs:126-140 | from a difficulty in 1..3 both buttons stay in range, undo each other away from the ends, and do nothing at their end |
| SGMenu.BuySkin | Assets/Scripts/SortingGame/SGMenuManager.cs:145-154 | a user with enough money pays exactly the price, owns the skin, can play it and keeps a non-negative balance; a poorer user changes nothing; an invalid skin fails |
| SGMenu.EnterGame | Assets/Scripts/SortingGame/SGMenuManager.cs:40-47 | entering the menu lowers the play flag, takes the user, makes the skin playable exactly when owned and shows the user's difficulty; an invalid skin fails |
| SGMenu.LoadSortingGame | Assets/Scripts/SortingGame/SGMenuManager.cs:93-102 | the setup takes the user, the name, the difficulty (also as the number of boxes), the skin and the hand, and nothing else changes |
| SGMenu.Play | Assets/Scripts/SortingGame/SGMenuManager.cs:57-65 | only a playable skin loads the setup and raises the play flag; otherwise neither menu nor setup change |
| SGMenu.PlayOnlyOwnedSkins | Assets/Scripts/SortingGame/SGMenuManager.cs:40-65 | after entering the menu a game starts only with a skin the user owns, and then with the user's chosen skin and difficulty |
| Profile.HandFromInt | Assets/Scripts/Common/User.cs:101 | the cast of a stored code to a hand gives a hand whose code is that number, named only for 0 and 1 |
| Profile.HandRoundTrip | Assets/Scripts/Common/User.cs:141 | a hand stored as its code and cast back is the same hand |
| Profile.DefaultUser | Assets/Scripts/Common/User.cs:62-81 | the default user is "David", left-handed, owns no skin, has skin 0, difficulty 1, 100 coins and no statistics |
| Profile.DefaultUserData | Assets/Scripts/Common/User.cs:170-188 | the default record has an empty name, hand code 0 (the left hand), difficulty 1, no money and empty arrays |
| Profile.OrEmpty | Assets/Scripts/Common/User.cs:145-152 | a null list becomes an empty one and any other list is kept |
| Profile.NewUserData | Assets/Scripts/Common/User.cs:135-165 | the record keeps every scalar, stores the hand's code (casting back to the same hand), and copies each list in order, a null one as empty |
| Profile.DataToUser | Assets/Scripts/Common/User.cs:99-105 | a user loaded from a record always holds a hand the cast can produce |
| Profile.UserRoundTrip | Assets/Scripts/Common/User.cs:86-105 | converting a user to its record and back gives the same user, every list with its elements in place |
| Profile.DataRoundTrip | Assets/Scripts/Common/User.cs:86-105 | converting a record to a user and back gives the same record, even for a hand code that names no hand |
| Profile.NullListsComeBackEmpty | Assets/Scripts/Common/User.cs:135-165 | a user built from a record whose lists were null has empty lists and every other field as given |
| MainMenu.FirstNamed | Assets/Scripts/MainMenu/MenuManager.cs:183-190 | the position of the first user with the name: no earlier user has it, and there is none exactly when no user has it |
| MainMenu.FindUserByName | Assets/Scripts/MainMenu/MenuManager.cs:183-190 | the first user with the name, or null exactly when nobody has it |
| MainMenu.CheckUserExistence | Assets/Scripts/MainMenu/MenuManager.cs:291-296 | true exactly when some user has the name |
| MainMenu.CheckUserCorrectness | Assets/Scripts/MainMenu/MenuManager.cs:272-289 | a name is accepted exactly when it is not empty and no user has it |
| MainMenu.NewUser | Assets/Scripts/MainMenu/MenuManager.cs:258-261 | a created user has the entered name and the cast hand, owns nothing, has skin 0, difficulty 1, no money and no statistics |
| MainMenu.SaveUser | Assets/Scripts/MainMenu/MenuManager.cs:254-267 | an accepted name adds the new user at the end and closes the creation panel; a rejected one changes nothing |
| MainMenu.SaveUserKeepsNamesValid | Assets/Scripts/MainMenu/MenuManager.cs:254-296 | saving keeps every name non-empty and distinct, and a saved user is then the one found by its name |
| MainMenu.SetButtons | Assets/Scripts/MainMenu/MenuManager.cs:195-205 | the first buttons show the users' names in order, the next one shows "+" when wanted and fewer than six users exist, the rest are untouched; too few buttons fail |
| MainMenu.SetCurrentGame | Assets/Scripts/MainMenu/MenuManager.cs:216-233 | the game becomes current and exactly its image is shown |
| MainMenu.NextGame | Assets/Scripts/MainMenu/MenuManager.cs:236-240 | the other game becomes current and exactly one image is shown |
| MainMenu.NextGameTwice | Assets/Scripts/MainMenu/MenuManager.cs:236-240 | pressing the arrow twice returns to the same game |
| MainMenu.EnterGamesMenuFrom | Assets/Scripts/MainMenu/MenuManager.cs:108-120 | the "+" button opens user creation; any other button chooses the first user with its label and shows the games |
| MainMenu.PlusNamedUserCannotBeChosen | Assets/Scripts/MainMenu/MenuManager.cs:108-120 | a user named "+" can be created, but its button opens user creation instead of choosing it |
| MainMenu.Play | Assets/Scripts/MainMenu/MenuManager.cs:141-168 | the current game's static receives the current user and that game's scene is chosen; the other static is untouched |
| MainMenu.SetUpMenu | Assets/Scripts/MainMenu/MenuManager.cs:56-86 | the users are the ones loaded; a name left by the Sorting Game wins over a Kitchen Game user, which wins over a Sorting Game user; the one used is cleared and the games menu shows; with none the menu shows the Kitchen Game |
| Position.MirrorX | Assets/Scripts/SortingGame/PositionManager.cs:71-73 | a point is reflected in the vertical axis: x negated, y kept |
| Position.MirrorSpawnAreas | Assets/Scripts/SortingGame/PositionManager.cs:68-74 | both spawn areas are reflected and nothing else changes |
| Position.MirrorTwiceIsIdentity | Assets/Scripts/SortingGame/PositionManager.cs:68-74 | mirroring twice restores the layout |
| Position.ActivateTilemaps | Assets/Scripts/SortingGame/PositionManager.cs:51-62 | a right hand switches on the left grass and the right tiles, any other hand the right grass and the left tiles; nothing is switched off |
| Position.AdjustPositionsAsWritten | Assets/Scripts/SortingGame/PositionManager.cs:48-63 | as written, a right hand mirrors the areas from wherever they are now, any other hand leaves them |
| Position.SecondRightHandSessionUnmirrors | Assets/Scripts/SortingGame/PositionManager.cs:48-63 | as written, a second right-handed session in the same scene puts the spawn areas back on the left-hand side |
| Position.AdjustPositions | Assets/Scripts/SortingGame/PositionManager.cs:48-63 | corrected: the areas are the home layout's, mirrored exactly for a right hand, with that hand's tilemaps on |
| Position.AdjustPositionsIdempotent | Assets/Scripts/SortingGame/PositionManager.cs:48-63 | corrected, placing again for the same hand changes nothing, so every session gets the first session's placement |
| Statistics.FindMin | Assets/Scripts/Common/StatisticsManager.cs:80-86 | the largest float for an empty list; otherwise an element of the list no larger than any other |
| Statistics.FindMax | Assets/Scripts/Common/StatisticsManager.cs:91-97 | the lowest float for an empty list; otherwise an element of the list no smaller than any other |
| Statistics.OccursInTail | Assets/Scripts/Common/StatisticsManager.cs:14-15 | a value of the later lists is a value of all the lists |
| Statistics.Lowest | Assets/Scripts/Common/StatisticsManager.cs:14 | the common minimum lies at or below every value of every list and at or below float.MaxValue, and is one of the values unless it is float.MaxValue itself, as when every list is empty |
| Statistics.Highest | Assets/Scripts/Common/StatisticsManager.cs:15 | the common maximum lies at or above every value of every list and at or above float.MinValue, and is one of the values unless it is float.MinValue itself, as when every list is empty |
| Statistics.Longest | Assets/Scripts/Common/StatisticsManager.cs:22 | the grid width is at least every list's count and equal to one of them |
| Statistics.Divide | Assets/Scripts/Common/StatisticsManager.cs:130 | float division: the quotient for a non-zero divisor; by zero positive infinity for a positive dividend, negative infinity for a negative one, and NaN exactly when the dividend is zero too |
| Statistics.Stretch | Assets/Scripts/Common/StatisticsManager.cs:131 | a finite scaled value maps to scaled × 10 + 1; infinities and NaN pass through |
| Statistics.AlignValuesAsWritten | Assets/Scripts/Common/StatisticsManager.cs:102-136 | as written: one height per value; a single value with min equal to max gets 5; every other case divides by max − min |
| Statistics.EqualValuesAlignToNaN | Assets/Scripts/Common/StatisticsManager.cs:126-134 | as written, two equal values that make up the whole chart both become NaN, while a single one gets 5; corrected, both get 5 |
| Statistics.Align | Assets/Scripts/Common/StatisticsManager.cs:114-131 | corrected height of one value: 5 on a scale without width; otherwise min maps to 1, max to 11 and everything between into [1, 11] |
| Statistics.ScaleInUnit | Assets/Scripts/Common/StatisticsManager.cs:130 | a value between min and max is between 0 and 1 of the way up |
| Statistics.AlignMonotone | Assets/Scripts/Common/StatisticsManager.cs:128-133 | a larger value never gets a lower height |
| Statistics.DivideMonotone | Assets/Scripts/Common/StatisticsManager.cs:130 | dividing by the positive width of the scale keeps the order of two values |
| Statistics.AlignValues | Assets/Scripts/Common/StatisticsManager.cs:102-136 | corrected: every value gets its own height, 5 on a scale without width, else min at 1, max at 11, values in range within [1, 11] |
| Statistics.AlignAgreesAsWritten | Assets/Scripts/Common/StatisticsManager.cs:102-136 | with fewer than two values or a scale with width, the written code gives exactly the corrected heights |
| Statistics.SetLineValues | Assets/Scripts/Common/StatisticsManager.cs:69-75 | the line starts at the origin and point i + 1 lies at x = i + 1, height value i |
| Statistics.LinePlots | Assets/Scripts/Common/StatisticsManager.cs:18-20 | values within the scale plot as a line from the origin with game numbers as x and every height in [1, 11] |
| Statistics.ChartOf | Assets/Scripts/Common/StatisticsManager.cs:11-23 | corrected: one line per list, each plotted within [1, 11], all on one shared order-keeping scale, and a grid as wide as the longest list |
| Statistics.LongestOfThree | Assets/Scripts/Common/StatisticsManager.cs:22 | the longest of the three Sorting Game lists has as many entries as the largest of their counts |
| Statistics.SetSGLines | Assets/Scripts/Common/StatisticsManager.cs:11-23 | corrected: three lines, one per box count, on one scale, and a grid as wide as the largest of the three counts |
| Statistics.GenerateValuesForKGStat | Assets/Scripts/Common/StatisticsManager.cs:47-53 | one rate per score, each the score divided by its game time; fails exactly when a score has no time |
| Statistics.SetKGLines | Assets/Scripts/Common/StatisticsManager.cs:30-42 | corrected: the frying and pouring rates plot as two lines, with a grid as wide as the longer list; fails exactly when a score list outgrows its time list |
| Grid.SetGridSize | Assets/Scripts/Common/UIGridRenderer.cs:29 | only the number of columns is taken from the new size; the rows are kept |
| Grid.CellTriangles | Assets/Scripts/Common/UIGridRenderer.cs:110-123 | eight triangles using only the cell's own eight vertices, two per side of the frame, together covering exactly that side's outer and inner vertex pairs |
| Grid.FrameWithinCell | Assets/Scripts/Common/UIGridRenderer.cs:110-123 | each of the eight triangles of cell k names only vertices in [8k, 8k + 8) |
| Grid.FrameCoversSides | Assets/Scripts/Common/UIGridRenderer.cs:113-123 | for each of the four sides, its two triangles together use exactly the side's outer and inner vertex pairs |
| Grid.SideCovered | Assets/Scripts/Common/UIGridRenderer.cs:113-123 | the two triangles laid over one side use that side's two outer and two inner vertices and no others |
| Grid.CellVertices | Assets/Scripts/Common/UIGridRenderer.cs:71-107 | each cell adds eight vertices |
| Grid.CellFrameInsideCell | Assets/Scripts/Common/UIGridRenderer.cs:71-107 | the outer vertices are the cell's four corners, and when the inset fits, every vertex lies inside the cell with each inner vertex inset from its outer corner |
| Grid.Col | Assets/Scripts/Common/UIGridRenderer.cs:50-58 | the column of a cell number lies within the grid's width |
| Grid.Row | Assets/Scripts/Common/UIGridRenderer.cs:50-58 | row times width plus column gives the cell number back |
| Grid.RowMajorIndex | Assets/Scripts/Common/UIGridRenderer.cs:49-58 | the counter value y × width + x names exactly cell (x, y) |
| Grid.AppendBlock | Assets/Scripts/Common/UIGridRenderer.cs:55-56 | appending a block of eight keeps every earlier block of eight and becomes the next block |
| Grid.ExtendByCell | Assets/Scripts/Common/UIGridRenderer.cs:55-56 | appending the next cell's vertices and triangles to a well-formed mesh gives a well-formed mesh of one cell more |
| Grid.DrawCellExtends | Assets/Scripts/Common/UIGridRenderer.cs:55-56 | drawing the next cell extends a well-formed mesh by exactly that cell's vertices and triangles |
| Grid.PopulateMesh | Assets/Scripts/Common/UIGridRenderer.cs:36-59 | eight vertices and eight triangles per cell, cells row by row, every triangle index naming a vertex of the mesh; a grid without columns or rows draws nothing |
| Grid.LastCellReachesCorner | Assets/Scripts/Common/UIGridRenderer.cs:45-46 | the last cell's top right corner is the rectangle's top right corner, so the grid spans it |
| Line.SegmentVertices | Assets/Scripts/Common/LineRendererHUD.cs:102-122 | the first vertex pair straddles the segment's start and the second its end, both with the same offset, so the quad is equally thick at both ends |
| Line.SegmentTriangles | Assets/Scripts/Common/LineRendererHUD.cs:76-81 | two triangles using exactly the segment's four vertices and sharing the diagonal from its second to its third vertex |
| Line.PopulateMesh | Assets/Scripts/Common/LineRendererHUD.cs:45-82 | fewer than two points draw nothing; otherwise each segment adds its quad and its two triangles in order, and every triangle index names a vertex of the mesh |
| Line.DrawSegments | Assets/Scripts/Common/LineRendererHUD.cs:62-73 | the first loop emits four vertices per segment; the vertices of segment i are the quad around points i and i + 1, in order |
| Line.AddTriangles | Assets/Scripts/Common/LineRendererHUD.cs:76-81 | the second loop emits two triangles per segment, and those of segment i name only vertices in [4i, 4i + 4) |
| Line.Update | Assets/Scripts/Common/LineRendererHUD.cs:31-39 | a present grid with a new size is copied and the mesh marked for rebuilding; otherwise nothing changes |
| Line.UpdateSettles | Assets/Scripts/Common/LineRendererHUD.cs:31-39 | after one update the line follows the grid, and a second update with the same grid changes nothing |
| Holder.Faded | Assets/Scripts/KitchenGame/Holder.cs:30-32 | the held colour is the original colour with alpha 0.2 |
| Holder.Start | Assets/Scripts/KitchenGame/Holder.cs:10-14 | a holder starts as a fresh touchable that remembers its colour and shows it |
| Holder.StartTouch | Assets/Scripts/KitchenGame/Holder.cs:27-33 | the holder takes the finger as any touchable does and fades |
| Holder.Drop | Assets/Scripts/KitchenGame/Holder.cs:40-44 | the holder lets go as any touchable does and shows its own colour again |
| Holder.RestoreColor | Assets/Scripts/KitchenGame/Holder.cs:25 | only the colour changes, back to the original |
| Holder.Release | Assets/Scripts/Common/Touchable.cs:213 | ending a game leaves the holder free and showing its own colour, with the finger id kept |
| Holder.Update | Assets/Scripts/KitchenGame/Holder.cs:16-20 | a holder never moves; it becomes held only when a touch qualifies, and while held its finger is among the current touches |
| Holder.UngrabbedStaysFree | Assets/Scripts/KitchenGame/Holder.cs:16-20 | a free holder stays free through a frame in which no touch began over it, and becomes held only when one did |
| Holder.UpdateKeepsShows | Assets/Scripts/KitchenGame/Holder.cs:16-44 | every frame keeps the colour matching the state: faded exactly while held |
| Jug.StartPouring | Assets/Scripts/KitchenGame/Jug.cs:24-29 | the jug is upright, has counted no water and does not pour |
| Jug.ContinuePouring | Assets/Scripts/KitchenGame/Jug.cs:31 | pouring is allowed; angle and count are kept |
| Jug.StopPouring | Assets/Scripts/KitchenGame/Jug.cs:33 | pouring is stopped; angle and count are kept |
| Jug.Update | Assets/Scripts/KitchenGame/Jug.cs:35-47 | a jug that does not pour stays as it is; a pouring jug turns against the tilt by tilt × 100 × frame time, nothing else changing |
| Jug.OnTriggerExit | Assets/Scripts/KitchenGame/Jug.cs:49-53 | a water drop leaving adds one to the count; anything else changes nothing |
| Jug.CountWater | Assets/Scripts/KitchenGame/Jug.cs:49-53 | no more water than colliders leaving |
| Jug.ExitsCountWater | Assets/Scripts/KitchenGame/Jug.cs:49-53 | after any series of colliders leaving, the count has grown by exactly the water drops among them and nothing else has changed |
| Glass.SetActive | Assets/Scripts/KitchenGame/Glass.cs:66-73 | the flag is set and the glass heads to its original position when active, to its lowered one otherwise |
| Glass.Play | Assets/Scripts/KitchenGame/Glass.cs:28-34 | the glass remembers where it stands, its lowered position is 10 units below, and it heads where its activity calls for |
| Glass.Arrive | Assets/Scripts/KitchenGame/Glass.cs:50-60 | at the end of a movement the glass is at its destination, and its count is cleared exactly when that is the lowered position |
| Glass.OnTriggerEnter | Assets/Scripts/KitchenGame/Glass.cs:75-79 | water entering counts only while the glass is active |
| Glass.OnTriggerExit | Assets/Scripts/KitchenGame/Glass.cs:81-85 | water leaving is always discounted |
| Glass.CountCanGoNegative | Assets/Scripts/KitchenGame/Glass.cs:50-85 | a drop that entered before the glass was lowered and emptied, and leaves after, drives the count to −1 |
| Glass.PlayPair | Assets/Scripts/KitchenGame/PGGameManager.cs:45-52 | a game starts with exactly one glass active, the right one, and none filled |
| Glass.UpdateGlass | Assets/Scripts/KitchenGame/Glass.cs:36-44 | an active glass holding at least 80 drops hands over to the other glass and one more glass counts as filled; otherwise nothing changes |
| Glass.StepKeepsTurns | Assets/Scripts/KitchenGame/Glass.cs:36-85 | every event keeps exactly one glass active; the filled count rises by one exactly when the turn passes, and otherwise stays |
| Glass.RunKeepsTurns | Assets/Scripts/KitchenGame/Glass.cs:36-85 | over a whole game exactly one glass is active at a time and the filled count only grows, by at most one per event |
| Shake.Abs | Assets/Scripts/KitchenGame/ShakeController.cs:58-61 | the magnitude is non-negative and equals the value or its negation |
| Shake.Created | Assets/Scripts/KitchenGame/Accelerometer.cs:13 | a new controller holds the declared threshold 0.7, does not shake and has no score |
| Shake.AccelerometerStart | Assets/Scripts/KitchenGame/Accelerometer.cs:22-29 | the start squares the threshold and changes nothing else |
| Shake.Reset | Assets/Scripts/KitchenGame/ShakeController.cs:28-32 | a game starts not shaking, with no score, the timer at zero and the direction down, at the given threshold |
| Shake.PlayAsWritten | Assets/Scripts/KitchenGame/ShakeController.cs:25-33 | as written, a game resets the controller and squares the threshold once more |
| Shake.Play | Assets/Scripts/KitchenGame/ShakeController.cs:25-33 | corrected: a game resets the controller and keeps the threshold |
| Shake.ThresholdDrifts | Assets/Scripts/KitchenGame/ShakeController.cs:27 | as written, the threshold goes 0.7 at creation, 0.49 at the scene start, 0.2401 in the first game and 0.05764801 in the second |
| Shake.PlaysKeepThreshold | Assets/Scripts/KitchenGame/ShakeController.cs:25-33 | corrected, any number of games keep the scene's threshold and each starts from the same reset state |
| Shake.ChangedDirection | Assets/Scripts/KitchenGame/ShakeController.cs:123-129 | the new direction always differs from the current one |
| Shake.ChangedDirectionTwice | Assets/Scripts/KitchenGame/ShakeController.cs:123-129 | two switches return to the same direction |
| Shake.Shaking | Assets/Scripts/KitchenGame/ShakeController.cs:53-63 | the score grows by the frame time exactly when the reading on the current direction's axis reaches the threshold, and by at most one frame time |
| Shake.Update | Assets/Scripts/KitchenGame/ShakeController.cs:35-46 | the score grows only while shaking; the timer runs and, on reaching 8 s, restarts at zero with the direction switched; flag and threshold are kept |
| Shake.FramesKeepScore | Assets/Scripts/KitchenGame/ShakeController.cs:35-63 | over frames with non-negative times the score never falls and does not move while shaking is off, and the timer stays below 8 s |
| Frying.IndexOfEgg | Assets/Scripts/KitchenGame/Egg.cs:77 | the position of the first entry for the egg object, none exactly when the object is not listed |
| Frying.RemoveEgg | Assets/Scripts/KitchenGame/Egg.cs:77 | the first entry for the egg goes and the rest keep their order; a list of distinct eggs stays distinct and no longer holds it |
| Frying.SetEggsMove | Assets/Scripts/KitchenGame/FGGameManager.cs:127-131 | every listed egg gets the flag and nothing else about it changes |
| Frying.SpawnEggs | Assets/Scripts/KitchenGame/FGGameManager.cs:74-78 | eight new eggs with fresh ids, none of them able to move |
| Frying.Created | Assets/Scripts/KitchenGame/FGGameManager.cs:9-31 | the scene starts with no eggs, no game running, nothing cooking and no end menu |
| Frying.StartPlaying | Assets/Scripts/KitchenGame/FGGameManager.cs:39-55 | corrected: a game runs with eight fresh still eggs, nothing saved or cooking, the clock at zero, the shake score at zero and the threshold kept |
| Frying.ControlEggs | Assets/Scripts/KitchenGame/FGGameManager.cs:104-125 | cooking is on exactly while both holders are held; only a change of state moves or stops the eggs and the shaking |
| Frying.EndPlaying | Assets/Scripts/KitchenGame/FGGameManager.cs:140-157 | the eggs still in the list are the saved ones; the list empties, the game stops, shaking and cooking end and both holders are released |
| Frying.Update | Assets/Scripts/KitchenGame/FGGameManager.cs:57-69 | a stopped game ignores frames; a running one advances its clock and controls the eggs, then is won if the score reached 15, else lost if no egg is left |
| Frying.EggLeavesPan | Assets/Scripts/KitchenGame/Egg.cs:52-61 | an egg leaving takes itself out of the list, which shrinks by one exactly when it was listed |
| Frying.EggsScore | Assets/Scripts/KitchenGame/FGGameManager.cs:135 | the score is the saved eggs over eight, between 0 and 1 when at most eight were saved |
| Frying.CreatedIsGood | Assets/Scripts/KitchenGame/FGGameManager.cs:9-31 | the scene starts with the bookkeeping right |
| Frying.StartKeepsGood | Assets/Scripts/KitchenGame/FGGameManager.cs:39-55 | starting a game keeps the bookkeeping right |
| Frying.FrameKeepsGood | Assets/Scripts/KitchenGame/FGGameManager.cs:57-69 | every frame of the manager keeps the bookkeeping right |
| Frying.EggLeavesKeepsGood | Assets/Scripts/KitchenGame/Egg.cs:52-77 | an egg leaving the pan keeps the bookkeeping right |
| Frying.StepKeepsGood | Assets/Scripts/KitchenGame/FGGameManager.cs:39-157 | every event keeps the eggs moving exactly while cooking, shaking exactly while cooking, at most eight distinct listed eggs, and an empty list between games |
| Frying.RunKeepsGood | Assets/Scripts/KitchenGame/FGGameManager.cs:39-157 | through any events the bookkeeping stays right, so every game's eggs score lies between 0 and 1 |
| Frying.ScoreOnlyWhileCooking | Assets/Scripts/KitchenGame/FGGameManager.cs:104-125 | the shake score only moves while the eggs are cooking |
| Frying.RemoveEggKeepsStill | Assets/Scripts/KitchenGame/Egg.cs:77 | taking an egg out of a list of still eggs leaves only still eggs |
| Frying.StepKeepsIdle | Assets/Scripts/KitchenGame/FGGameManager.cs:104-125 | with one holder free and nothing cooking, any event that grabs nothing on that side keeps it so: no cooking, no shaking, still eggs, and a shake score that only stays or resets |
| Frying.OneHolderNeverCooks | Assets/Scripts/KitchenGame/FGGameManager.cs:104-125 | a run in which one holder is never grabbed never cooks the eggs and leaves the shake score where it was or at zero, whatever the other holder does |
| Pouring.StartPlaying | Assets/Scripts/KitchenGame/PGGameManager.cs:35-48 | a game runs with the right glass active, no glass filled, the jug reset and the clock at zero |
| Pouring.ControlJug | Assets/Scripts/KitchenGame/PGGameManager.cs:62-71 | the jug may pour exactly while both holders are held; once 450 drops have left it, the game stops and one win starts |
| Pouring.Update | Assets/Scripts/KitchenGame/PGGameManager.cs:50-57 | a stopped game ignores frames; a running one advances its clock and controls the jug |
| Pouring.EndPlaying | Assets/Scripts/KitchenGame/PGGameManager.cs:89-99 | the jug stops, both glasses are back at their original positions and both holders are released, with the score and clock kept |
| Pouring.WinElapsed | Assets/Scripts/KitchenGame/PGGameManager.cs:76-84 | the end of a started two-second wait ends the game; without one nothing happens |
| Pouring.GlassScore | Assets/Scripts/KitchenGame/PGGameManager.cs:125 | the score is the filled glasses over five |
| Pouring.JugTurnsOnlyWhenHeld | Assets/Scripts/KitchenGame/PGGameManager.cs:62-67 | during a game the jug turns only after a frame that found both holders held |
| Pouring.StepKeepsOneWin | Assets/Scripts/KitchenGame/PGGameManager.cs:62-84 | every event keeps at most one win per game: none waiting while the game runs, at most one after it stopped |
| Pouring.GameKeepsInvariants | Assets/Scripts/KitchenGame/PGGameManager.cs:35-125 | through one game the glasses keep taking turns, the filled count never falls and at most one win is waiting |
| Pouring.StepKeepsIdle | Assets/Scripts/KitchenGame/PGGameManager.cs:62-67 | with one holder free and the jug not pouring, any event that grabs nothing on that side keeps it so, and the jug's rotation only stays or resets |
| Pouring.OneHolderNeverPours | Assets/Scripts/KitchenGame/PGGameManager.cs:62-67 | a run in which one holder is never grabbed never pours and leaves the jug's rotation where it was or at zero, whatever the other holder does |
| Pouring.StoppedGameIgnoresFrames | Assets/Scripts/KitchenGame/PGGameManager.cs:50-57 | once stopped a game ignores frames until the next start |
| Kitchen.Win | Assets/Scripts/KitchenGame/KGGameManager.cs:29-38 | a win appends the frying time and eggs score and the pouring time and glass score to the user's four lists, nothing else changing |
| Kitchen.WinKeepsChartable | Assets/Scripts/KitchenGame/KGGameManager.cs:29-38 | a win keeps each time list paired with its score list and, when both games took time, the kitchen chart can still be drawn, one game wider |
| Kitchen.WinsAppendInOrder | Assets/Scripts/KitchenGame/KGGameManager.cs:29-38 | after any series of wins each score list keeps its old entries and then holds the games' scores in the order played |
| SGGameManager.CountError | Assets/Scripts/SortingGame/Box.cs:149-154 | a wrong filling adds exactly one error to the round and changes nothing else about the manager |
| SGSession.EventErrors | Assets/Scripts/SortingGame/SGGameManager.cs:135-141 | a bounce adds one error, a harder round restarts the count at zero, and every other event leaves it |
| SGSession.ErrorsCountBounces | Assets/Scripts/SortingGame/SGGameManager.cs:183-186 | the error count an SGInfo logs is the number of wrong fillings since the round began |

## Left out

- Saving and loading users (SaveManager.cs): file-system and XML I/O. Only the in-memory `User` ↔ `UserData` conversion is modelled.
- Spawn positions (SpawnManager.cs): rejection sampling against the camera viewport through engine calls. Positions are opaque inputs; which object spawns is an input choice.
- The accelerometer's low-pass filter and averaging (Accelerometer.cs): sensor input over floats. The averaged acceleration and the tilt are inputs; only the threshold squaring in `Start` is modelled.
- Egg physics, movement and vibration (Egg.cs), the liquid effect (Liquid.cs) and screen sizing (CameraSize.cs): engine physics and rendering. An egg leaving the pan is an input event.
- Coroutine timing of ChangeColor, Good, ShakeObject and the glass Move: engine tweens. Their end is an event, e.g. a glass's arrival; the Pouring Game's two-second win wait is a separate event.
- Overlapping glass moves: `Glass.Play` and `Glass.SetActive` start a new Move coroutine without stopping one that is running (Glass.cs:28-34, 66-73), so two moves can run at once. The model keeps a single heading, the last one chosen.
- The shared user object: in the source the Sorting Game menu and the setup hold the same `User` object (SGMenuManager.cs:42, SGGameManager.cs:74), so the game's writes to money and statistics (SGGameManager.cs:192-222) are seen by the menu. The model copies the user into each value and drops that aliasing.
- `Frying.StartPlaying`: corrected: it plays the shaker through the corrected `Shake.Play`, which keeps the threshold, where FGGameManager.cs:43 calls ShakeController.Play and squares the threshold again on every game (see Findings; `Shake.PlayAsWritten` and `Shake.ThresholdDrifts` model the code as written). `Frying.Update`, `Frying.RunKeepsGood`, `Frying.ScoreOnlyWhileCooking` and `Frying.OneHolderNeverCooks` score against that kept threshold.
- `Filling.SetOrderInLayer`: corrected: the order is the layer counter modulo 32000, where Filling.cs:56 casts the counter to `int` first and so gives a negative order once it reaches 2^31 (see Findings; `Filling.SetOrderInLayerAsWritten` models the code as written, and `Filling.SetOrderAgreesBelowSignBit` shows the two agree below 2^31). `Filling.Start` builds on the corrected form.
- Spawning and deleting the 450 water drops of the Pouring Game: engine objects. Drops leaving the jug or entering and leaving a glass are input events carrying the collider's tag.
- Progress bar, menu panel toggles, sprites and colours of images (ProgressBar.cs, KGMenuManager.cs): UI wiring with no rules behind it. The box's open/closed sprite and the holder's alpha are kept.
- Rendering order, sorting layers and vibration: side effects with no rule.
- FindAverageInList (StatisticsManager.cs): its result is passed to GenerateValuesForKGStat and never used there.
- CalculateGameValue (SGGameManager.cs): float scoring of a finished game. Its value is an input to `SGGameManager.EndGame`.
- StartFryingGame and StartPouringGame (KGGameManager.cs): they only call the two managers' StartPlaying, which are modelled.
- The Awake singletons and scene loading: engine lifecycle. Each manager is an explicit value.
- The angle of a polyline segment (GetAngle, Atan2, Quaternion) and the square root in the grid's border inset: floating-point trigonometry. The segment's half-width offset and the inset are inputs.
- `Frying.EndPlaying`, `Pouring.EndPlaying`: put the glasses and holders directly into their end state; the movement back is not animated.
- IEEE float rounding: reals are exact. The ContinueGame spawn-interval thresholds are compared over reals.
- `Statistics.GenerateValuesForKGStat`: requires that no game time is zero. The source divides by a zero time there and charts an infinity.
- `Statistics.SetKGLines`: requires that no game time is zero, for the same reason.
- `SGGameManager.SpawnedPrefabs`: takes the first min(boxesNum, |prefabs|) prefabs. In the source a difficulty outside 1–3 stored in a user file makes the index go out of range and throws.
- `Shake.ThresholdDrifts`: states the drift on the scene's own threshold 0.7 only, not for every threshold in (0, 1).
- Box contacts inside a session: `SGSession` sees a filling bounced off a box of the other type only as a `Bounced` event. Which box and which filling met is modelled by `SortingRound.Enter`, which is not part of the session's state.
- `SGGameManager.SetUpGame`: corrected: it chooses the box prefabs for the difficulty afresh, where the source appends them to a list that is never cleared (SGGameManager.cs:259; see Findings, where `SGGameManager.SecondSessionGetsStaleBoxes` models the code as written). `SGGameManager.Update` and `SGSession` build on the corrected form.
- `SGGameManager.RecordStat`: when no value is listed yet and the round is not the session's first, the source indexes entry −1 and throws (SGGameManager.cs:203, 211, 220). The model leaves the list unchanged. The case cannot arise within a session, because `SetUpGame` resets the rounds played and the first won round appends.
- `Statistics.ChartOf`: corrected: draws equal values of a multi-value list at 5, where the source's AlignValues divides by zero and plots NaN (see Findings; `Statistics.EqualValuesAlignToNaN` models the code as written).
- `Statistics.SetSGLines`: corrected, for the same reason as `Statistics.ChartOf`.
- `Statistics.SetKGLines`: corrected, for the same reason as `Statistics.ChartOf`.
- `Position.AdjustPositions`: corrected: the right-hand set-up places the spawn areas by mirroring the home layout, where PositionManager.cs:48-63 negates their current x, so a second right-hand session moves them back (see Findings; `Position.SecondRightHandSessionUnmirrors` models the code as written).
- `Statistics.Align`: corrected: a scale without width (max equal to min) draws the value at 5, where StatisticsManager.cs:126-134 divides by zero and plots NaN (see Findings; `Statistics.EqualValuesAlignToNaN` models the code as written).
- `Statistics.AlignValues`: corrected, for the same reason as `Statistics.Align`: equal values of a multi-value list are drawn at 5 instead of NaN.
- `Shake.Play`: corrected: a game resets the controller and keeps the threshold, where ShakeController.cs:25-33 squares the threshold again on every Play (see Findings; `Shake.PlayAsWritten` and `Shake.ThresholdDrifts` model the code as written).
- `Filling.UntouchedFillingShrinksAway`, `Coin.UncollectedCoinFadesAway`: stated for a constant positive frame time.

## Findings

| source | as written | input that shows it | evidently intended | confidence | as-written member | corrected member |
|---|---|---|---|---|---|---|
| Assets/Scripts/SortingGame/Filling.cs:56 | the uint layer counter is cast to `int` before C#'s truncating `%` | counter 2^31 gives sorting order −27648 | an order in [0, 32000), 27648 here | not executed | Filling.SetOrderAsWrittenGoesNegative | Filling.SetOrderAgreesBelowSignBit |
| Assets/Scripts/SortingGame/SGGameManager.cs:120-127 | `_boxesPrefabes` is appended to at every SetUpGame and never cleared; SpawnBoxes reads its first entries | an easy session, then a medium one in the same scene: two First boxes and no Second box | each session spawns the boxes of its own difficulty | not executed | SGGameManager.SecondSessionGetsStaleBoxes | SGGameManager.EverySessionGetsItsBoxes |
| Assets/Scripts/SortingGame/PositionManager.cs:48-63 | the right-hand set-up negates the current x of both spawn areas | two right-hand sessions in the same scene put the areas back on the left-hand side | the areas stay mirrored for every right-hand session | not executed | Position.SecondRightHandSessionUnmirrors | Position.AdjustPositionsIdempotent |
| Assets/Scripts/Common/StatisticsManager.cs:126-134 | with two or more values the scale divides by max − min | values [v, v] align to [NaN, NaN] | equal values are drawn at 5, as a single value is | not executed | Statistics.EqualValuesAlignToNaN | Statistics.AlignAgreesAsWritten |
| Assets/Scripts/KitchenGame/ShakeController.cs:25-33 | Play calls the base Start, which squares the threshold again | thresholds 0.49, 0.2401, 0.05764801 in successive games | the threshold squared once per scene | not executed | Shake.ThresholdDrifts | Shake.PlaysKeepThreshold |

=== FILE: box.dfy ===
/** A box (SortingGame/Box.cs): the player drags it under fillings of its
    type. A matching filling is sorted into it (and may drop a coin) until
    the box is full; a wrong one is bounced back and counts as an error. */
module Box {
  import opened Common
  import opened Touchable
  import F = Filling

  datatype Sprite = Closed | Opened | Full

  /** One box. `fullTint` records that a box without a full sprite has
      turned green for good; `count` is the number of fillings sorted into
      it and `target` its share of the round's target. */
  datatype Box = Box(
    touch: TouchState,
    kind: F.FillingType,
    sprite: Sprite,
    hasFullSprite: bool,
    fullTint: bool,
    count: int,
    target: int,
    coinDropProb: real,
    isFull: bool,
    sortingOrder: int)

  /** Start, after SpawnBoxes set the target and coin probability: a
      closed, empty box that is not full. */
  function Start(position: Vec2, kind: F.FillingType, hasFullSprite: bool, target: int, coinDropProb: real, order: int): (b: Box)
    ensures b.touch == Touchable.Start(position) && b.kind == kind
    ensures b.sprite == Closed && b.count == 0 && !b.isFull && !b.fullTint
    ensures b.target == target && b.coinDropProb == coinDropProb && b.sortingOrder == order
  {
    Box(Touchable.Start(position), kind, Closed, hasFullSprite, false, 0, target, coinDropProb, false, order)
  }

  /** The box's own bookkeeping: with a positive target it never holds more
      than its target, and it is full exactly when it holds its target. A
      full box shows its full sprite, or its green tint when it has none. */
  predicate Valid(b: Box) {
    && b.target >= 1
    && 0 <= b.count <= b.target
    && (b.isFull <==> b.count == b.target)
    && (b.isFull && b.hasFullSprite ==> b.sprite == Full)
    && (b.isFull && !b.hasFullSprite ==> b.fullTint)
  }

  /** StartTouch: the box takes the finger and opens, unless it is full. */
  function StartTouch(b: Box, t: Touch): (r: Box)
    ensures r.touch == Touchable.StartTouch(b.touch, t)
    ensures r.sprite == (if b.isFull then b.sprite else Opened)
    ensures r == b.(touch := r.touch, sprite := r.sprite)
  {
    b.(touch := Touchable.StartTouch(b.touch, t), sprite := if b.isFull then b.sprite else Opened)
  }

  /** Drop: the box lets go and closes, unless it is full. */
  function Drop(b: Box): (r: Box)
    ensures r.touch == Touchable.Drop(b.touch)
    ensures r.sprite == (if b.isFull then b.sprite else Closed)
    ensures r == b.(touch := r.touch, sprite := r.sprite)
  {
    b.(touch := Touchable.Drop(b.touch), sprite := if b.isFull then b.sprite else Closed)
  }

  /** IsClosestObjectToTouch of a box: no box under the touch point has a
      greater reduced order, and no coin lies under it (a coin on top of a
      box always wins the touch). */
  function IsClosest(order: int, boxPeers: seq<F.Peer>, coinUnderTouch: bool): (r: bool)
    ensures r <==>
      (!coinUnderTouch
       && forall i :: 0 <= i < |boxPeers| ==> boxPeers[i].overlaps ==> F.ReducedOrder(boxPeers[i].order) <= order)
  {
    F.NoHigherPeer(order, boxPeers) && !coinUnderTouch
  }

  /** A touch that this box may capture: it began this frame over the box,
      and the box wins its arbitration. */
  predicate Grabs(b: Box, t: Touch, boxesAt: Touch -> seq<F.Peer>, coinAt: Touch -> bool) {
    t.phase == Began && t.overlaps && IsClosest(b.sortingOrder, boxesAt(t), coinAt(t))
  }

  /** OnTriggerTouch of a box, with its arbitration: `boxesAt` and
      `coinAt` say, for a touch, which boxes lie under it and whether a
      coin does. A free box that accepts touches captures the first touch
      it grabs, and only such a box captures anything. */
  function OnTriggerTouch(b: Box, touches: seq<Touch>, boxesAt: Touch -> seq<F.Peer>, coinAt: Touch -> bool): (r: Box)
    ensures (r.touch.isTouched && !b.touch.isTouched) <==>
      (!b.touch.isTouched && b.touch.canTouch
       && exists i :: 0 <= i < |touches| && Grabs(b, touches[i], boxesAt, coinAt))
    ensures r.touch.isTouched && !b.touch.isTouched ==>
      exists i :: 0 <= i < |touches| && Grabs(b, touches[i], boxesAt, coinAt)
        && (forall j :: 0 <= j < i ==> !Grabs(b, touches[j], boxesAt, coinAt))
        && r == StartTouch(b, touches[i])
    ensures !r.touch.isTouched || b.touch.isTouched ==> r == b
  {
    var closest := (t: Touch) => IsClosest(b.sortingOrder, boxesAt(t), coinAt(t));
    assert forall t :: Qualifies(t, closest) <==> Grabs(b, t, boxesAt, coinAt);
    match TouchToStart(b.touch, touches, closest)
    case None => b
    case Some(t) => StartTouch(b, t)
  }

  /** CheckCollisions of a box: grass at the target pins the horizontal
      coordinate; the box has no top or bottom border. */
  function CheckCollisions(current: Vec2, target: Vec2, grassNear: bool): (r: Vec2)
    ensures r.y == target.y
    ensures r.x == (if grassNear then current.x else target.x)
  {
    Touchable.CheckCollisions(current, target, false, grassNear)
  }

  /** OnTriggerDrag of a box: the base decision, with the box's drop and
      its collision rule. */
  function OnTriggerDrag(b: Box, touches: seq<Touch>, grassNear: bool): (r: Box)
    ensures DragDecision(b.touch, touches) == Stay ==> r == b
    ensures DragDecision(b.touch, touches) == DropIt ==> r == Drop(b)
    ensures DragDecision(b.touch, touches).DragTo? ==>
      r == b.(touch := b.touch.(position := CheckCollisions(b.touch.position, DragDecision(b.touch, touches).target, grassNear)))
  {
    match DragDecision(b.touch, touches)
    case Stay => b
    case DropIt => Drop(b)
    case DragTo(p) => b.(touch := Touchable.Drag(b.touch, p, false, grassNear))
  }

  /** BoxIsFull: a box that is not yet full and holds its target becomes
      full for good, showing its full sprite or, without one, turning
      green. */
  function BoxIsFull(b: Box): (r: Box)
    ensures !b.isFull && b.count >= b.target ==> r.isFull
    ensures r.isFull && !b.isFull ==> (if b.hasFullSprite then r.sprite == Full else r.fullTint)
    ensures b.isFull || b.count < b.target ==> r == b
    ensures r.count == b.count && r.target == b.target && r.touch == b.touch
  {
    if !b.isFull && b.count >= b.target then
      if b.hasFullSprite then b.(sprite := Full, isFull := true)
      else b.(fullTint := true, isFull := true)
    else b
  }

  /** A coin drops when the random roll is at most the box's probability. */
  predicate DropsCoin(b: Box, roll: real) {
    roll <= b.coinDropProb
  }

  /** CorrectFilling: a box that is not full takes the filling, may become
      full, and, when a coin drops, lets go and stops accepting touches
      while its yellow flash runs. A full box does nothing. */
  function CorrectFilling(b: Box, roll: real): (r: Box)
    ensures b.isFull ==> r == b
    ensures !b.isFull ==> r.count == b.count + 1
    ensures !b.isFull && DropsCoin(b, roll) ==> !r.touch.isTouched && !r.touch.canTouch
    ensures !b.isFull && !DropsCoin(b, roll) ==> r.touch == b.touch
  {
    if !b.isFull then
      var b1 := BoxIsFull(b.(count := b.count + 1));
      if DropsCoin(b, roll) then
        var b2 := Drop(b1);
        b2.(touch := b2.touch.(canTouch := false))
      else b1
    else b
  }

  /** WrongFilling: an error; the box lets go and stops accepting touches
      while its red flash runs. */
  function WrongFilling(b: Box): (r: Box)
    ensures !r.touch.isTouched && !r.touch.canTouch
    ensures r.count == b.count && r.isFull == b.isFull
  {
    var b1 := Drop(b);
    b1.(touch := b1.touch.(canTouch := false))
  }

  /** The end of a colour flash: a blocking one gives the box back its
      touches. The flash's colours are not modelled. */
  function FinishFlash(b: Box, block: bool): (r: Box)
    ensures block ==> r == b.(touch := b.touch.(canTouch := true))
    ensures !block ==> r == b
  {
    if block then b.(touch := b.touch.(canTouch := true)) else b
  }

  /** What becomes of the filling that meets a box. */
  datatype FillingOutcome = Kept(f: F.Filling) | Gone(inTrashCan: bool)

  /** The effects of a filling meeting a box: the box afterwards, the
      filling's fate, whether an error is counted and whether a coin is
      spawned at the box. */
  datatype Entry = Entry(box: Box, filling: FillingOutcome, error: bool, coin: bool)

  /** FillingInBox: a filling of the box's type is deleted, counted as
      sorted exactly when the box was not yet full, and the box takes it;
      any other filling is dropped (back onto its last position) and the
      box makes an error. */
  function FillingInBox(b: Box, f: F.Filling, roll: real): (e: Entry)
    ensures f.kind == b.kind ==>
      && e.filling == Gone(!b.isFull)
      && e.box == CorrectFilling(b, roll)
      && !e.error
      && (e.coin <==> !b.isFull && DropsCoin(b, roll))
    ensures f.kind != b.kind ==>
      && e.filling == Kept(F.Drop(f))
      && e.box == WrongFilling(b)
      && e.error && !e.coin
  {
    if f.kind == b.kind then
      Entry(CorrectFilling(b, roll), Gone(!b.isFull), false, !b.isFull && DropsCoin(b, roll))
    else
      Entry(WrongFilling(b), Kept(F.Drop(f)), true, false)
  }

  /** OnTriggerEnter2D: only a held box meeting a held filling reacts. */
  function OnTriggerEnter(b: Box, tag: string, f: F.Filling, roll: real): (e: Entry)
    ensures b.touch.isTouched && tag == "Filling" && f.touch.isTouched ==> e == FillingInBox(b, f, roll)
    ensures !(b.touch.isTouched && tag == "Filling" && f.touch.isTouched) ==> e == Entry(b, Kept(f), false, false)
  {
    if b.touch.isTouched && tag == "Filling" && f.touch.isTouched then FillingInBox(b, f, roll)
    else Entry(b, Kept(f), false, false)
  }

  /** A box stays valid whatever fillings meet it: it takes at most its
      target, becomes full exactly on reaching it, and a filling counts as
      sorted exactly when the box took it. */
  lemma {:induction false} EntryKeepsBoxValid(b: Box, tag: string, f: F.Filling, roll: real)
    requires Valid(b)
    ensures Valid(OnTriggerEnter(b, tag, f, roll).box)
    ensures var e := OnTriggerEnter(b, tag, f, roll);
      e.filling == Gone(true) <==> e.box.count == b.count + 1
    ensures OnTriggerEnter(b, tag, f, roll).box.count == b.count
         || OnTriggerEnter(b, tag, f, roll).box.count == b.count + 1
    ensures b.isFull ==> OnTriggerEnter(b, tag, f, roll).box.isFull
  {
    var e := OnTriggerEnter(b, tag, f, roll);
    if b.touch.isTouched && tag == "Filling" && f.touch.isTouched {
      if f.kind == b.kind && !b.isFull {
        var b1 := BoxIsFull(b.(count := b.count + 1));
        assert b.count + 1 <= b.target;
        assert b1.isFull <==> b.count + 1 == b.target;
      }
    }
  }
}

=== FILE: coin.dfy ===
/** A coin (SortingGame/Coin.cs): dropped by a box as a reward, collected
    by touching it, and fading out when left alone. */
module Coin {
  import opened Common
  import opened Touchable

  /** One coin. `alpha` is the sprite's current transparency, `timer` the
      time it has spent fading. */
  datatype Coin = Coin(
    touch: TouchState,
    fade: bool,
    fadeDuration: real,
    originalAlpha: real,
    alpha: real,
    timer: real)

  /** What a frame leaves of a coin: the coin, or its deletion, collected by
      the player or faded out. */
  datatype Fate = Alive(c: Coin) | Deleted(collected: bool)

  /** Start, after the manager's SetFade and SetFadeDuration: the coin is
      fully visible and its fade timer is at zero. */
  function Start(position: Vec2, fade: bool, fadeDuration: real, alpha: real): (c: Coin)
    ensures c.touch == Touchable.Start(position) && c.fade == fade && c.fadeDuration == fadeDuration
    ensures c.originalAlpha == alpha && c.alpha == alpha && c.timer == 0.0
  {
    Coin(Touchable.Start(position), fade, fadeDuration, alpha, alpha, 0.0)
  }

  /** The transparency after `t` seconds of fading: it moves at a constant
      rate from the original value toward zero, which it would reach at the
      duration. */
  function AlphaAt(originalAlpha: real, duration: real, t: real): real
    requires duration > 0.0
  {
    originalAlpha + ((0.0 - originalAlpha) / duration) * t
  }

  /** The fade starts at the original transparency, reaches zero exactly at
      the duration, and never leaves the range between them. */
  lemma AlphaFadesToZero(originalAlpha: real, duration: real, t: real)
    requires duration > 0.0 && originalAlpha >= 0.0
    requires 0.0 <= t <= duration
    ensures AlphaAt(originalAlpha, duration, 0.0) == originalAlpha
    ensures AlphaAt(originalAlpha, duration, duration) == 0.0
    ensures 0.0 <= AlphaAt(originalAlpha, duration, t) <= originalAlpha
  {
    var rate := (0.0 - originalAlpha) / duration;
    assert rate * duration == -originalAlpha;
    assert rate <= 0.0;
    assert rate * t >= rate * duration;
  }

  /** FadeObject: while the timer is below the duration the coin shows the
      transparency for the timer's value before this frame, then the timer
      advances; after that the coin is deleted as not collected. */
  function FadeObject(c: Coin, dt: real): (r: Fate)
    requires c.timer >= 0.0 && dt >= 0.0
    ensures r.Deleted? <==> c.timer >= c.fadeDuration
    ensures r.Deleted? ==> !r.collected
    ensures r.Alive? ==> c.fadeDuration > 0.0 && r.c == c.(alpha := AlphaAt(c.originalAlpha, c.fadeDuration, c.timer), timer := c.timer + dt)
  {
    if c.timer < c.fadeDuration then
      Alive(c.(alpha := AlphaAt(c.originalAlpha, c.fadeDuration, c.timer), timer := c.timer + dt))
    else Deleted(false)
  }

  /** Update: only a fading coin changes. */
  function Update(c: Coin, dt: real): (r: Fate)
    requires c.timer >= 0.0 && dt >= 0.0
    ensures !c.fade ==> r == Alive(c)
    ensures c.fade ==> r == FadeObject(c, dt)
  {
    if c.fade then FadeObject(c, dt) else Alive(c)
  }

  /** `n` frames of Update at a fixed frame time, stopping at deletion. */
  function Frames(c: Coin, dt: real, n: nat): Fate
    requires c.timer >= 0.0 && dt >= 0.0
    decreases n
  {
    if n == 0 then Alive(c)
    else
      match Update(c, dt)
      case Deleted(collected) => Deleted(collected)
      case Alive(d) => Frames(d, dt, n - 1)
  }

  /** A fading coin that nobody collects is gone once enough frames have
      passed to cover what is left of its fade, plus the frame that deletes
      it. */
  lemma {:induction false} UncollectedCoinFadesAway(c: Coin, dt: real, n: nat)
    requires c.fade && c.timer >= 0.0 && dt > 0.0
    requires (n as real) * dt >= c.fadeDuration - c.timer
    ensures Frames(c, dt, n + 1) == Deleted(false)
    decreases n
  {
    if c.timer < c.fadeDuration {
      var d := c.(alpha := AlphaAt(c.originalAlpha, c.fadeDuration, c.timer), timer := c.timer + dt);
      assert Update(c, dt) == Alive(d);
      assert n > 0;
      assert ((n - 1) as real) * dt == (n as real) * dt - dt;
      UncollectedCoinFadesAway(d, dt, n - 1);
    }
  }

  /** OnTriggerTouch of a coin: StartTouch collects it, so any touch that
      begins on an untouched, touchable coin deletes it as collected;
      otherwise the coin stays as it was. */
  function OnTriggerTouch(c: Coin, touches: seq<Touch>): (r: Fate)
    ensures r.Deleted? <==>
      !c.touch.isTouched && c.touch.canTouch
      && exists i :: 0 <= i < |touches| && touches[i].phase == Began && touches[i].overlaps
    ensures r.Deleted? ==> r.collected
    ensures r.Alive? ==> r.c == c
  {
    var choice := TouchToStart(c.touch, touches, DefaultClosest);
    assert choice.Some? <==>
      !c.touch.isTouched && c.touch.canTouch
      && exists i :: 0 <= i < |touches| && Qualifies(touches[i], DefaultClosest);
    if choice.Some? then Deleted(true) else Alive(c)
  }
}

=== FILE: common.dfy ===
/** Shared vocabulary of the model: optional values, 2-D vectors, the
    32-bit integer semantics of C#, and the List<T> operations the game
    scripts rely on. */
module Common {

  /** A value that may be missing: a C# reference that may be null. */
  datatype Option<T> = None | Some(value: T)

  /** A 2-D vector (UnityEngine.Vector2) over the reals. */
  datatype Vec2 = Vec2(x: real, y: real)

  /** The game flow states of the Sorting Game (GameState.cs). The enum's
      last member, None, is named Inactive here to keep it apart from
      Option.None. */
  datatype GameState = Menu | Playing | Victory | Inactive

  /** float.MaxValue, the largest finite single-precision value. */
  const FloatMax: real := 340282346638528859811704183484516925440.0

  /** A real that a finite single-precision float can hold in magnitude. */
  predicate InFloatRange(v: real) {
    -FloatMax <= v <= FloatMax
  }

  const UInt32Modulus: int := 0x1_0000_0000
  const Int32Modulus: int := 0x8000_0000

  /** An unchecked cast to uint: the value reduced modulo 2^32. */
  function ToUInt32(x: int): (r: int)
    ensures 0 <= r < UInt32Modulus
    ensures x >= 0 && x < UInt32Modulus ==> r == x
    ensures (x - r) % UInt32Modulus == 0
  {
    x % UInt32Modulus
  }

  /** An unchecked cast of a uint to int: values from 2^31 on wrap to negatives. */
  function UIntToInt32(u: int): (r: int)
    requires 0 <= u < UInt32Modulus
    ensures -Int32Modulus <= r < Int32Modulus
    ensures ToUInt32(r) == u
  {
    if u < Int32Modulus then u else u - UInt32Modulus
  }

  /** C#'s integer `%` for a positive divisor: the remainder takes the sign
      of the dividend (Dafny's `%` never returns a negative value). */
  function TruncMod(a: int, b: int): (r: int)
    requires b > 0
    ensures a >= 0 ==> 0 <= r < b
    ensures a < 0 ==> -b < r <= 0
    ensures r == a - b * TruncDiv(a, b)
  {
    if a >= 0 then a % b else -((-a) % b)
  }

  /** C#'s integer `/` for a positive divisor: the quotient rounds toward zero. */
  function TruncDiv(a: int, b: int): (r: int)
    requires b > 0
    ensures a >= 0 ==> 0 <= a - r * b < b
    ensures a < 0 ==> -b < a - r * b <= 0
  {
    if a >= 0 then a / b else -((-a) / b)
  }

  /** The position of the first element equal to x (List<T>.IndexOf). */
  function FirstIndex<T(==)>(s: seq<T>, x: T): (k: nat)
    requires x in s
    ensures k < |s| && s[k] == x && x !in s[..k]
    decreases |s|
  {
    if s[0] == x then 0
    else
      var k := FirstIndex(s[1..], x) + 1;
      assert s[..k] == [s[0]] + s[1..][..k - 1];
      k
  }

  /** List<T>.Remove: drops the first element equal to x, if any, and keeps
      the order of the rest. */
  function RemoveFirst<T(==)>(s: seq<T>, x: T): (r: seq<T>)
    ensures x !in s ==> r == s
    ensures x in s ==> |r| == |s| - 1
    ensures x in s ==> r == s[..FirstIndex(s, x)] + s[FirstIndex(s, x) + 1..]
    ensures x in s ==> forall i :: 0 <= i < |r| ==> r[i] == (if i < FirstIndex(s, x) then s[i] else s[i + 1])
    ensures multiset(r) == multiset(s) - multiset{x}
  {
    if x !in s then s
    else
      var k := FirstIndex(s, x);
      assert s == s[..k] + [x] + s[k + 1..];
      s[..k] + s[k + 1..]
  }

  /** Cutting position k out of a duplicate-free list leaves it
      duplicate-free. */
  lemma CutKeepsDistinct<T>(s: seq<T>, k: nat)
    requires Distinct(s) && k < |s|
    ensures Distinct(s[..k] + s[k + 1..])
  {
    var r := s[..k] + s[k + 1..];
    forall i, j | 0 <= i < j < |r| ensures r[i] != r[j] {
      var i' := if i < k then i else i + 1;
      var j' := if j < k then j else j + 1;
      assert r[i] == s[i'] && r[j] == s[j'];
    }
  }

  /** Cutting position k out of a duplicate-free list removes exactly the
      element that stood there. */
  lemma CutRemovesOnlyIt<T>(s: seq<T>, k: nat, y: T)
    requires Distinct(s) && k < |s|
    ensures y in s[..k] + s[k + 1..] <==> y in s && y != s[k]
  {
    var r := s[..k] + s[k + 1..];
    if y in r {
      var i :| 0 <= i < |r| && r[i] == y;
      var i' := if i < k then i else i + 1;
      assert s[i'] == y;
    }
    if y in s && y != s[k] {
      var i :| 0 <= i < |s| && s[i] == y;
      var i' := if i < k then i else i - 1;
      assert r[i'] == y;
    }
  }

  /** Removing an element from a duplicate-free list keeps it duplicate-free
      and removes exactly that element. */
  lemma RemoveFirstDistinct<T>(s: seq<T>, x: T)
    requires Distinct(s)
    ensures Distinct(RemoveFirst(s, x))
    ensures forall y :: y in RemoveFirst(s, x) <==> y in s && y != x
  {
    if x in s {
      var k := FirstIndex(s, x);
      CutKeepsDistinct(s, k);
      forall y ensures y in RemoveFirst(s, x) <==> y in s && y != x {
        CutRemovesOnlyIt(s, k, y);
      }
    }
  }

  /** No element occurs twice. */
  predicate Distinct<T(==)>(s: seq<T>) {
    forall i, j :: 0 <= i < j < |s| ==> s[i] != s[j]
  }

  /** The sum of a list of integers. */
  function Sum(s: seq<int>): int
    decreases |s|
  {
    if |s| == 0 then 0 else s[0] + Sum(s[1..])
  }

  /** The larger of two integers (Mathf.Max on ints). */
  function MaxInt(a: int, b: int): (r: int)
    ensures r >= a && r >= b && (r == a || r == b)
  {
    if a >= b then a else b
  }
}

=== FILE: filling.dfy ===
/** A filling, the draggable item the player sorts into boxes
    (SortingGame/Filling.cs): its place in the drawing order, its claim on a
    touch among overlapping fillings, its snapping back from tiles, and its
    shrinking away when left alone. */
module Filling {
  import opened Common
  import opened Touchable

  /** FillingType.cs: which box a filling belongs in. */
  datatype FillingType = First | Second | Third

  /** One filling. `sortingOrder` is its SpriteRenderer order; `timer`
      counts the time it has spent shrinking. */
  datatype Filling = Filling(
    touch: TouchState,
    kind: FillingType,
    sortingOrder: int,
    isOnTile: bool,
    shrink: bool,
    shrinkDuration: real,
    timer: real)

  /** What a frame leaves of a filling: the filling, or its deletion, sorted
      into a box or not. */
  datatype Fate = Alive(f: Filling) | Deleted(inTrashCan: bool)

  /** Another object's claim on a touch point: its sorting order and whether
      its collider contains the point. */
  datatype Peer = Peer(order: int, overlaps: bool)

  /** A peer's order as the arbitration reads it: cast to uint, then reduced
      modulo 32000. */
  function ReducedOrder(order: int): (r: int)
    ensures 0 <= r < MaxOrderInLayer
    ensures 0 <= order < MaxOrderInLayer ==> r == order
    ensures (ToUInt32(order) - r) % MaxOrderInLayer == 0
  {
    ToUInt32(order) % MaxOrderInLayer
  }

  /** SetOrderInLayer, as written: the uint layer counter is cast to int
      before C#'s sign-keeping `%`, so from 2^31 on the order comes out
      negative. The counter itself wraps at 2^32. Returns the order and the
      new counter. */
  function SetOrderInLayerAsWritten(fillingLayers: int): (r: (int, int))
    requires 0 <= fillingLayers < UInt32Modulus
    ensures 0 <= r.1 < UInt32Modulus
  {
    (TruncMod(UIntToInt32(fillingLayers), MaxOrderInLayer), (fillingLayers + 1) % UInt32Modulus)
  }

  /** SetOrderInLayer, corrected: the order is the counter modulo 32000,
      always a valid order, and consecutive fillings get consecutive orders
      until the reduction wraps. The counter goes up by one (wrapping at
      2^32 like the uint). */
  function SetOrderInLayer(fillingLayers: int): (r: (int, int))
    requires 0 <= fillingLayers < UInt32Modulus
    ensures 0 <= r.0 < MaxOrderInLayer
    ensures ReducedOrder(r.0) == r.0
    ensures fillingLayers < MaxOrderInLayer ==> r.0 == fillingLayers
    ensures (fillingLayers - r.0) % MaxOrderInLayer == 0
    ensures r.1 == (fillingLayers + 1) % UInt32Modulus
  {
    (fillingLayers % MaxOrderInLayer, (fillingLayers + 1) % UInt32Modulus)
  }

  /** The two agree on every counter below 2^31, which covers every round
      that spawns fewer than 2^31 fillings. */
  lemma SetOrderAgreesBelowSignBit(fillingLayers: int)
    requires 0 <= fillingLayers < Int32Modulus
    ensures SetOrderInLayerAsWritten(fillingLayers) == SetOrderInLayer(fillingLayers)
  {
  }

  /** From 2^31 on the code as written gives a negative order, so the
      filling is drawn beneath every filling with a non-negative order. */
  lemma SetOrderAsWrittenGoesNegative()
    ensures SetOrderInLayerAsWritten(Int32Modulus).0 == -27648
    ensures SetOrderInLayer(Int32Modulus).0 == 27648
  {
  }

  /** IsClosestObjectToTouch of a filling: no filling whose collider holds
      the touch point has a greater reduced order than this one's own. The
      scan stops at the first one that does. */
  function NoHigherPeer(own: int, peers: seq<Peer>): (r: bool)
    ensures r <==> forall i :: 0 <= i < |peers| ==> peers[i].overlaps ==> ReducedOrder(peers[i].order) <= own
    decreases |peers|
  {
    if |peers| == 0 then true
    else if peers[0].overlaps && ReducedOrder(peers[0].order) > own then false
    else NoHigherPeer(own, peers[1..])
  }

  /** The overlapping peer with the greatest order, the first such one. */
  function TopPeer(peers: seq<Peer>): (k: Option<nat>)
    requires forall i :: 0 <= i < |peers| ==> 0 <= peers[i].order < MaxOrderInLayer
    ensures k.None? <==> forall i :: 0 <= i < |peers| ==> !peers[i].overlaps
    ensures k.Some? ==> k.value < |peers| && peers[k.value].overlaps
    ensures k.Some? ==> forall i :: 0 <= i < |peers| && peers[i].overlaps ==> peers[i].order <= peers[k.value].order
    decreases |peers|
  {
    if |peers| == 0 then None
    else
      match TopPeer(peers[1..])
      case None => if peers[0].overlaps then Some(0) else None
      case Some(j) =>
        if peers[0].overlaps && peers[0].order >= peers[j + 1].order then Some(0) else Some(j + 1)
  }

  /** Touch arbitration among fillings: when their orders are valid and
      pairwise distinct (as SetOrderInLayer makes them within a round) and
      some filling lies under the touch point, exactly one of the fillings
      under the point may claim the touch, the topmost one. */
  lemma {:induction false} ExactlyOneFillingClaims(peers: seq<Peer>)
    requires forall i :: 0 <= i < |peers| ==> 0 <= peers[i].order < MaxOrderInLayer
    requires forall i, j :: 0 <= i < j < |peers| ==> peers[i].order != peers[j].order
    requires exists i :: 0 <= i < |peers| && peers[i].overlaps
    ensures exists i :: 0 <= i < |peers| && peers[i].overlaps && NoHigherPeer(peers[i].order, peers)
    ensures forall i, j ::
      (0 <= i < |peers| && 0 <= j < |peers|
       && peers[i].overlaps && NoHigherPeer(peers[i].order, peers)
       && peers[j].overlaps && NoHigherPeer(peers[j].order, peers)) ==> i == j
  {
    var k := TopPeer(peers).value;
    assert NoHigherPeer(peers[k].order, peers);
    forall i, j | 0 <= i < |peers| && 0 <= j < |peers|
      && peers[i].overlaps && NoHigherPeer(peers[i].order, peers)
      && peers[j].overlaps && NoHigherPeer(peers[j].order, peers)
      ensures i == j
    {
      assert ReducedOrder(peers[j].order) <= peers[i].order;
      assert ReducedOrder(peers[i].order) <= peers[j].order;
    }
  }

  /** Start: a new filling takes the next order, is not on a tile, has not
      begun shrinking, and takes the shrink settings of the game. Returns
      the filling and the game's new layer counter. */
  function Start(position: Vec2, kind: FillingType, fillingLayers: int, shrink: bool, shrinkDuration: real): (r: (Filling, int))
    requires 0 <= fillingLayers < UInt32Modulus
    ensures var f := r.0;
      && Owned(f.touch) && !f.touch.isTouched && f.touch.canTouch
      && !f.isOnTile && f.timer == 0.0
      && f.shrink == shrink && f.shrinkDuration == shrinkDuration
      && 0 <= f.sortingOrder < MaxOrderInLayer
      && r.1 == (fillingLayers + 1) % UInt32Modulus
  {
    var (order, layers) := SetOrderInLayer(fillingLayers);
    (Filling(Touchable.Start(position), kind, order, false, shrink, shrinkDuration, 0.0), layers)
  }

  /** A touch that this filling may capture: it began this frame over the
      filling, and no filling under it is drawn higher. */
  predicate Claims(f: Filling, t: Touch, peersAt: Touch -> seq<Peer>) {
    t.phase == Began && t.overlaps && NoHigherPeer(f.sortingOrder, peersAt(t))
  }

  /** OnTriggerTouch of a filling: the base protocol with the filling's
      arbitration; `peersAt` gives, for a touch, every filling of the game
      with its order and whether it lies under that touch's point. A free
      filling that accepts touches captures the first touch it claims, and
      only such a filling captures anything. */
  function OnTriggerTouch(f: Filling, touches: seq<Touch>, peersAt: Touch -> seq<Peer>): (r: Filling)
    ensures (r.touch.isTouched && !f.touch.isTouched) <==>
      (!f.touch.isTouched && f.touch.canTouch
       && exists i :: 0 <= i < |touches| && Claims(f, touches[i], peersAt))
    ensures r.touch.isTouched && !f.touch.isTouched ==>
      exists i :: 0 <= i < |touches| && Claims(f, touches[i], peersAt)
        && (forall j :: 0 <= j < i ==> !Claims(f, touches[j], peersAt))
        && r == f.(touch := StartTouch(f.touch, touches[i]))
    ensures !r.touch.isTouched || f.touch.isTouched ==> r == f
  {
    var closest := (t: Touch) => NoHigherPeer(f.sortingOrder, peersAt(t));
    assert forall t :: Qualifies(t, closest) <==> Claims(f, t, peersAt);
    match TouchToStart(f.touch, touches, closest)
    case None => f
    case Some(t) => f.(touch := StartTouch(f.touch, t))
  }

  /** Drop of a filling: one released over a tile goes back to where it was
      last dropped and leaves the tile; then the base drop lets go of the
      finger and records the final position. */
  function Drop(f: Filling): (r: Filling)
    ensures !r.isOnTile && !r.touch.isTouched && Owned(r.touch)
    ensures r.touch.position == (if f.isOnTile then f.touch.positionBeforeDrag else f.touch.position)
    ensures r.touch.positionBeforeDrag == r.touch.position
    ensures r.kind == f.kind && r.sortingOrder == f.sortingOrder && r.timer == f.timer
  {
    var f1 := if f.isOnTile then f.(touch := f.touch.(position := f.touch.positionBeforeDrag), isOnTile := false) else f;
    f1.(touch := Touchable.Drop(f1.touch))
  }

  /** Dropping over a tile and dropping again lands where the first drop
      landed: Drop is idempotent. */
  lemma DropIdempotent(f: Filling)
    ensures Drop(Drop(f)) == Drop(f)
  {
  }

  /** OnTriggerEnter2D: only a "Tile" collider puts the filling on a tile. */
  function OnTriggerEnter(f: Filling, tag: string): (r: Filling)
    ensures tag == "Tile" ==> r == f.(isOnTile := true)
    ensures tag != "Tile" ==> r == f
  {
    if tag == "Tile" then f.(isOnTile := true) else f
  }

  /** OnTriggerExit2D: only a "Tile" collider takes the filling off a tile. */
  function OnTriggerExit(f: Filling, tag: string): (r: Filling)
    ensures tag == "Tile" ==> r == f.(isOnTile := false)
    ensures tag != "Tile" ==> r == f
  {
    if tag == "Tile" then f.(isOnTile := false) else f
  }

  /** Update with Shrink: a touched filling, or one that does not shrink,
      is left alone; an untouched one advances its timer until it reaches
      the duration, and is then deleted as not sorted. The scale it shrinks
      through is not modelled. */
  function Update(f: Filling, dt: real): (r: Fate)
    requires dt >= 0.0
    ensures !f.shrink || f.touch.isTouched ==> r == Alive(f)
    ensures r.Deleted? <==> f.shrink && !f.touch.isTouched && f.timer >= f.shrinkDuration
    ensures r.Deleted? ==> !r.inTrashCan
    ensures r.Alive? ==> r.f == f.(timer := r.f.timer) && r.f.timer >= f.timer
    ensures f.shrink && !f.touch.isTouched && f.timer < f.shrinkDuration ==> r == Alive(f.(timer := f.timer + dt))
  {
    if !f.shrink || f.touch.isTouched then Alive(f)
    else if f.timer < f.shrinkDuration then Alive(f.(timer := f.timer + dt))
    else Deleted(false)
  }

  /** `n` frames of Update at a fixed frame time, stopping at deletion. */
  function Frames(f: Filling, dt: real, n: nat): Fate
    requires dt >= 0.0
    decreases n
  {
    if n == 0 then Alive(f)
    else
      match Update(f, dt)
      case Deleted(inTrash) => Deleted(inTrash)
      case Alive(g) => Frames(g, dt, n - 1)
  }

  /** A shrinking filling that nobody touches is gone, as not sorted, once
      enough frames have passed to cover what is left of its duration, plus
      the frame that deletes it. */
  lemma {:induction false} UntouchedFillingShrinksAway(f: Filling, dt: real, n: nat)
    requires f.shrink && !f.touch.isTouched
    requires dt > 0.0
    requires (n as real) * dt >= f.shrinkDuration - f.timer
    ensures Frames(f, dt, n + 1) == Deleted(false)
    decreases n
  {
    if f.timer < f.shrinkDuration {
      var g := f.(timer := f.timer + dt);
      assert Update(f, dt) == Alive(g);
      assert n > 0;
      assert ((n - 1) as real) * dt == (n as real) * dt - dt;
      UntouchedFillingShrinksAway(g, dt, n - 1);
    }
  }
}

=== FILE: frying.dfy ===
/** The Frying Game (KitchenGame/FGGameManager.cs, with the egg list
    handling of KitchenGame/Egg.cs): eight eggs are spawned in the pan;
    while the player holds both holders the eggs slide with the tilt and
    the shake controller scores; the game is won when the score reaches 15
    and lost when every egg has left the pan. Egg physics is not modelled:
    an egg leaving the pan is an input event. */
module Frying {
  import opened Common
  import opened Touchable
  import Holder
  import Shake

  /** The score that wins the game. */
  const Goal: real := 15.0

  /** The eggs spawned per game. */
  const MaxEggs: nat := 8

  /** An egg in the manager's list: its object id and whether it may move. */
  datatype Egg = Egg(id: nat, canMove: bool)

  datatype Outcome = Won | Lost

  /** The manager: its egg list, the next free object id, the game clock,
      the eggs saved by the last game, whether the eggs are cooking and the
      game running, the shake controller, both holders, and the end menu
      shown last. */
  datatype FG = FG(
    eggs: seq<Egg>,
    nextId: nat,
    gameTime: real,
    savedEggs: nat,
    cooking: bool,
    playing: bool,
    shaker: Shake.Shaker,
    holderLeft: Holder.Holder,
    holderRight: Holder.Holder,
    outcome: Option<Outcome>)

  /** No two eggs in the list are the same object. */
  predicate IdsDistinct(eggs: seq<Egg>) {
    forall i, j :: 0 <= i < j < |eggs| ==> eggs[i].id != eggs[j].id
  }

  /** The position of the egg object with the given id in the list. */
  function IndexOfEgg(eggs: seq<Egg>, id: nat): (r: Option<nat>)
    ensures r.None? <==> forall i :: 0 <= i < |eggs| ==> eggs[i].id != id
    ensures r.Some? ==> r.value < |eggs| && eggs[r.value].id == id
    ensures r.Some? ==> forall i :: 0 <= i < r.value ==> eggs[i].id != id
    decreases |eggs|
  {
    if |eggs| == 0 then None
    else if eggs[0].id == id then Some(0)
    else match IndexOfEgg(eggs[1..], id)
      case None => None
      case Some(k) => Some(k + 1)
  }

  /** List<GameObject>.Remove of an egg object: the first entry with its
      id goes, and nothing else changes. */
  function RemoveEgg(eggs: seq<Egg>, id: nat): (r: seq<Egg>)
    ensures IndexOfEgg(eggs, id).None? ==> r == eggs
    ensures IndexOfEgg(eggs, id).Some? ==>
      var k := IndexOfEgg(eggs, id).value; r == eggs[..k] + eggs[k + 1..]
    ensures IdsDistinct(eggs) ==> IdsDistinct(r) && forall i :: 0 <= i < |r| ==> r[i].id != id
  {
    match IndexOfEgg(eggs, id)
    case None => eggs
    case Some(k) =>
      var r := eggs[..k] + eggs[k + 1..];
      assert forall i :: 0 <= i < |r| ==> r[i] == (if i < k then eggs[i] else eggs[i + 1]);
      r
  }

  /** SetEggsMove: every egg in the list gets the flag. */
  function SetEggsMove(eggs: seq<Egg>, move: bool): (r: seq<Egg>)
    ensures |r| == |eggs|
    ensures forall i :: 0 <= i < |r| ==> r[i] == eggs[i].(canMove := move)
  {
    seq(|eggs|, i requires 0 <= i < |eggs| => eggs[i].(canMove := move))
  }

  /** SpawEggs: eight new egg objects, unable to move until cooking starts. */
  function SpawnEggs(nextId: nat): (r: seq<Egg>)
    ensures |r| == MaxEggs
    ensures forall i :: 0 <= i < |r| ==> r[i] == Egg(nextId + i, false)
  {
    seq(MaxEggs, i requires 0 <= i < MaxEggs => Egg(nextId + i, false))
  }

  /** The manager as the scene creates it. */
  function Created(shaker: Shake.Shaker, holderLeft: Holder.Holder, holderRight: Holder.Holder): (fg: FG)
    ensures fg.eggs == [] && !fg.playing && !fg.cooking && fg.outcome.None?
  {
    FG([], 0, 0.0, 0, false, false, shaker, holderLeft, holderRight, None)
  }

  /** StartPlaying: old eggs cleared, the shake controller reset with its
      score at zero, eight fresh eggs, nothing saved, not cooking, the clock
      at zero and the game running. */
  function StartPlaying(fg: FG): (r: FG)
    ensures r.playing && !r.cooking && r.gameTime == 0.0 && r.savedEggs == 0
    ensures |r.eggs| == MaxEggs && forall i :: 0 <= i < |r.eggs| ==> !r.eggs[i].canMove
    ensures forall i :: 0 <= i < |r.eggs| ==> r.eggs[i].id >= fg.nextId
    ensures !r.shaker.shake && r.shaker.curScore == 0.0 && r.shaker.threshold == fg.shaker.threshold
    ensures r.holderLeft == fg.holderLeft && r.holderRight == fg.holderRight
  {
    var shaker := Shake.Play(fg.shaker).(curScore := 0.0);
    fg.(eggs := SpawnEggs(fg.nextId), nextId := fg.nextId + MaxEggs, shaker := shaker,
        savedEggs := 0, cooking := false, gameTime := 0.0, playing := true)
  }

  /** ControlEggs: with both holders held the eggs start moving and the
      shaking starts, once; with either released both stop, once. */
  function ControlEggs(fg: FG): (r: FG)
    ensures r.cooking <==> fg.holderLeft.touch.isTouched && fg.holderRight.touch.isTouched
    ensures r.shaker == (if r.cooking != fg.cooking then fg.shaker.(shake := r.cooking) else fg.shaker)
    ensures r.cooking != fg.cooking ==> r.eggs == SetEggsMove(fg.eggs, r.cooking)
    ensures r.cooking == fg.cooking ==> r.eggs == fg.eggs
    ensures r == fg.(eggs := r.eggs, cooking := r.cooking, shaker := r.shaker)
  {
    if fg.holderLeft.touch.isTouched && fg.holderRight.touch.isTouched then
      if !fg.cooking then fg.(eggs := SetEggsMove(fg.eggs, true), cooking := true, shaker := fg.shaker.(shake := true))
      else fg
    else
      if fg.cooking then fg.(eggs := SetEggsMove(fg.eggs, false), cooking := false, shaker := fg.shaker.(shake := false))
      else fg
  }

  /** EndPlaying: the eggs still in the list are the saved ones; the list is
      emptied, the game stops, the shaking and cooking end, and both
      holders are released. */
  function EndPlaying(fg: FG): (r: FG)
    ensures r.savedEggs == |fg.eggs| && r.eggs == []
    ensures !r.playing && !r.cooking && !r.shaker.shake
    ensures r.shaker.curScore == fg.shaker.curScore
    ensures r.holderLeft == Holder.Release(fg.holderLeft) && r.holderRight == Holder.Release(fg.holderRight)
    ensures r.gameTime == fg.gameTime
  {
    fg.(savedEggs := |fg.eggs|, eggs := [], playing := false, shaker := fg.shaker.(shake := false),
        holderLeft := Holder.Release(fg.holderLeft), holderRight := Holder.Release(fg.holderRight),
        cooking := false)
  }

  /** Update: while the game runs the clock advances, the eggs are
      controlled, and then the game is won if the score has reached the
      goal, or else lost if no egg is left. A won check comes first, so a
      frame that reaches the goal with the last egg gone is a win. */
  function Update(fg: FG, dt: real): (r: FG)
    ensures !fg.playing ==> r == fg
    ensures fg.playing && fg.shaker.curScore >= Goal ==>
      r == EndPlaying(ControlEggs(fg.(gameTime := fg.gameTime + dt))).(outcome := Some(Won))
    ensures fg.playing && fg.shaker.curScore < Goal && |fg.eggs| == 0 ==>
      r == EndPlaying(ControlEggs(fg.(gameTime := fg.gameTime + dt))).(outcome := Some(Lost))
    ensures fg.playing && fg.shaker.curScore < Goal && |fg.eggs| > 0 ==>
      r == ControlEggs(fg.(gameTime := fg.gameTime + dt))
  {
    if fg.playing then
      var fg1 := ControlEggs(fg.(gameTime := fg.gameTime + dt));
      if fg1.shaker.curScore >= Goal then EndPlaying(fg1).(outcome := Some(Won))
      else if |fg1.eggs| <= 0 then EndPlaying(fg1).(outcome := Some(Lost))
      else fg1
    else fg
  }

  /** An egg leaves the pan: it stops moving and takes itself out of the
      manager's list. */
  function EggLeavesPan(fg: FG, id: nat): (r: FG)
    ensures r == fg.(eggs := RemoveEgg(fg.eggs, id))
    ensures |r.eggs| == |fg.eggs| - (if IndexOfEgg(fg.eggs, id).Some? then 1 else 0)
  {
    fg.(eggs := RemoveEgg(fg.eggs, id))
  }

  /** GetEggsScore: the saved eggs as a share of the eight. */
  function EggsScore(fg: FG): (r: real)
    ensures r * (MaxEggs as real) == fg.savedEggs as real
    ensures fg.savedEggs <= MaxEggs ==> 0.0 <= r <= 1.0
  {
    fg.savedEggs as real / MaxEggs as real
  }

  /** What can happen in the Frying Game scene. */
  datatype Event =
    | Start
    | Frame(dt: real)
    | HoldersFrame(left: seq<Touch>, right: seq<Touch>)
    | ShakerFrame(acc: Shake.Acceleration, dt: real)
    | EggLeaves(id: nat)

  function Step(fg: FG, e: Event): FG {
    match e
    case Start => StartPlaying(fg)
    case Frame(dt) => Update(fg, dt)
    case HoldersFrame(left, right) =>
      fg.(holderLeft := Holder.Update(fg.holderLeft, left), holderRight := Holder.Update(fg.holderRight, right))
    case ShakerFrame(acc, dt) => fg.(shaker := Shake.Update(fg.shaker, acc, dt))
    case EggLeaves(id) => EggLeavesPan(fg, id)
  }

  function Run(fg: FG, events: seq<Event>): FG
    decreases |events|
  {
    if |events| == 0 then fg else Run(Step(fg, events[0]), events[1..])
  }

  /** The manager's bookkeeping agrees with itself: every egg in the list
      moves exactly while cooking, the shaking is on exactly while cooking,
      the list holds at most eight distinct eggs, all with ids already
      handed out, and between games the list is empty and nothing cooks. */
  predicate Good(fg: FG) {
    && (forall i :: 0 <= i < |fg.eggs| ==> fg.eggs[i].canMove == fg.cooking)
    && fg.shaker.shake == fg.cooking
    && |fg.eggs| <= MaxEggs
    && fg.savedEggs <= MaxEggs
    && IdsDistinct(fg.eggs)
    && (forall i :: 0 <= i < |fg.eggs| ==> fg.eggs[i].id < fg.nextId)
    && (!fg.playing ==> fg.eggs == [] && !fg.cooking)
  }

  lemma CreatedIsGood(shaker: Shake.Shaker, holderLeft: Holder.Holder, holderRight: Holder.Holder)
    requires !shaker.shake
    ensures Good(Created(shaker, holderLeft, holderRight))
  {
  }

  lemma StartKeepsGood(fg: FG)
    requires Good(fg)
    ensures Good(StartPlaying(fg))
  {
    var r := StartPlaying(fg);
    assert forall i :: 0 <= i < |r.eggs| ==> r.eggs[i] == Egg(fg.nextId + i, false);
  }

  lemma FrameKeepsGood(fg: FG, dt: real)
    requires Good(fg)
    ensures Good(Update(fg, dt))
  {
  }

  lemma EggLeavesKeepsGood(fg: FG, id: nat)
    requires Good(fg)
    ensures Good(EggLeavesPan(fg, id))
  {
    var r := RemoveEgg(fg.eggs, id);
    match IndexOfEgg(fg.eggs, id)
    case None =>
    case Some(k) =>
      assert forall i :: 0 <= i < |r| ==> r[i] == (if i < k then fg.eggs[i] else fg.eggs[i + 1]);
  }

  /** Every event keeps the bookkeeping right. */
  lemma StepKeepsGood(fg: FG, e: Event)
    requires Good(fg)
    ensures Good(Step(fg, e))
  {
    match e
    case Start => StartKeepsGood(fg);
    case Frame(dt) => FrameKeepsGood(fg, dt);
    case HoldersFrame(_, _) =>
    case ShakerFrame(_, _) =>
    case EggLeaves(id) => EggLeavesKeepsGood(fg, id);
  }

  /** From the scene's start through any events the bookkeeping is right,
      so the eggs score of every game lies between 0 and 1. */
  lemma {:induction false} RunKeepsGood(fg: FG, events: seq<Event>)
    requires Good(fg)
    ensures Good(Run(fg, events))
    ensures 0.0 <= EggsScore(Run(fg, events)) <= 1.0
    decreases |events|
  {
    if |events| > 0 {
      StepKeepsGood(fg, events[0]);
      RunKeepsGood(Step(fg, events[0]), events[1..]);
    }
  }

  /** The shake score only grows while the eggs are cooking, that is while
      both holders were held at the last frame. */
  lemma ScoreOnlyWhileCooking(fg: FG, acc: Shake.Acceleration, dt: real)
    requires Good(fg)
    ensures Step(fg, ShakerFrame(acc, dt)).shaker.curScore != fg.shaker.curScore ==> fg.cooking
  {
  }

  /** One of the two holders: the left one or the right one. */
  function HolderOn(fg: FG, leftSide: bool): Holder.Holder {
    if leftSide then fg.holderLeft else fg.holderRight
  }

  /** No frame of the events brings a finger down on the holder of that
      side. */
  predicate NeverGrabbed(events: seq<Event>, leftSide: bool) {
    forall i :: 0 <= i < |events| && events[i].HoldersFrame? ==>
      Holder.NoGrab(if leftSide then events[i].left else events[i].right)
  }

  /** Nothing cooks: that holder is free, the eggs stand still and the
      shaking is off. */
  predicate Idle(fg: FG, leftSide: bool) {
    && !HolderOn(fg, leftSide).touch.isTouched
    && !fg.cooking && !fg.shaker.shake
    && forall i :: 0 <= i < |fg.eggs| ==> !fg.eggs[i].canMove
  }

  /** Taking an egg out of a list of still eggs leaves only still eggs. */
  lemma RemoveEggKeepsStill(eggs: seq<Egg>, id: nat)
    requires forall i :: 0 <= i < |eggs| ==> !eggs[i].canMove
    ensures forall i :: 0 <= i < |RemoveEgg(eggs, id)| ==> !RemoveEgg(eggs, id)[i].canMove
  {
    var r := RemoveEgg(eggs, id);
    match IndexOfEgg(eggs, id)
    case None =>
    case Some(k) =>
      assert forall i :: 0 <= i < |r| ==> r[i] == (if i < k then eggs[i] else eggs[i + 1]);
  }

  /** One event with the holder of that side left alone keeps the game
      idle: nothing starts cooking, and the shake score at most resets. */
  lemma StepKeepsIdle(fg: FG, e: Event, leftSide: bool)
    requires Idle(fg, leftSide)
    requires e.HoldersFrame? ==> Holder.NoGrab(if leftSide then e.left else e.right)
    ensures Idle(Step(fg, e), leftSide)
    ensures Step(fg, e).shaker.curScore == fg.shaker.curScore || Step(fg, e).shaker.curScore == 0.0
  {
    match e
    case Start =>
      var r := StartPlaying(fg);
      assert forall i :: 0 <= i < |r.eggs| ==> r.eggs[i] == Egg(fg.nextId + i, false);
    case Frame(dt) =>
    case HoldersFrame(left, right) =>
      Holder.UngrabbedStaysFree(HolderOn(fg, leftSide), if leftSide then left else right);
    case ShakerFrame(_, _) =>
    case EggLeaves(id) =>
      RemoveEggKeepsStill(fg.eggs, id);
  }

  /** One finger is not enough: while a player never puts a finger on one
      of the holders, the eggs never start cooking, never slide, and the
      shake score never grows, so such a game can never be won. */
  lemma {:induction false} OneHolderNeverCooks(fg: FG, events: seq<Event>, leftSide: bool)
    requires Idle(fg, leftSide) && NeverGrabbed(events, leftSide)
    ensures Idle(Run(fg, events), leftSide)
    ensures Run(fg, events).shaker.curScore == fg.shaker.curScore || Run(fg, events).shaker.curScore == 0.0
    decreases |events|
  {
    if |events| > 0 {
      StepKeepsIdle(fg, events[0], leftSide);
      assert NeverGrabbed(events[1..], leftSide) by {
        forall i | 0 <= i < |events[1..]| && events[1..][i].HoldersFrame?
          ensures Holder.NoGrab(if leftSide then events[1..][i].left else events[1..][i].right)
        {
          assert events[1..][i] == events[i + 1];
        }
      }
      OneHolderNeverCooks(Step(fg, events[0]), events[1..], leftSide);
    }
  }
}

=== FILE: glass.dfy ===
/** The glasses of the Pouring Game (KitchenGame/Glass.cs): the active
    glass counts the water entering it and, once full, hands over to the
    other glass and counts one glass filled. Each glass moves between its
    original position (active) and a position 10 units lower (inactive);
    the movement itself is a coroutine, modelled by the glass's current
    destination and the moment it arrives. */
module Glass {
  import opened Common

  /** The water a glass needs before the other glass takes over. */
  const TargetWaterNum: int := 80

  /** How far an inactive glass is lowered. */
  const PositionOffset: real := 10.0

  /** The tag of the water drops. */
  const WaterTag: string := "Water"

  /** A glass: where it started and where it goes when lowered, where it
      is, the drops it holds, whether it is the one being filled, and where
      its last movement is heading. */
  datatype Glass = Glass(
    originalPosition: Vec2,
    targetPosition: Vec2,
    position: Vec2,
    waterNum: int,
    active: bool,
    heading: Vec2)

  /** SetActive: the flag, and a movement up to the original position for
      an active glass or down to the lowered one otherwise. */
  function SetActive(g: Glass, a: bool): (r: Glass)
    ensures r.active == a
    ensures r.heading == (if a then g.originalPosition else g.targetPosition)
    ensures r == g.(active := a, heading := r.heading)
  {
    g.(active := a, heading := if a then g.originalPosition else g.targetPosition)
  }

  /** Play: the glass remembers where it stands, sets its lowered position
      10 units below, and becomes active or not. */
  function Play(g: Glass, position: Vec2, active: bool): (r: Glass)
    ensures r.originalPosition == position && r.position == position
    ensures r.targetPosition == Vec2(position.x, position.y - PositionOffset)
    ensures r.active == active
    ensures r.heading == (if active then position else r.targetPosition)
    ensures r.waterNum == g.waterNum
  {
    var placed := g.(originalPosition := position, position := position,
                     targetPosition := Vec2(position.x, position.y - PositionOffset));
    SetActive(placed, active)
  }

  /** The end of a movement: the glass is at its destination, and a glass
      that has reached its lowered position is emptied of its count. */
  function Arrive(g: Glass): (r: Glass)
    ensures r.position == g.heading
    ensures g.heading == g.targetPosition ==> r.waterNum == 0
    ensures g.heading != g.targetPosition ==> r.waterNum == g.waterNum
    ensures r.active == g.active
  {
    g.(position := g.heading, waterNum := if g.heading == g.targetPosition then 0 else g.waterNum)
  }

  /** OnTriggerEnter2D: water entering is counted only while active. */
  function OnTriggerEnter(g: Glass, tag: string): (r: Glass)
    ensures r.waterNum == g.waterNum + (if g.active && tag == WaterTag then 1 else 0)
    ensures r == g.(waterNum := r.waterNum)
  {
    if g.active && tag == WaterTag then g.(waterNum := g.waterNum + 1) else g
  }

  /** OnTriggerExit2D: water leaving is always discounted. */
  function OnTriggerExit(g: Glass, tag: string): (r: Glass)
    ensures r.waterNum == g.waterNum - (if tag == WaterTag then 1 else 0)
    ensures r == g.(waterNum := r.waterNum)
  {
    if tag == WaterTag then g.(waterNum := g.waterNum - 1) else g
  }

  /** The count can fall below zero: a drop that entered a glass before it
      was lowered and emptied, and leaves afterwards, is discounted from
      nothing. */
  lemma CountCanGoNegative(g: Glass)
    requires g.active && g.waterNum == 0 && g.originalPosition != g.targetPosition
    ensures OnTriggerExit(Arrive(SetActive(OnTriggerEnter(g, WaterTag), false)), WaterTag).waterNum == -1
  {
  }

  /** The two glasses and the manager's count of filled glasses. */
  datatype Pair = Pair(left: Glass, right: Glass, curGlasses: int)

  /** Exactly one of the glasses is being filled. */
  predicate OneActive(p: Pair) {
    p.left.active != p.right.active
  }

  /** The start of a pouring game: the left glass lowered, the right one
      active, no glass filled. */
  function PlayPair(p: Pair, leftPosition: Vec2, rightPosition: Vec2): (r: Pair)
    ensures OneActive(r) && r.right.active
    ensures r.curGlasses == 0
  {
    Pair(Play(p.left, leftPosition, false), Play(p.right, rightPosition, true), 0)
  }

  /** Update of one glass: a full active glass deactivates, activates the
      other, and one more glass counts as filled. */
  function UpdateGlass(p: Pair, leftOne: bool): (r: Pair)
    ensures var g := if leftOne then p.left else p.right;
      (g.active && g.waterNum >= TargetWaterNum) ==>
        && r.curGlasses == p.curGlasses + 1
        && (if leftOne then !r.left.active && r.right.active else !r.right.active && r.left.active)
    ensures var g := if leftOne then p.left else p.right;
      !(g.active && g.waterNum >= TargetWaterNum) ==> r == p
  {
    var g := if leftOne then p.left else p.right;
    if g.active && g.waterNum >= TargetWaterNum then
      if leftOne then Pair(SetActive(p.left, false), SetActive(p.right, true), p.curGlasses + 1)
      else Pair(SetActive(p.left, true), SetActive(p.right, false), p.curGlasses + 1)
    else p
  }

  /** What can happen to the glasses during a pouring game. */
  datatype Event =
    | WaterIn(leftOne: bool, tag: string)
    | WaterOut(leftOne: bool, tag: string)
    | Tick(leftOne: bool)
    | Arrived(leftOne: bool)

  /** One event applied to the pair. */
  function Step(p: Pair, e: Event): Pair {
    match e
    case WaterIn(l, t) => if l then p.(left := OnTriggerEnter(p.left, t)) else p.(right := OnTriggerEnter(p.right, t))
    case WaterOut(l, t) => if l then p.(left := OnTriggerExit(p.left, t)) else p.(right := OnTriggerExit(p.right, t))
    case Tick(l) => UpdateGlass(p, l)
    case Arrived(l) => if l then p.(left := Arrive(p.left)) else p.(right := Arrive(p.right))
  }

  /** The events in order. */
  function Run(p: Pair, events: seq<Event>): Pair
    decreases |events|
  {
    if |events| == 0 then p else Run(Step(p, events[0]), events[1..])
  }

  /** The glasses always take turns: every event keeps exactly one glass
      active, the count of filled glasses never falls and rises by one
      exactly when the turn passes to the other glass. */
  lemma StepKeepsTurns(p: Pair, e: Event)
    requires OneActive(p)
    ensures OneActive(Step(p, e))
    ensures Step(p, e).curGlasses == p.curGlasses || Step(p, e).curGlasses == p.curGlasses + 1
    ensures Step(p, e).curGlasses == p.curGlasses + 1 <==> Step(p, e).left.active != p.left.active
  {
  }

  /** Over a whole game the glasses keep taking turns, and the count of
      filled glasses only grows, by at most one per event. */
  lemma {:induction false} RunKeepsTurns(p: Pair, events: seq<Event>)
    requires OneActive(p)
    ensures OneActive(Run(p, events))
    ensures p.curGlasses <= Run(p, events).curGlasses <= p.curGlasses + |events|
    decreases |events|
  {
    if |events| > 0 {
      StepKeepsTurns(p, events[0]);
      RunKeepsTurns(Step(p, events[0]), events[1..]);
    }
  }
}

=== FILE: grid.dfy ===
/** The statistics grid (Common/UIGridRenderer.cs): a grid of bordered
    cells, each drawn as a frame of eight vertices (four outer corners,
    four inner ones) and eight triangles, two per side of the frame. The
    renderer's rectangle size and the inset of the inner corners, the
    square root of half the squared line thickness, are inputs. */
module Grid {
  import opened Common

  /** A grid size in cells (UnityEngine.Vector2Int). */
  datatype GridSize = GridSize(x: int, y: int)

  /** The grid a renderer starts with: one column of twelve rows. */
  const DefaultGridSize: GridSize := GridSize(1, 12)

  /** SetGridSize: only the number of columns is taken from the argument;
      the rows stay as they were. */
  function SetGridSize(g: GridSize, size: GridSize): (r: GridSize)
    ensures r.x == size.x && r.y == g.y
  {
    g.(x := size.x)
  }

  /** A triangle of the mesh, as three vertex indices. */
  datatype Triangle = Triangle(a: int, b: int, c: int)

  /** Every index of the triangle lies in [lo, hi). */
  predicate Within(t: Triangle, lo: int, hi: int) {
    lo <= t.a < hi && lo <= t.b < hi && lo <= t.c < hi
  }

  /** The vertices a triangle uses. */
  function Corners(t: Triangle): set<int> {
    {t.a, t.b, t.c}
  }

  /** The vertices of side s of the frame of cell `index`: the outer pair
      s, s + 1 and the inner pair s + 4, s + 5 (counted round the frame). */
  function SideVertices(index: int, s: int): set<int>
    requires 0 <= s < 4
  {
    var o := 8 * index;
    var next := if s == 3 then 0 else s + 1;
    {o + s, o + next, o + 4 + s, o + 4 + next}
  }

  /** The triangles DrawCell adds for cell `index`: they use only the
      cell's own eight vertices, and each side of the frame is covered by
      two triangles spanning its outer and its inner pair of vertices. */
  function CellTriangles(index: int): (ts: seq<Triangle>)
    ensures |ts| == 8
    ensures forall k :: 0 <= k < 8 ==> Within(ts[k], 8 * index, 8 * index + 8)
    ensures forall s :: 0 <= s < 4 ==> Corners(ts[2 * s]) + Corners(ts[2 * s + 1]) == SideVertices(index, s)
  {
    FrameWithinCell(index);
    FrameCoversSides(index);
    Frame(8 * index)
  }

  /** DrawCell's eight triangles over the vertices from `o` on, two per
      side of the frame. */
  function Frame(o: int): seq<Triangle> {
    [Triangle(o + 0, o + 1, o + 5), Triangle(o + 5, o + 4, o + 0),
     Triangle(o + 1, o + 2, o + 6), Triangle(o + 6, o + 5, o + 1),
     Triangle(o + 2, o + 3, o + 7), Triangle(o + 7, o + 6, o + 2),
     Triangle(o + 3, o + 0, o + 4), Triangle(o + 4, o + 7, o + 3)]
  }

  lemma FrameWithinCell(index: int)
    ensures forall k :: 0 <= k < 8 ==> Within(Frame(8 * index)[k], 8 * index, 8 * index + 8)
  {
    var ts := Frame(8 * index);
    forall k | 0 <= k < 8
      ensures Within(ts[k], 8 * index, 8 * index + 8)
    {
    }
  }

  lemma FrameCoversSides(index: int)
    ensures forall s :: 0 <= s < 4 ==> Corners(Frame(8 * index)[2 * s]) + Corners(Frame(8 * index)[2 * s + 1]) == SideVertices(index, s)
  {
    var ts := Frame(8 * index);
    forall s | 0 <= s < 4
      ensures Corners(ts[2 * s]) + Corners(ts[2 * s + 1]) == SideVertices(index, s)
    {
      SideCovered(index, s, ts[2 * s], ts[2 * s + 1]);
    }
  }

  /** The two triangles DrawCell lays over side s use exactly that side's
      outer and inner pairs of vertices. */
  lemma SideCovered(index: int, s: int, t1: Triangle, t2: Triangle)
    requires 0 <= s < 4
    requires var o, next := 8 * index, if s == 3 then 0 else s + 1;
      t1 == Triangle(o + s, o + next, o + 4 + next) && t2 == Triangle(o + 4 + next, o + 4 + s, o + s)
    ensures Corners(t1) + Corners(t2) == SideVertices(index, s)
  {
  }

  /** The vertices DrawCell adds for cell (x, y) of cells cw wide and ch
      high: the outer corners clockwise from the bottom left, then the
      inner corners in the same order, each d in from its outer corner on
      both axes. */
  function CellVertices(x: int, y: int, cw: real, ch: real, d: real): (vs: seq<Vec2>)
    ensures |vs| == 8
  {
    var x0 := cw * x as real;
    var y0 := ch * y as real;
    [Vec2(x0, y0), Vec2(x0, y0 + ch), Vec2(x0 + cw, y0 + ch), Vec2(x0 + cw, y0),
     Vec2(x0 + d, y0 + d), Vec2(x0 + d, y0 + ch - d), Vec2(x0 + cw - d, y0 + ch - d), Vec2(x0 + cw - d, y0 + d)]
  }

  /** The point lies in the closed rectangle [x0, x0 + w] x [y0, y0 + h]. */
  predicate InRect(p: Vec2, x0: real, y0: real, w: real, h: real) {
    x0 <= p.x <= x0 + w && y0 <= p.y <= y0 + h
  }

  /** The frame of a cell stays inside the cell: the outer vertices are
      the cell's four corners, and when the inset fits in half the cell
      each inner vertex lies inside the cell, at the inset from both
      borders that meet at its outer corner. */
  lemma CellFrameInsideCell(x: int, y: int, cw: real, ch: real, d: real)
    requires 0.0 <= d && 2.0 * d <= cw && 2.0 * d <= ch
    ensures var vs := CellVertices(x, y, cw, ch, d);
      && {vs[0], vs[1], vs[2], vs[3]} ==
         {Vec2(cw * x as real, ch * y as real), Vec2(cw * x as real + cw, ch * y as real),
          Vec2(cw * x as real, ch * y as real + ch), Vec2(cw * x as real + cw, ch * y as real + ch)}
      && (forall j :: 0 <= j < 8 ==> InRect(vs[j], cw * x as real, ch * y as real, cw, ch))
      && (forall j :: 0 <= j < 4 ==>
            (if vs[j].x == cw * x as real then vs[j + 4].x == vs[j].x + d else vs[j + 4].x == vs[j].x - d))
  {
  }

  /** The number of cells OnPopulateMesh draws. */
  function Cells(size: GridSize): nat {
    if size.x > 0 && size.y > 0 then size.x * size.y else 0
  }

  /** The column of cell number k in a grid w cells wide. */
  function Col(k: nat, w: int): (c: nat)
    requires w > 0
    ensures c < w
    decreases k
  {
    if k < w then k else Col(k - w, w)
  }

  /** The row of cell number k in a grid w cells wide: together with the
      column it gives k back. */
  function Row(k: nat, w: int): (r: nat)
    requires w > 0
    ensures r * w + Col(k, w) == k
    decreases k
  {
    if k < w then 0 else Row(k - w, w) + 1
  }

  /** Cell (x, y) of a grid w cells wide has number y * w + x, and the
      number gives the cell back. */
  lemma {:induction false} RowMajorIndex(x: int, y: int, w: int)
    requires 0 <= x < w && 0 <= y
    ensures Col(y * w + x, w) == x && Row(y * w + x, w) == y
    decreases y
  {
    if y > 0 {
      assert y * w + x - w == (y - 1) * w + x;
      assert (y - 1) * w >= 0;
      RowMajorIndex(x, y - 1, w);
    }
  }

  /** The first `count` cells of a grid w cells wide are in the mesh: the
      triangles name only vertices of the mesh, and cell k owns vertices
      and triangles 8k to 8k + 7. */
  predicate MeshUpTo(verts: seq<Vec2>, tris: seq<Triangle>, count: nat, w: int, cw: real, ch: real, d: real)
    requires w > 0
  {
    && |verts| == 8 * count && |tris| == 8 * count
    && (forall t :: 0 <= t < |tris| ==> Within(tris[t], 0, |verts|))
    && (forall k :: 0 <= k < count ==> verts[8 * k .. 8 * k + 8] == CellVertices(Col(k, w), Row(k, w), cw, ch, d))
    && (forall k :: 0 <= k < count ==> tris[8 * k .. 8 * k + 8] == CellTriangles(k))
  }

  /** Appending a block of eight to a list of `count` blocks of eight keeps
      every earlier block and makes the new one block number `count`. */
  lemma AppendBlock<T>(s: seq<T>, block: seq<T>, count: nat)
    requires |s| == 8 * count && |block| == 8
    ensures forall k :: 0 <= k < count ==> (s + block)[8 * k .. 8 * k + 8] == s[8 * k .. 8 * k + 8]
    ensures (s + block)[8 * count .. 8 * count + 8] == block
  {
    forall k | 0 <= k < count ensures (s + block)[8 * k .. 8 * k + 8] == s[8 * k .. 8 * k + 8] {
      assert 8 * k + 8 <= 8 * count;
    }
  }

  /** Appending the cell numbered `count` to a mesh of `count` cells gives
      a mesh of count + 1 cells. */
  lemma ExtendByCell(verts: seq<Vec2>, tris: seq<Triangle>, count: nat, w: int, cw: real, ch: real, d: real)
    requires w > 0
    requires MeshUpTo(verts, tris, count, w, cw, ch, d)
    ensures MeshUpTo(verts + CellVertices(Col(count, w), Row(count, w), cw, ch, d), tris + CellTriangles(count), count + 1, w, cw, ch, d)
  {
    var cv := CellVertices(Col(count, w), Row(count, w), cw, ch, d);
    var ct := CellTriangles(count);
    var v2, t2 := verts + cv, tris + ct;
    AppendBlock(verts, cv, count);
    AppendBlock(tris, ct, count);
    forall k | 0 <= k < count + 1
      ensures v2[8 * k .. 8 * k + 8] == CellVertices(Col(k, w), Row(k, w), cw, ch, d)
    {
      if k < count {
        assert v2[8 * k .. 8 * k + 8] == verts[8 * k .. 8 * k + 8];
      }
    }
    forall k | 0 <= k < count + 1
      ensures t2[8 * k .. 8 * k + 8] == CellTriangles(k)
    {
      if k < count {
        assert t2[8 * k .. 8 * k + 8] == tris[8 * k .. 8 * k + 8];
      }
    }
    forall t | 0 <= t < |t2| ensures Within(t2[t], 0, |v2|) {
      if t >= |tris| {
        assert t2[t] == ct[t - |tris|];
      }
    }
  }

  /** Drawing cell (x, y), number `count`, extends the mesh by that cell. */
  lemma DrawCellExtends(verts: seq<Vec2>, tris: seq<Triangle>, count: nat, x: int, y: int, w: int, cw: real, ch: real, d: real)
    requires 0 <= x < w && 0 <= y && count == y * w + x
    requires MeshUpTo(verts, tris, count, w, cw, ch, d)
    ensures MeshUpTo(verts + CellVertices(x, y, cw, ch, d), tris + CellTriangles(count), count + 1, w, cw, ch, d)
  {
    RowMajorIndex(x, y, w);
    ExtendByCell(verts, tris, count, w, cw, ch, d);
  }

  /** OnPopulateMesh: the cells row by row, each adding its eight vertices
      and eight triangles. Every triangle index names a vertex of the mesh,
      cell k owns vertices and triangles 8k to 8k + 7, and cell k is the
      cell in column Col(k) and row Row(k). */
  method PopulateMesh(size: GridSize, width: real, height: real, d: real) returns (verts: seq<Vec2>, tris: seq<Triangle>)
    ensures |verts| == 8 * Cells(size) && |tris| == 8 * Cells(size)
    ensures forall t :: 0 <= t < |tris| ==> Within(tris[t], 0, |verts|)
    ensures forall k :: 0 <= k < Cells(size) ==>
      verts[8 * k .. 8 * k + 8] == CellVertices(Col(k, size.x), Row(k, size.x), width / size.x as real, height / size.y as real, d)
    ensures forall k :: 0 <= k < Cells(size) ==> tris[8 * k .. 8 * k + 8] == CellTriangles(k)
  {
    verts := [];
    tris := [];
    if size.x <= 0 {
      // Every row is empty: no cell is drawn.
      return;
    }
    var cw := width / size.x as real;
    var ch := if size.y > 0 then height / size.y as real else 0.0;
    var w := size.x;
    var count := 0;
    var y := 0;
    while y < size.y
      invariant 0 <= y && (if size.y > 0 then y <= size.y else y == 0)
      invariant 0 <= count == y * w
      invariant MeshUpTo(verts, tris, count, w, cw, ch, d)
    {
      var x := 0;
      while x < size.x
        invariant 0 <= x <= w
        invariant 0 <= count == y * w + x
        invariant MeshUpTo(verts, tris, count, w, cw, ch, d)
      {
        DrawCellExtends(verts, tris, count, x, y, w, cw, ch, d);
        verts := verts + CellVertices(x, y, cw, ch, d);
        tris := tris + CellTriangles(count);
        count := count + 1;
        x := x + 1;
      }
      assert (y + 1) * w == y * w + w;
      y := y + 1;
    }
    assert count == y * size.x == size.x * y;
  }

  /** The grid spans the renderer's rectangle: the top right corner of the
      last cell is the rectangle's top right corner. */
  lemma LastCellReachesCorner(size: GridSize, width: real, height: real, d: real)
    requires size.x > 0 && size.y > 0
    ensures var vs := CellVertices(size.x - 1, size.y - 1, width / size.x as real, height / size.y as real, d);
      vs[2] == Vec2(width, height)
  {
    var cw := width / size.x as real;
    var ch := height / size.y as real;
    assert cw * (size.x - 1) as real + cw == cw * size.x as real;
    assert ch * (size.y - 1) as real + ch == ch * size.y as real;
  }
}

=== FILE: holder.dfy ===
/** A holder (KitchenGame/Holder.cs): a touchable that never moves. The
    player keeps a finger on each of the two holders to cook or to pour,
    and a held holder turns translucent. */
module Holder {
  import opened Common
  import opened Touchable

  /** A sprite colour (UnityEngine.Color). */
  datatype Color = Color(r: real, g: real, b: real, a: real)

  /** The alpha of a held holder. */
  const HeldAlpha: real := 0.2

  /** A holder: its touch state, the colour it was made with and the
      colour it shows. */
  datatype Holder = Holder(touch: TouchState, originalColor: Color, color: Color)

  /** The colour shown while held: the original colour at alpha 0.2. */
  function Faded(c: Color): (f: Color)
    ensures f.r == c.r && f.g == c.g && f.b == c.b && f.a == HeldAlpha
  {
    c.(a := HeldAlpha)
  }

  /** The holder shows what its state calls for: faded while held, its own
      colour otherwise. */
  predicate Shows(h: Holder) {
    h.color == (if h.touch.isTouched then Faded(h.originalColor) else h.originalColor)
  }

  /** Start: a fresh touchable that remembers its sprite's colour. */
  function Start(position: Vec2, color: Color): (h: Holder)
    ensures h.touch == Touchable.Start(position) && h.originalColor == color
    ensures Shows(h)
  {
    Holder(Touchable.Start(position), color, color)
  }

  /** StartTouch: the holder takes the finger and fades. */
  function StartTouch(h: Holder, t: Touch): (r: Holder)
    ensures r.touch == Touchable.StartTouch(h.touch, t)
    ensures r.color == Faded(h.originalColor) && r.originalColor == h.originalColor
  {
    h.(touch := Touchable.StartTouch(h.touch, t), color := Faded(h.originalColor))
  }

  /** Drop: the holder lets go and shows its own colour again. */
  function Drop(h: Holder): (r: Holder)
    ensures r.touch == Touchable.Drop(h.touch)
    ensures r.color == h.originalColor && r.originalColor == h.originalColor
  {
    h.(touch := Touchable.Drop(h.touch), color := h.originalColor)
  }

  /** RestoreColor: the holder's own colour, whatever its state. */
  function RestoreColor(h: Holder): (r: Holder)
    ensures r == h.(color := h.originalColor)
  {
    h.(color := h.originalColor)
  }

  /** What the game managers do to both holders when a game ends:
      SetIsTouched(false), which leaves the finger id as it was, then
      RestoreColor. */
  function Release(h: Holder): (r: Holder)
    ensures !r.touch.isTouched && Shows(r)
    ensures r.touch == h.touch.(isTouched := false) && r.originalColor == h.originalColor
  {
    RestoreColor(h.(touch := h.touch.(isTouched := false)))
  }

  /** Update: the touch check, then the drag check, whose drag does nothing
      for a holder. */
  function Update(h: Holder, touches: seq<Touch>): (r: Holder)
    ensures r.touch.position == h.touch.position
    ensures r.originalColor == h.originalColor
    ensures r.touch.isTouched && !h.touch.isTouched ==> TouchToStart(h.touch, touches, DefaultClosest).Some?
    ensures r.touch.isTouched ==> TouchExist(touches, r.touch.touchId)
  {
    var h1 := match TouchToStart(h.touch, touches, DefaultClosest)
      case None => h
      case Some(t) => StartTouch(h, t);
    match DragDecision(h1.touch, touches)
    case Stay => h1
    case DropIt => Drop(h1)
    case DragTo(_) => h1
  }

  /** No touch of the frame could be captured by the holder: none has just
      begun on its collider. */
  predicate NoGrab(touches: seq<Touch>) {
    forall i :: 0 <= i < |touches| ==> !(touches[i].phase == Began && touches[i].overlaps)
  }

  /** A free holder stays free through a frame in which no finger comes
      down on it, and a frame with a finger coming down on it is the only
      way a free holder becomes held. */
  lemma UngrabbedStaysFree(h: Holder, touches: seq<Touch>)
    requires !h.touch.isTouched
    ensures NoGrab(touches) ==> !Update(h, touches).touch.isTouched
    ensures Update(h, touches).touch.isTouched ==> !NoGrab(touches)
  {
    if Update(h, touches).touch.isTouched {
      var j :| 0 <= j < |touches| && Qualifies(touches[j], DefaultClosest);
      assert touches[j].phase == Began && touches[j].overlaps;
    }
  }

  /** A holder always shows its state: held holders are faded and free
      ones are not, through every frame and every release. */
  lemma UpdateKeepsShows(h: Holder, touches: seq<Touch>)
    requires Shows(h)
    ensures Shows(Update(h, touches))
  {
  }
}

=== FILE: jug.dfy ===
/** The jug of the Pouring Game (KitchenGame/Jug.cs): it turns with the
    tilt of the device while pouring is allowed, and counts the water that
    leaves it. The tilt is an input: the averaged accelerometer x value. */
module Jug {
  import opened Common

  /** Degrees per second per unit of tilt. */
  const RotationSpeed: real := 100.0

  /** The tag of the water drops. */
  const WaterTag: string := "Water"

  /** The jug: its angle, the drops that have left it, and whether it may
      turn. */
  datatype Jug = Jug(rotation: real, water: int, pour: bool)

  /** StartPouring: upright, empty count, not pouring. */
  function StartPouring(j: Jug): (r: Jug)
    ensures r.rotation == 0.0 && r.water == 0 && !r.pour
  {
    Jug(0.0, 0, false)
  }

  /** ContinuePouring: only the pour flag is raised. */
  function ContinuePouring(j: Jug): (r: Jug)
    ensures r.pour && r.rotation == j.rotation && r.water == j.water
  {
    j.(pour := true)
  }

  /** StopPouring: only the pour flag is lowered. */
  function StopPouring(j: Jug): (r: Jug)
    ensures !r.pour && r.rotation == j.rotation && r.water == j.water
  {
    j.(pour := false)
  }

  /** Update: while pouring the jug turns against the tilt, by the tilt
      times the speed times the frame time; otherwise nothing changes. */
  function Update(j: Jug, tiltX: real, dt: real): (r: Jug)
    ensures !j.pour ==> r == j
    ensures j.pour ==> r.rotation == j.rotation - tiltX * RotationSpeed * dt
    ensures r.water == j.water && r.pour == j.pour
  {
    if j.pour then j.(rotation := j.rotation + -tiltX * RotationSpeed * dt) else j
  }

  /** OnTriggerExit2D: a water drop leaving the jug is counted. */
  function OnTriggerExit(j: Jug, tag: string): (r: Jug)
    ensures r.water == j.water + (if tag == WaterTag then 1 else 0)
    ensures r.rotation == j.rotation && r.pour == j.pour
  {
    if tag == WaterTag then j.(water := j.water + 1) else j
  }

  /** How many of the tags are water. */
  function CountWater(tags: seq<string>): (n: nat)
    ensures n <= |tags|
    decreases |tags|
  {
    if |tags| == 0 then 0 else (if tags[0] == WaterTag then 1 else 0) + CountWater(tags[1..])
  }

  /** A series of colliders leaving the jug. */
  function Exits(j: Jug, tags: seq<string>): Jug
    decreases |tags|
  {
    if |tags| == 0 then j else Exits(OnTriggerExit(j, tags[0]), tags[1..])
  }

  /** The count is exactly the number of water drops that left, and
      nothing else about the jug changes. */
  lemma {:induction false} ExitsCountWater(j: Jug, tags: seq<string>)
    ensures Exits(j, tags) == j.(water := j.water + CountWater(tags))
    decreases |tags|
  {
    if |tags| > 0 {
      ExitsCountWater(OnTriggerExit(j, tags[0]), tags[1..]);
    }
  }
}

=== FILE: kitchen.dfy ===
/** The Kitchen Game's statistics bookkeeping (KitchenGame/KGGameManager.cs):
    a won kitchen session appends the frying game's time and eggs score and
    the pouring game's time and glass score to the user's lists. Saving the
    user to disk is not modelled. */
module Kitchen {
  import opened Common
  import opened Profile
  import opened Grid
  import Statistics
  import Frying
  import Pouring

  /** Win: one entry more on each of the four kitchen lists. */
  function Win(u: User, fg: Frying.FG, pg: Pouring.PG): (r: User)
    ensures r.fgTime == u.fgTime + [fg.gameTime]
    ensures r.fgEggs == u.fgEggs + [Frying.EggsScore(fg)]
    ensures r.pgTime == u.pgTime + [pg.gameTime]
    ensures r.pgGlass == u.pgGlass + [Pouring.GlassScore(pg)]
    ensures r == u.(fgTime := r.fgTime, fgEggs := r.fgEggs, pgTime := r.pgTime, pgGlass := r.pgGlass)
  {
    u.(fgTime := u.fgTime + [fg.gameTime], fgEggs := u.fgEggs + [Frying.EggsScore(fg)],
       pgTime := u.pgTime + [pg.gameTime], pgGlass := u.pgGlass + [Pouring.GlassScore(pg)])
  }

  /** Each time list has exactly one score per entry. */
  predicate Aligned(u: User) {
    |u.fgTime| == |u.fgEggs| && |u.pgTime| == |u.pgGlass|
  }

  /** No recorded game took zero time. */
  predicate NonzeroTimes(u: User) {
    && (forall i :: 0 <= i < |u.fgTime| ==> u.fgTime[i] != 0.0)
    && (forall i :: 0 <= i < |u.pgTime| ==> u.pgTime[i] != 0.0)
  }

  /** A win keeps the lists paired, and when both games took time the
      kitchen chart can still be drawn, one point wider than before. */
  lemma WinKeepsChartable(u: User, fg: Frying.FG, pg: Pouring.PG, grid: GridSize)
    requires Aligned(u) && NonzeroTimes(u)
    requires fg.gameTime != 0.0 && pg.gameTime != 0.0
    ensures Aligned(Win(u, fg, pg)) && NonzeroTimes(Win(u, fg, pg))
    ensures Statistics.SetKGLines(Win(u, fg, pg), grid).Some?
    ensures Statistics.SetKGLines(Win(u, fg, pg), grid).value.grid.x == MaxInt(|u.fgEggs|, |u.pgGlass|) + 1
  {
    var r := Win(u, fg, pg);
    assert forall i :: 0 <= i < |r.fgTime| ==> r.fgTime[i] == (if i < |u.fgTime| then u.fgTime[i] else fg.gameTime);
    assert forall i :: 0 <= i < |r.pgTime| ==> r.pgTime[i] == (if i < |u.pgTime| then u.pgTime[i] else pg.gameTime);
  }

  /** A series of won sessions. */
  function Wins(u: User, games: seq<(Frying.FG, Pouring.PG)>): User
    decreases |games|
  {
    if |games| == 0 then u else Wins(Win(u, games[0].0, games[0].1), games[1..])
  }

  /** After a series of wins each score list has grown by one entry per
      win, keeps its old entries, and holds the scores of the games played
      in the order they were played. */
  lemma {:induction false} WinsAppendInOrder(u: User, games: seq<(Frying.FG, Pouring.PG)>)
    ensures |Wins(u, games).fgEggs| == |u.fgEggs| + |games| && |Wins(u, games).pgGlass| == |u.pgGlass| + |games|
    ensures Wins(u, games).fgEggs[..|u.fgEggs|] == u.fgEggs && Wins(u, games).pgGlass[..|u.pgGlass|] == u.pgGlass
    ensures forall i :: 0 <= i < |games| ==> Wins(u, games).fgEggs[|u.fgEggs| + i] == Frying.EggsScore(games[i].0)
    ensures forall i :: 0 <= i < |games| ==> Wins(u, games).pgGlass[|u.pgGlass| + i] == Pouring.GlassScore(games[i].1)
    decreases |games|
  {
    if |games| > 0 {
      var u1 := Win(u, games[0].0, games[0].1);
      WinsAppendInOrder(u1, games[1..]);
      var w := Wins(u1, games[1..]);
      assert w.fgEggs[..|u.fgEggs|] == w.fgEggs[..|u1.fgEggs|][..|u.fgEggs|];
      assert w.pgGlass[..|u.pgGlass|] == w.pgGlass[..|u1.pgGlass|][..|u.pgGlass|];
      forall i | 0 <= i < |games|
        ensures w.fgEggs[|u.fgEggs| + i] == Frying.EggsScore(games[i].0)
        ensures w.pgGlass[|u.pgGlass| + i] == Pouring.GlassScore(games[i].1)
      {
        if i > 0 {
          assert games[1..][i - 1] == games[i];
        } else {
          assert w.fgEggs[|u.fgEggs|] == w.fgEggs[..|u1.fgEggs|][|u.fgEggs|];
          assert w.pgGlass[|u.pgGlass|] == w.pgGlass[..|u1.pgGlass|][|u.pgGlass|];
        }
      }
    }
  }
}

=== FILE: line.dfy ===
/** The statistics polyline (Common/LineRendererHUD.cs): a line through
    points given in grid units, drawn as one quad of four vertices and two
    triangles per segment. The unit sizes (the rectangle divided by the
    grid size) are inputs, and so is the rotation of the half-thickness
    vector by the segment's angle, which needs Atan2 and a quaternion. */
module Line {
  import opened Common
  import opened Grid

  function Plus(a: Vec2, b: Vec2): Vec2 {
    Vec2(a.x + b.x, a.y + b.y)
  }

  function Minus(a: Vec2, b: Vec2): Vec2 {
    Vec2(a.x - b.x, a.y - b.y)
  }

  /** The midpoint of two vertices. */
  function Mid(a: Vec2, b: Vec2): Vec2 {
    Vec2((a.x + b.x) / 2.0, (a.y + b.y) / 2.0)
  }

  /** A point in grid units placed in the rectangle. */
  function Place(p: Vec2, unitWidth: real, unitHeight: real): Vec2 {
    Vec2(unitWidth * p.x, unitHeight * p.y)
  }

  /** DrawVerticesForPoint: the quad of the segment from p to q, where
      `half` is the half-thickness vector turned across the segment. The
      first two vertices straddle p and the last two straddle q, both pairs
      with the same offset, so the quad is as thick at both ends. */
  function SegmentVertices(p: Vec2, q: Vec2, half: Vec2, unitWidth: real, unitHeight: real): (vs: seq<Vec2>)
    ensures |vs| == 4
    ensures Mid(vs[0], vs[1]) == Place(p, unitWidth, unitHeight)
    ensures Mid(vs[2], vs[3]) == Place(q, unitWidth, unitHeight)
    ensures Minus(vs[1], vs[0]) == Minus(vs[3], vs[2]) == Vec2(2.0 * half.x, 2.0 * half.y)
  {
    var a := Place(p, unitWidth, unitHeight);
    var b := Place(q, unitWidth, unitHeight);
    [Minus(a, half), Plus(a, half), Minus(b, half), Plus(b, half)]
  }

  /** The two triangles of segment i: they use only the segment's four
      vertices, all four of them, and share the diagonal from vertex 1 to
      vertex 2 of the quad. */
  function SegmentTriangles(i: int): (ts: seq<Triangle>)
    ensures |ts| == 2
    ensures Within(ts[0], 4 * i, 4 * i + 4) && Within(ts[1], 4 * i, 4 * i + 4)
    ensures Corners(ts[0]) + Corners(ts[1]) == {4 * i, 4 * i + 1, 4 * i + 2, 4 * i + 3}
    ensures Corners(ts[0]) * Corners(ts[1]) == {4 * i + 1, 4 * i + 2}
  {
    var o := 4 * i;
    [Triangle(o + 0, o + 1, o + 2), Triangle(o + 1, o + 2, o + 3)]
  }

  /** The first `n` segments of the line are in the mesh. */
  predicate LineUpTo(points: seq<Vec2>, verts: seq<Vec2>, n: nat, unitWidth: real, unitHeight: real, half: (Vec2, Vec2) -> Vec2)
    requires n < |points|
  {
    && |verts| == 4 * n
    && forall i :: 0 <= i < n ==>
         verts[4 * i .. 4 * i + 4] == SegmentVertices(points[i], points[i + 1], half(points[i], points[i + 1]), unitWidth, unitHeight)
  }

  /** The first loop of OnPopulateMesh: the quad of every segment between
      consecutive points, in order. */
  method DrawSegments(points: seq<Vec2>, unitWidth: real, unitHeight: real, half: (Vec2, Vec2) -> Vec2)
    returns (verts: seq<Vec2>)
    requires |points| >= 2
    ensures |verts| == 4 * (|points| - 1)
    ensures forall i :: 0 <= i < |points| - 1 ==>
      verts[4 * i .. 4 * i + 4] == SegmentVertices(points[i], points[i + 1], half(points[i], points[i + 1]), unitWidth, unitHeight)
  {
    verts := [];
    var i := 0;
    while i < |points| - 1
      invariant 0 <= i <= |points| - 1
      invariant LineUpTo(points, verts, i, unitWidth, unitHeight, half)
    {
      var sv := SegmentVertices(points[i], points[i + 1], half(points[i], points[i + 1]), unitWidth, unitHeight);
      assert forall j :: 0 <= j < i ==> (verts + sv)[4 * j .. 4 * j + 4] == verts[4 * j .. 4 * j + 4];
      assert (verts + sv)[4 * i .. 4 * i + 4] == sv;
      verts := verts + sv;
      i := i + 1;
    }
  }

  /** The second loop of OnPopulateMesh: two triangles per segment, each
      naming only the vertices of its own segment's quad. */
  method AddTriangles(segments: nat) returns (tris: seq<Triangle>)
    ensures |tris| == 2 * segments
    ensures forall i :: 0 <= i < segments ==> tris[2 * i .. 2 * i + 2] == SegmentTriangles(i)
    ensures forall t :: 0 <= t < |tris| ==> Within(tris[t], 0, 4 * segments)
  {
    tris := [];
    var i := 0;
    while i < segments
      invariant 0 <= i <= segments
      invariant |tris| == 2 * i
      invariant forall j :: 0 <= j < i ==> tris[2 * j .. 2 * j + 2] == SegmentTriangles(j)
      invariant forall t :: 0 <= t < |tris| ==> Within(tris[t], 0, 4 * i)
    {
      var st := SegmentTriangles(i);
      assert forall j :: 0 <= j < i ==> (tris + st)[2 * j .. 2 * j + 2] == tris[2 * j .. 2 * j + 2];
      assert (tris + st)[2 * i .. 2 * i + 2] == st;
      tris := tris + st;
      i := i + 1;
    }
  }

  /** OnPopulateMesh: with fewer than two points there is nothing to draw;
      otherwise every segment between consecutive points adds its quad,
      and then its two triangles. Every triangle index names a vertex of
      the mesh. */
  method PopulateMesh(points: seq<Vec2>, unitWidth: real, unitHeight: real, half: (Vec2, Vec2) -> Vec2)
    returns (verts: seq<Vec2>, tris: seq<Triangle>)
    ensures |points| < 2 ==> verts == [] && tris == []
    ensures |points| >= 2 ==> |verts| == 4 * (|points| - 1) && |tris| == 2 * (|points| - 1)
    ensures forall i :: 0 <= i < |points| - 1 ==>
      verts[4 * i .. 4 * i + 4] == SegmentVertices(points[i], points[i + 1], half(points[i], points[i + 1]), unitWidth, unitHeight)
    ensures forall i :: 0 <= i < |points| - 1 ==> tris[2 * i .. 2 * i + 2] == SegmentTriangles(i)
    ensures forall t :: 0 <= t < |tris| ==> Within(tris[t], 0, |verts|)
  {
    if |points| < 2 {
      return [], [];
    }
    verts := DrawSegments(points, unitWidth, unitHeight, half);
    tris := AddTriangles(|points| - 1);
  }

  /** The line's state between frames: the grid size it last drew for and
      whether its mesh must be rebuilt. */
  datatype Renderer = Renderer(gridSize: GridSize, dirty: bool)

  /** Update: when the grid renderer is present and its size differs from
      the one last seen, the size is copied and the mesh marked dirty;
      otherwise nothing changes. */
  function Update(r: Renderer, grid: Option<GridSize>): (r2: Renderer)
    ensures grid.Some? && grid.value != r.gridSize ==> r2.gridSize == grid.value && r2.dirty
    ensures grid.None? || grid.value == r.gridSize ==> r2 == r
  {
    if grid.Some? && grid.value != r.gridSize then Renderer(grid.value, true) else r
  }

  /** After one update the line follows the grid: a second update with the
      same grid changes nothing, so the mesh is marked dirty once per grid
      size change. */
  lemma UpdateSettles(r: Renderer, grid: Option<GridSize>)
    ensures grid.Some? ==> Update(r, grid).gridSize == grid.value
    ensures Update(Update(r, grid), grid) == Update(r, grid)
  {
  }
}

=== FILE: mainmenu.dfy ===
/** The main menu (MainMenu/MenuManager.cs): the user list, choosing a
    user and a game, creating users, and coming back from a game. Loading
    scenes and the save files is left to the caller: the users read from
    disk are an input, and the statics the games share are passed in and
    out. */
module MainMenu {
  import opened Common
  import opened Profile

  const MaxUsers: int := 6
  const AddUserText: string := "+"

  datatype GameName = Kitchen | Sort

  /** The static fields of SGSetUp and KGSetUp that the main menu reads and
      clears. */
  datatype Statics = Statics(sgUserName: string, sgUser: Option<User>, kgUser: Option<User>)

  /** A user button: its label and whether it is shown. */
  datatype Button = Button(text: string, active: bool)

  /** The menu: the users, the chosen user and game, the game images, and
      which panels are open. */
  datatype Menu = Menu(
    users: seq<User>,
    currentUser: Option<User>,
    curGame: GameName,
    sortImg: bool,
    kitchenImg: bool,
    mainShown: bool,
    gamesShown: bool,
    creationShown: bool)

  /** The position of the first user with the name. */
  function FirstNamed(users: seq<User>, name: string): (r: Option<nat>)
    ensures r.None? <==> forall i :: 0 <= i < |users| ==> users[i].name != name
    ensures r.Some? ==> r.value < |users| && users[r.value].name == name
    ensures r.Some? ==> forall j :: 0 <= j < r.value ==> users[j].name != name
    decreases |users|
  {
    if |users| == 0 then None
    else if users[0].name == name then Some(0)
    else
      match FirstNamed(users[1..], name)
      case None => None
      case Some(i) => Some(i + 1)
  }

  /** FindUserByName: the first user with the name, or null. */
  function FindUserByName(users: seq<User>, name: string): (r: Option<User>)
    ensures r.None? <==> forall i :: 0 <= i < |users| ==> users[i].name != name
    ensures r.Some? ==> r.value == users[FirstNamed(users, name).value] && r.value.name == name
  {
    match FirstNamed(users, name)
    case None => None
    case Some(i) => Some(users[i])
  }

  /** CheckUserExistence: some user has the name. */
  function CheckUserExistence(users: seq<User>, name: string): (r: bool)
    ensures r <==> exists i :: 0 <= i < |users| && users[i].name == name
  {
    FindUserByName(users, name).Some?
  }

  /** CheckUserCorrectness: a new user needs a name, and one nobody has. */
  function CheckUserCorrectness(users: seq<User>, name: string): (r: bool)
    ensures r <==> name != "" && forall i :: 0 <= i < |users| ==> users[i].name != name
  {
    if name == "" then false
    else if CheckUserExistence(users, name) then false
    else true
  }

  /** Every user has a name of its own, and none is empty. */
  predicate NamesValid(users: seq<User>) {
    && (forall i :: 0 <= i < |users| ==> users[i].name != "")
    && (forall i, j :: 0 <= i < j < |users| ==> users[i].name != users[j].name)
  }

  /** The user SaveUser creates: the name and hand entered, nothing bought,
      skin 0, difficulty 1, no money and empty statistics. */
  function NewUser(name: string, handCode: int): (u: User)
    ensures u.name == name && u.paralyzedHand == HandFromInt(handCode)
    ensures u.sgBoughtSkins == [] && u.sgChosenSkin == 0 && u.sgCurrentDifficulty == 1 && u.sgMoney == 0
    ensures NoStatistics(u)
  {
    User(name, HandFromInt(handCode), [], 0, 1, 0, [], [], [], [], [], [], [])
  }

  /** SaveUser: a correct entry adds the new user at the end and goes back
      to the user selection; an incorrect one changes nothing. */
  function SaveUser(m: Menu, name: string, handCode: int): (r: Menu)
    ensures CheckUserCorrectness(m.users, name) ==>
      r == m.(users := m.users + [NewUser(name, handCode)], creationShown := false)
    ensures !CheckUserCorrectness(m.users, name) ==> r == m
  {
    if CheckUserCorrectness(m.users, name) then
      m.(users := m.users + [NewUser(name, handCode)], creationShown := false)
    else m
  }

  /** Saving users keeps every name present and distinct, so FindUserByName
      always finds the one user a button names. */
  lemma {:induction false} SaveUserKeepsNamesValid(m: Menu, name: string, handCode: int)
    requires NamesValid(m.users)
    ensures NamesValid(SaveUser(m, name, handCode).users)
    ensures CheckUserCorrectness(m.users, name) ==>
      FindUserByName(SaveUser(m, name, handCode).users, name) == Some(NewUser(name, handCode))
  {
    if CheckUserCorrectness(m.users, name) {
      var us := SaveUser(m, name, handCode).users;
      var k := |us| - 1;
      assert us[k] == NewUser(name, handCode);
      assert forall i :: 0 <= i < k ==> us[i] == m.users[i];
      var r := FindUserByName(us, name);
      assert r.Some? by {
        assert us[k].name == name;
      }
    }
  }

  /** SetButtons: one button per user, labelled with the name; with the
      add button wanted and room for more users, the next button becomes
      "+". Indexing past the buttons throws. */
  function SetButtons(buttons: seq<Button>, users: seq<User>, setAddButton: bool): (r: Option<seq<Button>>)
    ensures r.Some? <==> |users| <= |buttons| && (setAddButton && |users| < MaxUsers ==> |users| < |buttons|)
    ensures r.Some? ==> |r.value| == |buttons|
    ensures r.Some? ==> forall i :: 0 <= i < |users| ==> r.value[i] == Button(users[i].name, true)
    ensures r.Some? && setAddButton && |users| < MaxUsers ==> r.value[|users|] == Button(AddUserText, true)
    ensures r.Some? ==> forall i :: |users| < i < |buttons| ==> r.value[i] == buttons[i]
    ensures r.Some? && !(setAddButton && |users| < MaxUsers) && |users| < |buttons| ==>
      r.value[|users|] == buttons[|users|]
  {
    if |users| > |buttons| then None
    else
      var named := seq(|buttons|, i requires 0 <= i < |buttons| =>
        if i < |users| then Button(users[i].name, true) else buttons[i]);
      if setAddButton && |users| < MaxUsers then
        if |users| < |buttons| then Some(named[|users| := Button(AddUserText, true)]) else None
      else Some(named)
  }

  /** SetCurrentGame: exactly the chosen game's image is shown. */
  function SetCurrentGame(m: Menu, g: GameName): (r: Menu)
    ensures r.curGame == g
    ensures r.sortImg <==> g == Sort
    ensures r.kitchenImg <==> g == Kitchen
    ensures r == m.(curGame := g, sortImg := r.sortImg, kitchenImg := r.kitchenImg)
  {
    match g
    case Sort => m.(sortImg := true, kitchenImg := false, curGame := g)
    case Kitchen => m.(kitchenImg := true, sortImg := false, curGame := g)
  }

  /** NextGame: the other game. */
  function NextGame(m: Menu): (r: Menu)
    ensures r.curGame != m.curGame
    ensures r.sortImg != r.kitchenImg
  {
    SetCurrentGame(m, if m.curGame == Kitchen then Sort else Kitchen)
  }

  /** Pressing the game arrow twice comes back to the same game. */
  lemma NextGameTwice(m: Menu)
    ensures NextGame(NextGame(m)).curGame == m.curGame
    ensures NextGame(NextGame(m)) == SetCurrentGame(m, m.curGame)
  {
  }

  /** EnterGamesMenu from a user button: the "+" button opens user
      creation; any other button chooses the user it names and shows the
      games. */
  function EnterGamesMenuFrom(m: Menu, buttonText: string): (r: Menu)
    ensures buttonText == AddUserText ==> r == m.(creationShown := true)
    ensures buttonText != AddUserText ==>
      r == SetCurrentGame(m.(currentUser := FindUserByName(m.users, buttonText), gamesShown := true), m.curGame)
  {
    if buttonText == AddUserText then m.(creationShown := true)
    else SetCurrentGame(m.(currentUser := FindUserByName(m.users, buttonText), gamesShown := true), m.curGame)
  }

  /** A user may be created with the name "+", but pressing that user's
      button opens user creation instead of choosing the user. */
  lemma PlusNamedUserCannotBeChosen(m: Menu, handCode: int)
    requires CheckUserCorrectness(m.users, AddUserText)
    ensures var m1 := SaveUser(m, AddUserText, handCode);
      && CheckUserExistence(m1.users, AddUserText)
      && EnterGamesMenuFrom(m1, AddUserText).currentUser == m1.currentUser
      && EnterGamesMenuFrom(m1, AddUserText).creationShown
  {
    var m1 := SaveUser(m, AddUserText, handCode);
    assert m1.users[|m1.users| - 1].name == AddUserText;
  }

  /** Play: the chosen game receives the current user; the scene to load
      is returned with the statics. */
  function Play(m: Menu, st: Statics): (r: (Statics, GameName))
    ensures m.curGame == Sort ==> r == (st.(sgUser := m.currentUser), Sort)
    ensures m.curGame == Kitchen ==> r == (st.(kgUser := m.currentUser), Kitchen)
  {
    match m.curGame
    case Sort => (st.(sgUser := m.currentUser), Sort)
    case Kitchen => (st.(kgUser := m.currentUser), Kitchen)
  }

  /** SetUpMenu, on loading the main menu with the users read from disk:
      the Kitchen Game is selected; then, in this order of priority, a
      user name left by the Sorting Game picks that user from the list
      (and the games menu keeps the Kitchen Game selected), a user left by
      the Kitchen Game or, failing that, by the Sorting Game is taken as
      the current user with that game selected. The static that was used
      is cleared. With none of them the main menu shows. */
  function SetUpMenu(loaded: seq<User>, st: Statics, m: Menu): (r: (Menu, Statics))
    ensures r.0.users == loaded
    ensures st.sgUserName != "" ==>
      && r.0.currentUser == FindUserByName(loaded, st.sgUserName)
      && r.0.curGame == Kitchen && r.0.gamesShown && !r.0.mainShown
      && r.1 == st.(sgUserName := "")
    ensures st.sgUserName == "" && st.kgUser.Some? ==>
      && r.0.currentUser == st.kgUser && r.0.curGame == Kitchen && r.0.gamesShown && !r.0.mainShown
      && r.1 == st.(kgUser := None)
    ensures st.sgUserName == "" && st.kgUser.None? && st.sgUser.Some? ==>
      && r.0.currentUser == st.sgUser && r.0.curGame == Sort && r.0.gamesShown && !r.0.mainShown
      && r.1 == st.(sgUser := None)
    ensures st.sgUserName == "" && st.kgUser.None? && st.sgUser.None? ==>
      r == (m.(users := loaded, curGame := Kitchen), st)
  {
    var m0 := m.(users := loaded, curGame := Kitchen);
    if st.sgUserName != "" then
      var m1 := SetCurrentGame(m0.(currentUser := FindUserByName(loaded, st.sgUserName), gamesShown := true), Kitchen);
      (m1.(mainShown := false), st.(sgUserName := ""))
    else if st.kgUser.Some? then
      var m1 := SetCurrentGame(m0.(currentUser := st.kgUser), Kitchen);
      var m2 := SetCurrentGame(m1.(gamesShown := true), m1.curGame);
      (m2.(mainShown := false), st.(kgUser := None))
    else if st.sgUser.Some? then
      var m1 := SetCurrentGame(m0.(currentUser := st.sgUser), Sort);
      var m2 := SetCurrentGame(m1.(gamesShown := true), m1.curGame);
      (m2.(mainShown := false), st.(sgUser := None))
    else (m0, st)
  }
}

=== FILE: position.dfy ===
/** Placement for the player's usable hand (SortingGame/PositionManager.cs):
    a right-handed layout mirrors the spawn areas of boxes and fillings and
    switches on the right-hand tilemaps. */
module Position {
  import opened Common
  import opened Profile

  /** The spawn area centres and which of the four tilemaps are active. */
  datatype Layout = Layout(
    boxesArea: Vec2,
    fillingsArea: Vec2,
    grassLeft: bool,
    tilesLeft: bool,
    grassRight: bool,
    tilesRight: bool)

  /** Reflection in the vertical axis. */
  function MirrorX(p: Vec2): (r: Vec2)
    ensures r.x == -p.x && r.y == p.y
  {
    Vec2(-p.x, p.y)
  }

  /** MirrorSpawnAreas: both spawn areas move to the other side. */
  function MirrorSpawnAreas(l: Layout): (r: Layout)
    ensures r.boxesArea == MirrorX(l.boxesArea) && r.fillingsArea == MirrorX(l.fillingsArea)
    ensures r == l.(boxesArea := r.boxesArea, fillingsArea := r.fillingsArea)
  {
    l.(boxesArea := MirrorX(l.boxesArea), fillingsArea := MirrorX(l.fillingsArea))
  }

  /** Mirroring twice puts the areas back. */
  lemma MirrorTwiceIsIdentity(l: Layout)
    ensures MirrorSpawnAreas(MirrorSpawnAreas(l)) == l
  {
  }

  /** ActivateTilemaps for the hand: a right hand gets the left grass and
      the right tiles; any other value the right grass and the left tiles.
      Nothing is ever switched off. */
  function ActivateTilemaps(l: Layout, hand: Hand): (r: Layout)
    ensures hand == Right ==> r == l.(grassLeft := true, tilesRight := true)
    ensures hand != Right ==> r == l.(grassRight := true, tilesLeft := true)
  {
    if hand == Right then l.(grassLeft := true, tilesRight := true)
    else l.(grassRight := true, tilesLeft := true)
  }

  /** AdjustPositions as written: it mirrors the areas where they are now,
      so it depends on every earlier call in the same scene. */
  function AdjustPositionsAsWritten(l: Layout, hand: Hand): (r: Layout)
    ensures hand == Right ==> r == ActivateTilemaps(MirrorSpawnAreas(l), hand)
    ensures hand != Right ==> r == ActivateTilemaps(l, hand)
  {
    if hand == Right then ActivateTilemaps(MirrorSpawnAreas(l), hand) else ActivateTilemaps(l, hand)
  }

  /** As written, a right-handed player's second session in the same scene
      finds the spawn areas back on the left-hand side. */
  lemma SecondRightHandSessionUnmirrors(home: Layout)
    ensures AdjustPositionsAsWritten(AdjustPositionsAsWritten(home, Right), Right).boxesArea == home.boxesArea
    ensures AdjustPositionsAsWritten(AdjustPositionsAsWritten(home, Right), Right).fillingsArea == home.fillingsArea
    ensures AdjustPositionsAsWritten(home, Right).boxesArea == MirrorX(home.boxesArea)
  {
  }

  /** AdjustPositions, corrected: the areas are placed from the scene's home
      layout, mirrored for a right hand. */
  function AdjustPositions(current: Layout, home: Layout, hand: Hand): (r: Layout)
    ensures hand == Right ==> r.boxesArea == MirrorX(home.boxesArea) && r.fillingsArea == MirrorX(home.fillingsArea)
    ensures hand != Right ==> r.boxesArea == home.boxesArea && r.fillingsArea == home.fillingsArea
    ensures hand == Right ==> r.grassLeft && r.tilesRight
    ensures hand != Right ==> r.grassRight && r.tilesLeft
  {
    var placed := current.(boxesArea := home.boxesArea, fillingsArea := home.fillingsArea);
    if hand == Right then ActivateTilemaps(MirrorSpawnAreas(placed), hand) else ActivateTilemaps(placed, hand)
  }

  /** Corrected, any number of sessions lead to the same placement as the
      first: placing again changes nothing. */
  lemma AdjustPositionsIdempotent(current: Layout, home: Layout, hand: Hand)
    ensures AdjustPositions(AdjustPositions(current, home, hand), home, hand) == AdjustPositions(current, home, hand)
  {
  }
}

=== FILE: pouring.dfy ===
/** The Pouring Game (KitchenGame/PGGameManager.cs): while the player holds
    both holders the jug turns with the tilt and pours; the glasses take
    turns being filled; once 450 drops have left the jug the game stops and,
    two seconds later, ends with a win. The two-second wait is modelled as
    a separate event, the water drops' physics as input events. */
module Pouring {
  import opened Common
  import opened Touchable
  import Holder
  import Jug
  import Glass

  /** The glasses a perfect game fills. */
  const MaxGlasses: real := 5.0

  /** The drops spawned per game, and the count that ends it. */
  const WaterAmount: int := 450

  /** The manager: both glasses with the filled-glass count, the jug, both
      holders, the game clock, whether the game runs, and the wins started
      whose two-second wait has not yet elapsed. */
  datatype PG = PG(
    glasses: Glass.Pair,
    jug: Jug.Jug,
    holderLeft: Holder.Holder,
    holderRight: Holder.Holder,
    gameTime: real,
    play: bool,
    pendingWins: nat)

  /** StartPlaying: the left glass waits lowered and the right one is
      filled first, the jug is reset, no glass is filled, the clock is at
      zero and the game runs. */
  function StartPlaying(pg: PG, leftPosition: Vec2, rightPosition: Vec2): (r: PG)
    ensures r.play && r.gameTime == 0.0 && r.glasses.curGlasses == 0
    ensures Glass.OneActive(r.glasses) && r.glasses.right.active
    ensures r.jug.water == 0 && !r.jug.pour && r.jug.rotation == 0.0
    ensures r.pendingWins == pg.pendingWins
  {
    pg.(glasses := Glass.PlayPair(pg.glasses, leftPosition, rightPosition), jug := Jug.StartPouring(pg.jug),
        gameTime := 0.0, play := true)
  }

  /** ControlJug: the jug may pour exactly while both holders are held; once
      450 drops have left it the win starts, which stops the game at once. */
  function ControlJug(pg: PG): (r: PG)
    ensures r.jug.pour <==> pg.holderLeft.touch.isTouched && pg.holderRight.touch.isTouched
    ensures r.jug.water == pg.jug.water && r.jug.rotation == pg.jug.rotation
    ensures pg.jug.water >= WaterAmount ==> !r.play && r.pendingWins == pg.pendingWins + 1
    ensures pg.jug.water < WaterAmount ==> r.play == pg.play && r.pendingWins == pg.pendingWins
    ensures r.glasses == pg.glasses && r.holderLeft == pg.holderLeft && r.holderRight == pg.holderRight
  {
    var jug := if pg.holderLeft.touch.isTouched && pg.holderRight.touch.isTouched
               then Jug.ContinuePouring(pg.jug) else Jug.StopPouring(pg.jug);
    if jug.water >= WaterAmount then pg.(jug := jug, play := false, pendingWins := pg.pendingWins + 1)
    else pg.(jug := jug)
  }

  /** Update: while the game runs the clock advances and the jug is
      controlled; otherwise nothing happens. */
  function Update(pg: PG, dt: real): (r: PG)
    ensures !pg.play ==> r == pg
    ensures pg.play ==> r == ControlJug(pg.(gameTime := pg.gameTime + dt))
  {
    if pg.play then ControlJug(pg.(gameTime := pg.gameTime + dt)) else pg
  }

  /** EndPlaying: the jug stops, both glasses are put back where they
      started, and both holders are released. */
  function EndPlaying(pg: PG): (r: PG)
    ensures !r.jug.pour && r.jug.water == pg.jug.water
    ensures r.glasses.left.position == pg.glasses.left.originalPosition
    ensures r.glasses.right.position == pg.glasses.right.originalPosition
    ensures !r.holderLeft.touch.isTouched && !r.holderRight.touch.isTouched
    ensures Holder.Shows(r.holderLeft) && Holder.Shows(r.holderRight)
    ensures r.glasses.curGlasses == pg.glasses.curGlasses && r.play == pg.play && r.gameTime == pg.gameTime
  {
    var left := pg.glasses.left.(position := pg.glasses.left.originalPosition);
    var right := pg.glasses.right.(position := pg.glasses.right.originalPosition);
    pg.(jug := Jug.StopPouring(pg.jug), glasses := pg.glasses.(left := left, right := right),
        holderLeft := Holder.Release(pg.holderLeft), holderRight := Holder.Release(pg.holderRight))
  }

  /** The end of Win's two-second wait: the game is ended. A wait that was
      never started does nothing. */
  function WinElapsed(pg: PG): (r: PG)
    ensures pg.pendingWins == 0 ==> r == pg
    ensures pg.pendingWins > 0 ==> r == EndPlaying(pg).(pendingWins := pg.pendingWins - 1)
  {
    if pg.pendingWins > 0 then EndPlaying(pg).(pendingWins := pg.pendingWins - 1) else pg
  }

  /** GetGlassScore: the filled glasses as a share of five. */
  function GlassScore(pg: PG): (r: real)
    ensures r * MaxGlasses == pg.glasses.curGlasses as real
  {
    pg.glasses.curGlasses as real / MaxGlasses
  }

  /** What can happen in the Pouring Game scene. */
  datatype Event =
    | Start(leftPosition: Vec2, rightPosition: Vec2)
    | Frame(dt: real)
    | HoldersFrame(left: seq<Touch>, right: seq<Touch>)
    | JugFrame(tiltX: real, dt: real)
    | JugExit(tag: string)
    | GlassEvent(e: Glass.Event)
    | WaitElapsed

  function Step(pg: PG, e: Event): PG {
    match e
    case Start(l, r) => StartPlaying(pg, l, r)
    case Frame(dt) => Update(pg, dt)
    case HoldersFrame(left, right) =>
      pg.(holderLeft := Holder.Update(pg.holderLeft, left), holderRight := Holder.Update(pg.holderRight, right))
    case JugFrame(tiltX, dt) => pg.(jug := Jug.Update(pg.jug, tiltX, dt))
    case JugExit(tag) => pg.(jug := Jug.OnTriggerExit(pg.jug, tag))
    case GlassEvent(g) => pg.(glasses := Glass.Step(pg.glasses, g))
    case WaitElapsed => WinElapsed(pg)
  }

  function Run(pg: PG, events: seq<Event>): PG
    decreases |events|
  {
    if |events| == 0 then pg else Run(Step(pg, events[0]), events[1..])
  }

  /** The jug turns only when the last frame of the manager found both
      holders held while the game ran. */
  lemma JugTurnsOnlyWhenHeld(pg: PG, dt: real, tiltX: real, jdt: real)
    requires pg.play
    ensures var after := Step(Update(pg, dt), JugFrame(tiltX, jdt));
      after.jug.rotation != pg.jug.rotation ==>
        pg.holderLeft.touch.isTouched && pg.holderRight.touch.isTouched
  {
  }

  /** At most one win per game: a running game has no win waiting, and a
      stopped one at most one. */
  predicate OneWinPerGame(pg: PG) {
    pg.pendingWins + (if pg.play then 1 else 0) <= 1
  }

  /** Every event but a new start keeps it, and a start from a scene with
      no win waiting makes it hold. */
  lemma StepKeepsOneWin(pg: PG, e: Event)
    requires OneWinPerGame(pg)
    requires e.Start? ==> pg.pendingWins == 0
    ensures OneWinPerGame(Step(pg, e))
  {
  }

  /** The events of one game, none of them a new start. */
  predicate NoRestart(events: seq<Event>) {
    forall i :: 0 <= i < |events| ==> !events[i].Start?
  }

  /** Through one game the glasses keep taking turns, the filled-glass
      count never falls, and at most one win is ever waiting. */
  lemma {:induction false} GameKeepsInvariants(pg: PG, events: seq<Event>)
    requires OneWinPerGame(pg) && Glass.OneActive(pg.glasses)
    requires NoRestart(events)
    ensures OneWinPerGame(Run(pg, events)) && Glass.OneActive(Run(pg, events).glasses)
    ensures Run(pg, events).glasses.curGlasses >= pg.glasses.curGlasses
    decreases |events|
  {
    if |events| > 0 {
      var e := events[0];
      StepKeepsOneWin(pg, e);
      if e.GlassEvent? {
        Glass.StepKeepsTurns(pg.glasses, e.e);
      }
      assert NoRestart(events[1..]) by {
        forall i | 0 <= i < |events[1..]| ensures !events[1..][i].Start? {
          assert events[1..][i] == events[i + 1];
        }
      }
      GameKeepsInvariants(Step(pg, e), events[1..]);
    }
  }

  /** A game that has stopped stays stopped: frames change nothing about
      the manager until the next start. */
  lemma StoppedGameIgnoresFrames(pg: PG, dt: real)
    requires !pg.play
    ensures Step(pg, Frame(dt)) == pg
  {
  }

  /** One of the two holders: the left one or the right one. */
  function HolderOn(pg: PG, leftSide: bool): Holder.Holder {
    if leftSide then pg.holderLeft else pg.holderRight
  }

  /** No frame of the events brings a finger down on the holder of that
      side. */
  predicate NeverGrabbed(events: seq<Event>, leftSide: bool) {
    forall i :: 0 <= i < |events| && events[i].HoldersFrame? ==>
      Holder.NoGrab(if leftSide then events[i].left else events[i].right)
  }

  /** Nothing pours: that holder is free and the jug may not turn. */
  predicate Idle(pg: PG, leftSide: bool) {
    !HolderOn(pg, leftSide).touch.isTouched && !pg.jug.pour
  }

  lemma StepKeepsIdle(pg: PG, e: Event, leftSide: bool)
    requires Idle(pg, leftSide)
    requires e.HoldersFrame? ==> Holder.NoGrab(if leftSide then e.left else e.right)
    ensures Idle(Step(pg, e), leftSide)
    ensures Step(pg, e).jug.rotation == pg.jug.rotation || Step(pg, e).jug.rotation == 0.0
  {
    match e
    case HoldersFrame(left, right) =>
      Holder.UngrabbedStaysFree(HolderOn(pg, leftSide), if leftSide then left else right);
    case _ =>
  }

  /** One finger is not enough: while a player never puts a finger on one
      of the holders, the jug never pours and never turns away from
      upright or from where it stood. */
  lemma {:induction false} OneHolderNeverPours(pg: PG, events: seq<Event>, leftSide: bool)
    requires Idle(pg, leftSide) && NeverGrabbed(events, leftSide)
    ensures Idle(Run(pg, events), leftSide)
    ensures Run(pg, events).jug.rotation == pg.jug.rotation || Run(pg, events).jug.rotation == 0.0
    decreases |events|
  {
    if |events| > 0 {
      StepKeepsIdle(pg, events[0], leftSide);
      assert NeverGrabbed(events[1..], leftSide) by {
        forall i | 0 <= i < |events[1..]| && events[1..][i].HoldersFrame?
          ensures Holder.NoGrab(if leftSide then events[1..][i].left else events[1..][i].right)
        {
          assert events[1..][i] == events[i + 1];
        }
      }
      OneHolderNeverPours(Step(pg, events[0]), events[1..], leftSide);
    }
  }
}

=== FILE: profile.dfy ===
/** The user profile (Common/User.cs): the in-memory User, its serialisable
    twin UserData, and the conversions between them. Writing UserData to
    disk is not part of this model. */
module Profile {
  import opened Common

  /** User.Hand, an int-backed enum (Left = 0, Right = 1). Casting any other
      int to it yields a value with no name that keeps its code; Unnamed
      models those. */
  datatype Hand = Left | Right | Unnamed(code: int)

  /** A hand value a cast can produce: an unnamed one never carries the code
      of a named one. */
  predicate ValidHand(h: Hand) {
    h.Unnamed? ==> h.code != 0 && h.code != 1
  }

  /** The cast (int)hand. */
  function HandToInt(h: Hand): int {
    match h
    case Left => 0
    case Right => 1
    case Unnamed(c) => c
  }

  /** The cast (Hand)code. */
  function HandFromInt(code: int): (h: Hand)
    ensures ValidHand(h)
    ensures HandToInt(h) == code
  {
    if code == 0 then Left else if code == 1 then Right else Unnamed(code)
  }

  /** Storing a hand as an int and casting it back recovers the hand. */
  lemma HandRoundTrip(h: Hand)
    requires ValidHand(h)
    ensures HandFromInt(HandToInt(h)) == h
  {
  }

  /** A user: name, paralysed hand, Sorting Game purchases and settings,
      and the seven per-game statistic lists. */
  datatype User = User(
    name: string,
    paralyzedHand: Hand,
    sgBoughtSkins: seq<int>,
    sgChosenSkin: int,
    sgCurrentDifficulty: int,
    sgMoney: int,
    sgValues1: seq<real>,
    sgValues2: seq<real>,
    sgValues3: seq<real>,
    fgTime: seq<real>,
    fgEggs: seq<real>,
    pgTime: seq<real>,
    pgGlass: seq<real>)

  /** The serialisable form: the hand as an int and the lists as arrays. */
  datatype UserData = UserData(
    name: string,
    hand: int,
    sgbSkins: seq<int>,
    sgcSkin: int,
    sgCurrentDifficulty: int,
    sgMoney: int,
    sgValues1: seq<real>,
    sgValues2: seq<real>,
    sgValues3: seq<real>,
    fgTime: seq<real>,
    fgEggs: seq<real>,
    pgTime: seq<real>,
    pgGlass: seq<real>)

  /** Every statistic list of a user is empty. */
  predicate NoStatistics(u: User) {
    && u.sgValues1 == [] && u.sgValues2 == [] && u.sgValues3 == []
    && u.fgTime == [] && u.fgEggs == [] && u.pgTime == [] && u.pgGlass == []
  }

  /** The parameterless User(): "David", left hand, nothing bought, skin 0,
      difficulty 1, 100 coins and no statistics. */
  function DefaultUser(): (u: User)
    ensures u.name == "David" && u.paralyzedHand == Left
    ensures u.sgBoughtSkins == [] && u.sgChosenSkin == 0
    ensures u.sgCurrentDifficulty == 1 && u.sgMoney == 100
    ensures NoStatistics(u) && ValidHand(u.paralyzedHand)
  {
    User("David", Left, [], 0, 1, 100, [], [], [], [], [], [], [])
  }

  /** The parameterless UserData(): empty name, hand code 0, difficulty 1,
      no money and empty arrays. It converts to the left hand. */
  function DefaultUserData(): (d: UserData)
    ensures d.name == "" && d.hand == 0 && d.sgcSkin == 0
    ensures d.sgCurrentDifficulty == 1 && d.sgMoney == 0
    ensures d.sgbSkins == [] && d.sgValues1 == [] && d.sgValues2 == [] && d.sgValues3 == []
    ensures d.fgTime == [] && d.fgEggs == [] && d.pgTime == [] && d.pgGlass == []
    ensures HandFromInt(d.hand) == Left
  {
    UserData("", 0, [], 0, 1, 0, [], [], [], [], [], [], [])
  }

  /** `list ??= new List<T>()`: a null list becomes an empty one. */
  function OrEmpty<T>(l: Option<seq<T>>): (r: seq<T>)
    ensures l.None? ==> r == []
    ensures l.Some? ==> r == l.value
  {
    match l
    case None => []
    case Some(v) => v
  }

  /** The UserData constructor: it stores the hand's code and turns every
      list into an array, a null list into an empty array. The arguments
      follow the constructor's order (PG lists before FG lists). */
  function NewUserData(
    name: string, hand: Hand, skins: Option<seq<int>>, chosenSkin: int, difficulty: int, money: int,
    values1: Option<seq<real>>, values2: Option<seq<real>>, values3: Option<seq<real>>,
    pgTime: Option<seq<real>>, pgGlass: Option<seq<real>>,
    fgTime: Option<seq<real>>, fgEggs: Option<seq<real>>): (d: UserData)
    ensures d.name == name && (ValidHand(hand) ==> HandFromInt(d.hand) == hand)
    ensures d.sgbSkins == OrEmpty(skins) && d.sgcSkin == chosenSkin
    ensures d.sgCurrentDifficulty == difficulty && d.sgMoney == money
    ensures d.sgValues1 == OrEmpty(values1) && d.sgValues2 == OrEmpty(values2) && d.sgValues3 == OrEmpty(values3)
    ensures d.pgTime == OrEmpty(pgTime) && d.pgGlass == OrEmpty(pgGlass)
    ensures d.fgTime == OrEmpty(fgTime) && d.fgEggs == OrEmpty(fgEggs)
  {
    UserData(name, HandToInt(hand), OrEmpty(skins), chosenSkin, difficulty, money,
             OrEmpty(values1), OrEmpty(values2), OrEmpty(values3),
             OrEmpty(fgTime), OrEmpty(fgEggs), OrEmpty(pgTime), OrEmpty(pgGlass))
  }

  /** User.UserToData. */
  function UserToData(u: User): UserData {
    NewUserData(u.name, u.paralyzedHand, Some(u.sgBoughtSkins), u.sgChosenSkin, u.sgCurrentDifficulty, u.sgMoney,
                Some(u.sgValues1), Some(u.sgValues2), Some(u.sgValues3),
                Some(u.pgTime), Some(u.pgGlass),
                Some(u.fgTime), Some(u.fgEggs))
  }

  /** User.DataToUser: the code is cast back to a hand and every array
      becomes a list. */
  function DataToUser(d: UserData): (u: User)
    ensures ValidHand(u.paralyzedHand)
  {
    User(d.name, HandFromInt(d.hand), d.sgbSkins, d.sgcSkin, d.sgCurrentDifficulty, d.sgMoney,
         d.sgValues1, d.sgValues2, d.sgValues3,
         d.fgTime, d.fgEggs, d.pgTime, d.pgGlass)
  }

  /** Converting a user to data and back gives the same user, field by
      field, with every list keeping its elements in their positions. */
  lemma UserRoundTrip(u: User)
    requires ValidHand(u.paralyzedHand)
    ensures DataToUser(UserToData(u)) == u
  {
  }

  /** Converting data to a user and back gives the same data; the hand code
      survives even when it names no hand. */
  lemma DataRoundTrip(d: UserData)
    ensures UserToData(DataToUser(d)) == d
  {
  }

  /** A user whose lists were passed as null comes back from data with
      empty lists in their place and everything else unchanged. */
  lemma NullListsComeBackEmpty(name: string, hand: Hand, chosenSkin: int, difficulty: int, money: int)
    requires ValidHand(hand)
    ensures DataToUser(NewUserData(name, hand, None, chosenSkin, difficulty, money, None, None, None, None, None, None, None))
            == User(name, hand, [], chosenSkin, difficulty, money, [], [], [], [], [], [], [])
  {
  }
}

=== FILE: sgmanager.dfy ===
/** The Sorting Game manager (SortingGame/SGGameManager.cs): the game flow
    from the menu through a round to the win screen and on to harder
    rounds, the lists of objects in the scene, the money and the per-box
    statistics it writes back to the user. Objects are identified by the
    ids the manager hands out; their own state lives in the Filling, Coin
    and Box modules. */
module SGGameManager {
  import opened Common
  import opened Profile
  import opened SGSetUp
  import opened Filling

  /** A box prefab: the skin it belongs to and the filling type it accepts. */
  datatype Prefab = Prefab(skin: int, kind: FillingType)

  /** A filling in the scene: its id and the type of the prefab it came from. */
  datatype Item = Item(id: nat, kind: FillingType)

  /** A box in the scene: its id, its prefab, and the share of the target
      the manager gave it. */
  datatype BoxItem = BoxItem(id: nat, prefab: Prefab, target: int)

  /** SGInfo: the settings and the outcome of one won round. */
  datatype SGInfo = SGInfo(
    spawnInterval: real, boxesNum: int, targetFillingNum: int,
    fadeCoin: bool, fadeCoinDuration: real, coinDropProb: real,
    shrinkFilling: bool, shrinkFillingDuration: real,
    duration: real, errors: int)

  /** The manager, together with the static setup it reads and writes and
      the menu's StartPlaying flag. */
  datatype Manager = Manager(
    state: GameState,
    fillings: seq<Item>,
    boxes: seq<BoxItem>,
    coins: seq<nat>,
    boxPrefabs: seq<Prefab>,
    shrinkFilling: bool,
    shrinkFillingDuration: real,
    fadeCoin: bool,
    fadeCoinDuration: real,
    coinDropProb: real,
    boxesNum: int,
    currentTouchCount: int,
    fillingLayers: int,
    fillingSorted: int,
    targetFillingNum: int,
    currentCoins: int,
    coinsCollected: int,
    gamesPlayed: int,
    errors: int,
    spawnTimer: real,
    spawnInterval: real,
    gameDuration: real,
    gamesInfo: seq<SGInfo>,
    nextId: nat,
    setup: Setup,
    startPlaying: bool)

  /** The filling types a difficulty plays with: the first from difficulty
      1 on, the second from 2 on, the third from 3 on. */
  function TierKinds(difficulty: int): (r: seq<FillingType>)
    ensures difficulty <= 0 ==> r == []
    ensures 1 <= difficulty <= 3 ==> r == [First, Second, Third][..difficulty]
    ensures difficulty >= 3 ==> r == [First, Second, Third]
  {
    (if difficulty >= 1 then [First] else [])
    + (if difficulty >= 2 then [Second] else [])
    + (if difficulty >= 3 then [Third] else [])
  }

  /** The box prefabs SetUpBoxAndFillings adds for one setup: one box of
      the chosen skin per filling type in play. */
  function TierPrefabs(skin: int, difficulty: int): (r: seq<Prefab>)
    ensures |r| == |TierKinds(difficulty)|
    ensures forall i :: 0 <= i < |r| ==> r[i] == Prefab(skin, TierKinds(difficulty)[i])
  {
    seq(|TierKinds(difficulty)|, i requires 0 <= i < |TierKinds(difficulty)| => Prefab(skin, TierKinds(difficulty)[i]))
  }

  /** Start: the scene begins in the menu with a user (the default one when
      none was handed over), the menu not yet asking to play, and every
      counter and list at its zero value. */
  function Initial(setup: Setup): (m: Manager)
    ensures m.state == Menu && !m.startPlaying && m.setup.user.Some?
    ensures setup.user.Some? ==> m.setup == setup
    ensures setup.user.None? ==> m.setup == setup.(user := Some(DefaultUser()))
    ensures m.fillings == [] && m.boxes == [] && m.coins == [] && m.gamesInfo == []
  {
    var s := if setup.user.None? then setup.(user := Some(DefaultUser())) else setup;
    Manager(Menu, [], [], [], [], false, 0.0, false, 0.0, 0.0,
            0, 0, 0, 0, 0, 0, 0, 0, 0, 0.0, 0.0, 0.0, [], 0, s, false)
  }

  /** SetUpGame: a new session. It resets the coins collected and the
      rounds played, takes the user's money, loads the difficulty's values
      into the setup and copies them into the manager, and selects the box
      prefabs of the chosen skin for the difficulty. */
  function SetUpGame(m: Manager): (r: Manager)
    ensures r.coinsCollected == 0 && r.gamesPlayed == 0
    ensures m.setup.user.Some? ==> r.currentCoins == m.setup.user.value.sgMoney
    ensures m.setup.user.None? ==> r.currentCoins == m.currentCoins
    ensures r.setup == SetValues(m.setup)
    ensures r.spawnInterval == r.setup.spawnInterval && r.targetFillingNum == r.setup.targetFillingNum
    ensures r.boxesNum == r.setup.boxesNum && r.coinDropProb == r.setup.coinDropProb
    ensures r.shrinkFilling == r.setup.shrinkFilling && r.shrinkFillingDuration == r.setup.shrinkFillingDuration
    ensures r.fadeCoin == r.setup.fadeCoin && r.fadeCoinDuration == r.setup.fadeCoinDuration
    ensures r.boxPrefabs == TierPrefabs(m.setup.chosenSkin, m.setup.difficulty)
    ensures r.state == m.state && r.gamesInfo == m.gamesInfo && r.startPlaying == m.startPlaying
  {
    var s := SetValues(m.setup);
    m.(coinsCollected := 0,
       currentCoins := if m.setup.user.Some? then m.setup.user.value.sgMoney else m.currentCoins,
       gamesPlayed := 0,
       setup := s,
       spawnInterval := s.spawnInterval,
       targetFillingNum := s.targetFillingNum,
       boxesNum := s.boxesNum,
       shrinkFilling := s.shrinkFilling,
       shrinkFillingDuration := s.shrinkFillingDuration,
       fadeCoin := s.fadeCoin,
       fadeCoinDuration := s.fadeCoinDuration,
       coinDropProb := s.coinDropProb,
       boxPrefabs := TierPrefabs(m.setup.chosenSkin, m.setup.difficulty))
  }

  /** SetUpBoxAndFillings as written: the prefabs of every setup are added
      to those of the setups before it in the same scene. */
  function BoxPrefabsAsWritten(prefabs: seq<Prefab>, skin: int, difficulty: int): (r: seq<Prefab>)
    ensures |r| == |prefabs| + |TierKinds(difficulty)|
    ensures r[..|prefabs|] == prefabs
  {
    prefabs + TierPrefabs(skin, difficulty)
  }

  /** SpawnBoxes' choice of prefabs: the first `boxesNum` of the list. */
  function SpawnedPrefabs(prefabs: seq<Prefab>, boxesNum: int): (r: seq<Prefab>)
    ensures |r| == if boxesNum <= 0 then 0 else if boxesNum <= |prefabs| then boxesNum else |prefabs|
    ensures forall i :: 0 <= i < |r| ==> r[i] == prefabs[i]
  {
    if boxesNum <= 0 then [] else if boxesNum <= |prefabs| then prefabs[..boxesNum] else prefabs
  }

  /** As written, a second session in the same scene spawns the first
      session's boxes: after an easy game, a medium game with the same skin
      gets two boxes for the first filling type and none for the second. */
  lemma SecondSessionGetsStaleBoxes(skin: int)
    ensures var prefabs := BoxPrefabsAsWritten(BoxPrefabsAsWritten([], skin, 1), skin, 2);
      SpawnedPrefabs(prefabs, 2) == [Prefab(skin, First), Prefab(skin, First)]
  {
    var prefabs := BoxPrefabsAsWritten(BoxPrefabsAsWritten([], skin, 1), skin, 2);
    assert prefabs == [Prefab(skin, First), Prefab(skin, First), Prefab(skin, Second)];
  }

  /** With the prefabs chosen afresh at every setup, every session of
      difficulty d gets exactly one box of its skin for each of the d
      filling types in play, in type order, whatever came before. */
  lemma {:induction false} EverySessionGetsItsBoxes(m: Manager)
    requires 1 <= m.setup.difficulty <= 3
    ensures var r := SetUpGame(m);
      && |SpawnedPrefabs(r.boxPrefabs, r.boxesNum)| == m.setup.difficulty
      && forall i :: 0 <= i < m.setup.difficulty ==>
           SpawnedPrefabs(r.boxPrefabs, r.boxesNum)[i] == Prefab(m.setup.chosenSkin, [First, Second, Third][i])
  {
    var r := SetUpGame(m);
    assert r.boxesNum == m.setup.difficulty;
    assert |r.boxPrefabs| == m.setup.difficulty;
  }

  /** SpawnBoxes: the spawned boxes, with fresh ids, one per chosen prefab,
      each told to take the target divided (rounding toward zero) by the
      number of boxes. */
  function SpawnBoxes(m: Manager): (r: Manager)
    ensures |r.boxes| == |SpawnedPrefabs(m.boxPrefabs, m.boxesNum)|
    ensures forall i :: 0 <= i < |r.boxes| ==>
      && r.boxes[i].id == m.nextId + i
      && r.boxes[i].prefab == SpawnedPrefabs(m.boxPrefabs, m.boxesNum)[i]
      && r.boxes[i].target == TruncDiv(m.targetFillingNum, m.boxesNum)
    ensures r.nextId == m.nextId + |r.boxes|
    ensures r == m.(boxes := r.boxes, nextId := r.nextId)
  {
    var chosen := SpawnedPrefabs(m.boxPrefabs, m.boxesNum);
    if |chosen| == 0 then m.(boxes := [])
    else
      var share := TruncDiv(m.targetFillingNum, m.boxesNum);
      m.(boxes := seq(|chosen|, i requires 0 <= i < |chosen| => BoxItem(m.nextId + i, chosen[i], share)),
         nextId := m.nextId + |chosen|)
  }

  /** The boxes' shares add up to the round's target whenever the target is
      a multiple of the number of boxes, as every table row and every
      harder round keeps it. */
  lemma {:induction false} SharesAddUpToTarget(m: Manager)
    requires 1 <= m.boxesNum <= |m.boxPrefabs|
    requires m.targetFillingNum >= 0 && m.targetFillingNum % m.boxesNum == 0
    ensures Sum(Targets(SpawnBoxes(m).boxes)) == m.targetFillingNum
  {
    var boxes := SpawnBoxes(m).boxes;
    var share := m.targetFillingNum / m.boxesNum;
    SumOfEqualShares(Targets(boxes), share);
    assert share * m.boxesNum == m.targetFillingNum;
  }

  /** The targets of a list of boxes. */
  function Targets(boxes: seq<BoxItem>): (r: seq<int>)
    ensures |r| == |boxes|
    ensures forall i :: 0 <= i < |boxes| ==> r[i] == boxes[i].target
  {
    seq(|boxes|, i requires 0 <= i < |boxes| => boxes[i].target)
  }

  /** n equal shares sum to n times the share. */
  lemma {:induction false} SumOfEqualShares(s: seq<int>, share: int)
    requires forall i :: 0 <= i < |s| ==> s[i] == share
    ensures Sum(s) == share * |s|
    decreases |s|
  {
    if |s| > 0 {
      SumOfEqualShares(s[1..], share);
    }
  }

  /** StartGame: a fresh round. Timer, touch count, layer counter, sorted
      count and errors go to zero, the scene loses its fillings and coins,
      the boxes are spawned anew, and the game is playing. */
  function StartGame(m: Manager): (r: Manager)
    ensures r.state == Playing && r.spawnTimer == 0.0 && r.gameDuration == 0.0
    ensures r.currentTouchCount == 0 && r.fillingLayers == 0 && r.fillingSorted == 0 && r.errors == 0
    ensures r.fillings == [] && r.coins == []
    ensures r.boxes == SpawnBoxes(m).boxes
    ensures r.targetFillingNum == m.targetFillingNum && r.boxesNum == m.boxesNum
    ensures r.currentCoins == m.currentCoins && r.coinsCollected == m.coinsCollected
    ensures r.gamesPlayed == m.gamesPlayed && r.gamesInfo == m.gamesInfo && r.setup == m.setup
    ensures r.startPlaying == m.startPlaying
  {
    var m1 := m.(spawnTimer := 0.0, currentTouchCount := 0, fillingLayers := 0, fillingSorted := 0,
                 errors := 0, fillings := [], coins := []);
    SpawnBoxes(m1).(state := Playing, gameDuration := 0.0)
  }

  /** The manager's side of Box.WrongFilling: a filling bounced off a box
      of the other type is one error more for the round, and nothing else
      about the manager changes. */
  function CountError(m: Manager): (r: Manager)
    ensures r.errors == m.errors + 1
    ensures r == m.(errors := r.errors)
  {
    m.(errors := m.errors + 1)
  }

  /** New fillings with consecutive fresh ids, one per type. */
  function NewItems(firstId: nat, kinds: seq<FillingType>): (r: seq<Item>)
    ensures |r| == |kinds|
    ensures forall i :: 0 <= i < |r| ==> r[i] == Item(firstId + i, kinds[i])
  {
    seq(|kinds|, i requires 0 <= i < |kinds| => Item(firstId + i, kinds[i]))
  }

  /** SpawnFillings: the spawn timer runs; when it reaches the interval the
      manager spawns one filling of every type in play and restarts the
      timer. */
  function SpawnFillings(m: Manager, dt: real): (r: Manager)
    ensures m.spawnTimer + dt < m.spawnInterval ==> r == m.(spawnTimer := m.spawnTimer + dt)
    ensures m.spawnTimer + dt >= m.spawnInterval ==>
      && r.spawnTimer == 0.0
      && r.fillings == m.fillings + NewItems(m.nextId, TierKinds(m.setup.difficulty))
      && r.nextId == m.nextId + |TierKinds(m.setup.difficulty)|
      && r == m.(spawnTimer := 0.0, fillings := r.fillings, nextId := r.nextId)
  {
    var t := m.spawnTimer + dt;
    if t >= m.spawnInterval then
      var kinds := TierKinds(m.setup.difficulty);
      m.(fillings := m.fillings + NewItems(m.nextId, kinds), nextId := m.nextId + |kinds|, spawnTimer := 0.0)
    else m.(spawnTimer := t)
  }

  /** Play: fillings spawn and the round's clock runs. Which objects the
      touches and drags reach is decided by the objects' own modules. */
  function Play(m: Manager, dt: real): (r: Manager)
    ensures r.gameDuration == m.gameDuration + dt
    ensures r.currentTouchCount == m.currentTouchCount
    ensures r == SpawnFillings(m, dt).(gameDuration := m.gameDuration + dt)
  {
    SpawnFillings(m, dt).(gameDuration := m.gameDuration + dt)
  }

  /** Update: in the menu, once the player asked to play, a session is set
      up and its first round started; while playing, a frame of play; in
      any other state nothing happens. */
  function Update(m: Manager, dt: real): (r: Manager)
    ensures m.state == Menu && m.startPlaying ==> r == StartGame(SetUpGame(m.(state := Playing)))
    ensures m.state == Playing ==> r == Play(m, dt)
    ensures (m.state == Menu && !m.startPlaying) || m.state == Victory || m.state == Inactive ==> r == m
  {
    match m.state
    case Menu => if m.startPlaying then StartGame(SetUpGame(m.(state := Playing))) else m
    case Playing => Play(m, dt)
    case _ => m
  }

  /** A statistic entry: the first won round of a session adds a value,
      every later one overwrites the session's value. */
  function RecordStat(values: seq<real>, gamesPlayed: int, value: real): (r: seq<real>)
    ensures gamesPlayed == 1 ==> r == values + [value]
    ensures gamesPlayed != 1 && |values| > 0 ==> r == values[..|values| - 1] + [value]
    ensures gamesPlayed != 1 && |values| == 0 ==> r == values
  {
    if gamesPlayed == 1 then values + [value]
    else if |values| > 0 then values[..|values| - 1] + [value]
    else values
  }

  /** The statistic list of the given number of boxes, written. */
  function RecordGame(u: User, boxesNum: int, gamesPlayed: int, value: real): (r: User)
    ensures boxesNum == 1 ==> r == u.(sgValues1 := RecordStat(u.sgValues1, gamesPlayed, value))
    ensures boxesNum == 2 ==> r == u.(sgValues2 := RecordStat(u.sgValues2, gamesPlayed, value))
    ensures boxesNum == 3 ==> r == u.(sgValues3 := RecordStat(u.sgValues3, gamesPlayed, value))
    ensures !(1 <= boxesNum <= 3) ==> r == u
  {
    match boxesNum
    case 1 => u.(sgValues1 := RecordStat(u.sgValues1, gamesPlayed, value))
    case 2 => u.(sgValues2 := RecordStat(u.sgValues2, gamesPlayed, value))
    case 3 => u.(sgValues3 := RecordStat(u.sgValues3, gamesPlayed, value))
    case _ => u
  }

  /** The settings and outcome of the round being won. */
  function RoundInfo(m: Manager): SGInfo {
    SGInfo(m.spawnInterval, m.boxesNum, m.targetFillingNum, m.fadeCoin, m.fadeCoinDuration,
           m.coinDropProb, m.shrinkFilling, m.shrinkFillingDuration, m.gameDuration, m.errors)
  }

  /** EndGame: a round with at least its target sorted is won. The coins go,
      the game returns to the menu without asking to play, the round's
      info is kept, the session counts one more round, the user's money
      becomes the session's starting money plus the coins collected, and
      the session's statistic for the number of boxes is recorded with
      `gameValue` (the score CalculateGameValue computes). A round short of
      its target changes nothing. */
  function EndGame(m: Manager, gameValue: real): (r: Manager)
    ensures m.fillingSorted < m.targetFillingNum ==> r == m
    ensures m.fillingSorted >= m.targetFillingNum ==>
      && r.state == Menu && !r.startPlaying && r.coins == []
      && r.gamesInfo == m.gamesInfo + [RoundInfo(m)]
      && r.gamesPlayed == m.gamesPlayed + 1
      && (m.setup.user.None? ==> r.setup == m.setup)
      && (m.setup.user.Some? ==> r.setup == m.setup.(user := Some(RecordGame(
            m.setup.user.value.(sgMoney := m.currentCoins + m.coinsCollected),
            m.boxesNum, m.gamesPlayed + 1, gameValue))))
      && r == m.(state := Menu, startPlaying := false, coins := [], gamesInfo := r.gamesInfo,
                 gamesPlayed := r.gamesPlayed, setup := r.setup)
  {
    if m.fillingSorted >= m.targetFillingNum then
      var played := m.gamesPlayed + 1;
      var user := match m.setup.user
        case None => None
        case Some(u) => Some(RecordGame(u.(sgMoney := m.currentCoins + m.coinsCollected), m.boxesNum, played, gameValue));
      m.(coins := [], startPlaying := false, state := Menu, gamesInfo := m.gamesInfo + [RoundInfo(m)],
         gamesPlayed := played, setup := m.setup.(user := user))
    else m
  }

  /** DeleteFilling: a filling sorted into its box counts and may win the
      round; either way the filling leaves the scene. */
  function DeleteFilling(m: Manager, f: Item, inTrashCan: bool, gameValue: real): (r: Manager)
    ensures !inTrashCan ==> r == m.(fillings := RemoveFirst(m.fillings, f))
    ensures inTrashCan ==>
      r == EndGame(m.(fillingSorted := m.fillingSorted + 1), gameValue).(fillings := RemoveFirst(m.fillings, f))
    ensures multiset(r.fillings) == multiset(m.fillings) - multiset{f}
    ensures r.errors == m.errors
  {
    var m1 := if inTrashCan then EndGame(m.(fillingSorted := m.fillingSorted + 1), gameValue) else m;
    m1.(fillings := RemoveFirst(m1.fillings, f))
  }

  /** SpawnCoin: a coin with a fresh id joins the scene. Its fade settings
      are the manager's, given to Coin.Start by the caller. */
  function SpawnCoin(m: Manager): (r: (Manager, nat))
    ensures r.0.coins == m.coins + [r.1]
    ensures (forall c :: c in m.coins ==> c < m.nextId) ==>
      r.1 !in m.coins && forall c :: c in r.0.coins ==> c < r.0.nextId
    ensures r.0 == m.(coins := r.0.coins, nextId := r.0.nextId)
  {
    (m.(coins := m.coins + [m.nextId], nextId := m.nextId + 1), m.nextId)
  }

  /** DeleteCoin: a collected coin counts; either way the coin leaves the
      scene. */
  function DeleteCoin(m: Manager, coin: nat, collected: bool): (r: Manager)
    ensures r.coinsCollected == m.coinsCollected + (if collected then 1 else 0)
    ensures multiset(r.coins) == multiset(m.coins) - multiset{coin}
    ensures r == m.(coins := r.coins, coinsCollected := r.coinsCollected)
  {
    m.(coinsCollected := if collected then m.coinsCollected + 1 else m.coinsCollected,
       coins := RemoveFirst(m.coins, coin))
  }

  /** OneBox, TwoBoxes and ThreeBoxes share one shape: the spawn interval
      shrinks by 10% and the target grows by `step`; once the interval is
      at most `fast` the target grows by `extra` more; once it is at most
      `faster` fillings start to shrink (their time cut by 10% if they
      already shrank and had at least 2 s) and the interval is eased by 5%. */
  function Harder(m: Manager, step: int, extra: int, fast: real, faster: real): (r: Manager)
    ensures r.targetFillingNum == m.targetFillingNum + step
         || r.targetFillingNum == m.targetFillingNum + step + extra
    ensures m.spawnInterval > 0.0 ==> 0.0 < r.spawnInterval < m.spawnInterval
    ensures m.shrinkFilling ==> r.shrinkFilling
    ensures r.shrinkFillingDuration >= (if m.shrinkFillingDuration >= 2.0 then 1.8 else m.shrinkFillingDuration)
    ensures r == m.(spawnInterval := r.spawnInterval, targetFillingNum := r.targetFillingNum,
                    shrinkFilling := r.shrinkFilling, shrinkFillingDuration := r.shrinkFillingDuration)
  {
    var si := m.spawnInterval * 0.9;
    if si <= fast then
      if si <= faster then
        m.(spawnInterval := si * 1.05, targetFillingNum := m.targetFillingNum + step + extra,
           shrinkFilling := true,
           shrinkFillingDuration := if m.shrinkFilling && m.shrinkFillingDuration >= 2.0
                                    then m.shrinkFillingDuration * 0.9 else m.shrinkFillingDuration)
      else m.(spawnInterval := si, targetFillingNum := m.targetFillingNum + step + extra)
    else m.(spawnInterval := si, targetFillingNum := m.targetFillingNum + step)
  }

  /** OneBox: +3 fillings, +3 more from 1.2 s, shrinking from 1 s. */
  function OneBox(m: Manager): Manager { Harder(m, 3, 3, 1.2, 1.0) }

  /** TwoBoxes: +4 fillings, +2 more from 1.4 s, shrinking from 1.2 s. */
  function TwoBoxes(m: Manager): Manager { Harder(m, 4, 2, 1.4, 1.2) }

  /** ThreeBoxes: +3 fillings, +3 more from 1.4 s, shrinking from 1.2 s. */
  function ThreeBoxes(m: Manager): Manager { Harder(m, 3, 3, 1.4, 1.2) }

  /** ContinueGame: the next round is harder by the rule for the number of
      boxes, then starts. Each harder round asks for more fillings, by an
      amount that keeps the target a multiple of the number of boxes; a
      positive spawn interval gets shorter but stays positive; once on,
      shrinking stays on, and the shrink time never drops below 1.8 s
      unless it already was. */
  function ContinueGame(m: Manager): (r: Manager)
    ensures r.boxesNum == m.boxesNum && r.state == Playing
    ensures 1 <= m.boxesNum <= 3 ==> r.targetFillingNum > m.targetFillingNum
    ensures 1 <= m.boxesNum <= 3 ==>
      (r.targetFillingNum - m.targetFillingNum) % m.boxesNum == 0
    ensures !(1 <= m.boxesNum <= 3) ==> r.targetFillingNum == m.targetFillingNum
    ensures m.spawnInterval > 0.0 && 1 <= m.boxesNum <= 3 ==> 0.0 < r.spawnInterval < m.spawnInterval
    ensures m.shrinkFilling ==> r.shrinkFilling
    ensures r.shrinkFillingDuration >= (if m.shrinkFillingDuration >= 2.0 then 1.8 else m.shrinkFillingDuration)
    ensures r.currentCoins == m.currentCoins && r.coinsCollected == m.coinsCollected
    ensures r.gamesPlayed == m.gamesPlayed && r.setup == m.setup && r.gamesInfo == m.gamesInfo
  {
    StartGame(Harden(m))
  }

  /** The rule of ContinueGame for the number of boxes. */
  function Harden(m: Manager): (r: Manager)
    ensures 1 <= m.boxesNum <= 3 ==>
      && r.targetFillingNum > m.targetFillingNum
      && (r.targetFillingNum - m.targetFillingNum) % m.boxesNum == 0
    ensures !(1 <= m.boxesNum <= 3) ==> r == m
    ensures m.spawnInterval > 0.0 && 1 <= m.boxesNum <= 3 ==> 0.0 < r.spawnInterval < m.spawnInterval
    ensures m.shrinkFilling ==> r.shrinkFilling
    ensures r.shrinkFillingDuration >= (if m.shrinkFillingDuration >= 2.0 then 1.8 else m.shrinkFillingDuration)
    ensures r == m.(spawnInterval := r.spawnInterval, targetFillingNum := r.targetFillingNum,
                    shrinkFilling := r.shrinkFilling, shrinkFillingDuration := r.shrinkFillingDuration)
  {
    match m.boxesNum
    case 1 => OneBox(m)
    case 2 => TwoBoxes(m)
    case 3 => ThreeBoxes(m)
    case _ => m
  }

  /** `n` harder rounds in a row. */
  function ContinueTimes(m: Manager, n: nat): Manager
    decreases n
  {
    if n == 0 then m else ContinueTimes(ContinueGame(m), n - 1)
  }

  /** Over any number of rounds the target stays a multiple of the number
      of boxes and grows by at least one filling per round, so every box's
      share stays whole and the round always ends with every box full. */
  lemma {:induction false} TargetStaysShareable(m: Manager, n: nat)
    requires 1 <= m.boxesNum <= 3
    requires m.targetFillingNum % m.boxesNum == 0
    ensures var r := ContinueTimes(m, n);
      && r.boxesNum == m.boxesNum
      && r.targetFillingNum % r.boxesNum == 0
      && r.targetFillingNum >= m.targetFillingNum + n
    decreases n
  {
    if n > 0 {
      var m1 := ContinueGame(m);
      SharesAdd(m.targetFillingNum, m1.targetFillingNum - m.targetFillingNum, m.boxesNum);
      TargetStaysShareable(m1, n - 1);
    }
  }

  /** Two amounts that share out evenly among the boxes add up to one
      that does. */
  lemma SharesAdd(a: int, d: int, b: int)
    requires 1 <= b <= 3 && a % b == 0 && d % b == 0
    ensures (a + d) % b == 0
  {
    if b == 2 {
      assert (a + d) % 2 == 0;
    } else if b == 3 {
      assert (a + d) % 3 == 0;
    }
  }
}

=== FILE: sgmenu.dfy ===
/** The Sorting Game's own menu (SortingGame/SGMenuManager.cs): choosing
    and buying skins, choosing the difficulty, and handing the choice to
    the game. Skins are known by their prices; indexing the skin list with
    an index it does not have throws in the source and gives None here. */
module SGMenu {
  import opened Common
  import opened Profile
  import opened SGSetUp

  const MaxDifficulty: int := 3

  /** The filling image rows of the menu: which images of each row are
      shown. Row k shows the fillings of difficulty k + 1. */
  datatype Rows = Rows(row0: seq<bool>, row1: seq<bool>, row2: seq<bool>)

  /** The menu: a copy of its user as the setup holds it, whether the
      chosen skin may be played, whether the purchase panel is shown, the
      image rows, and the flag the game manager polls. */
  datatype MenuState = MenuState(user: User, canPlay: bool, purchaseShown: bool, rows: Rows, startPlaying: bool)

  /** The chosen skin is one the user has bought. */
  predicate Owns(u: User) {
    u.sgChosenSkin in u.sgBoughtSkins
  }

  /** SetCurrentSkin: the skin can be played exactly when it was bought,
      and the purchase panel shows exactly when it cannot. A skin number
      outside the list throws. */
  function SetCurrentSkin(ms: MenuState, skinNum: int, prices: seq<int>): (r: Option<MenuState>)
    ensures r.Some? <==> 0 <= skinNum < |prices|
    ensures r.Some? ==> r.value == ms.(canPlay := Owns(ms.user), purchaseShown := !Owns(ms.user))
  {
    if 0 <= skinNum < |prices| then Some(ms.(canPlay := Owns(ms.user), purchaseShown := !Owns(ms.user)))
    else None
  }

  /** NextSkin: the following skin, wrapping to the first after the last. */
  function NextSkin(ms: MenuState, prices: seq<int>): (r: Option<MenuState>)
    ensures 0 <= ms.user.sgChosenSkin < |prices| ==>
      (r.Some? && r.value.user.sgChosenSkin == (ms.user.sgChosenSkin + 1) % |prices|)
    ensures r.Some? ==> r.value.canPlay == Owns(r.value.user) && r.value.user == ms.user.(sgChosenSkin := r.value.user.sgChosenSkin)
  {
    var next := ms.user.sgChosenSkin + 1;
    var chosen := if next >= |prices| then 0 else next;
    var ms1 := ms.(user := ms.user.(sgChosenSkin := chosen));
    SetCurrentSkin(ms1, chosen, prices)
  }

  /** PreviousSkin: the preceding skin, wrapping to the last before the
      first. */
  function PreviousSkin(ms: MenuState, prices: seq<int>): (r: Option<MenuState>)
    ensures 0 <= ms.user.sgChosenSkin < |prices| ==>
      (r.Some? && r.value.user.sgChosenSkin == (ms.user.sgChosenSkin - 1 + |prices|) % |prices|)
    ensures r.Some? ==> r.value.canPlay == Owns(r.value.user) && r.value.user == ms.user.(sgChosenSkin := r.value.user.sgChosenSkin)
  {
    var prev := ms.user.sgChosenSkin - 1;
    var chosen := if prev < 0 then |prices| - 1 else prev;
    var ms1 := ms.(user := ms.user.(sgChosenSkin := chosen));
    SetCurrentSkin(ms1, chosen, prices)
  }

  /** Stepping forward through the skins and back again returns to the
      same skin, with the same playability, from any valid skin. */
  lemma {:induction false} PreviousUndoesNext(ms: MenuState, prices: seq<int>)
    requires 0 <= ms.user.sgChosenSkin < |prices|
    ensures NextSkin(ms, prices).Some?
    ensures PreviousSkin(NextSkin(ms, prices).value, prices).Some?
    ensures PreviousSkin(NextSkin(ms, prices).value, prices).value.user == ms.user
    ensures PreviousSkin(NextSkin(ms, prices).value, prices).value.canPlay == Owns(ms.user)
  {
    var n := NextSkin(ms, prices).value;
    var c := ms.user.sgChosenSkin;
    assert n.user == ms.user.(sgChosenSkin := (c + 1) % |prices|);
    if c + 1 < |prices| {
      assert (c + 1) % |prices| == c + 1;
    } else {
      assert (c + 1) % |prices| == 0;
    }
  }

  /** AdjustDifficulty: every image is shown, then the rows of the
      difficulties above the chosen one are hidden; a difficulty outside
      1 to 3 hides nothing. */
  function AdjustDifficulty(rows: Rows, difficulty: int): (r: Rows)
    ensures |r.row0| == |rows.row0| && |r.row1| == |rows.row1| && |r.row2| == |rows.row2|
    ensures forall i :: 0 <= i < |r.row0| ==> r.row0[i]
    ensures forall i :: 0 <= i < |r.row1| ==> (r.row1[i] <==> difficulty != 1)
    ensures forall i :: 0 <= i < |r.row2| ==> (r.row2[i] <==> difficulty != 1 && difficulty != 2)
  {
    var shown := Rows(AllShown(rows.row0), AllShown(rows.row1), AllShown(rows.row2));
    match difficulty
    case 1 => shown.(row1 := HideImages(shown.row1, |shown.row1|), row2 := HideImages(shown.row2, |shown.row2|))
    case 2 => shown.(row2 := HideImages(shown.row2, |shown.row2|))
    case _ => shown
  }

  /** ActivateImages: every image of a row is shown. */
  function AllShown(row: seq<bool>): (r: seq<bool>)
    ensures |r| == |row| && forall i :: 0 <= i < |r| ==> r[i]
  {
    seq(|row|, _ => true)
  }

  /** HideImages: the last `num` images of a row are hidden, the others
      keep their state. */
  function HideImages(row: seq<bool>, num: nat): (r: seq<bool>)
    requires num <= |row|
    ensures |r| == |row|
    ensures forall i :: 0 <= i < |row| ==> r[i] == (if i >= |row| - num then false else row[i])
  {
    seq(|row|, i requires 0 <= i < |row| => if i >= |row| - num then false else row[i])
  }

  /** IncreaseDifficulty: one level up, at most 3. */
  function IncreaseDifficulty(ms: MenuState): (r: MenuState)
    ensures r.user.sgCurrentDifficulty == if ms.user.sgCurrentDifficulty + 1 > MaxDifficulty then MaxDifficulty else ms.user.sgCurrentDifficulty + 1
    ensures r.user.sgCurrentDifficulty <= MaxDifficulty
    ensures r.rows == AdjustDifficulty(ms.rows, r.user.sgCurrentDifficulty)
  {
    var d := ms.user.sgCurrentDifficulty + 1;
    var d1 := if d > MaxDifficulty then MaxDifficulty else d;
    ms.(user := ms.user.(sgCurrentDifficulty := d1), rows := AdjustDifficulty(ms.rows, d1))
  }

  /** DecreaseDifficulty: one level down, at least 1. */
  function DecreaseDifficulty(ms: MenuState): (r: MenuState)
    ensures r.user.sgCurrentDifficulty == if ms.user.sgCurrentDifficulty - 1 < 1 then 1 else ms.user.sgCurrentDifficulty - 1
    ensures r.user.sgCurrentDifficulty >= 1
    ensures r.rows == AdjustDifficulty(ms.rows, r.user.sgCurrentDifficulty)
  {
    var d := ms.user.sgCurrentDifficulty - 1;
    var d1 := if d < 1 then 1 else d;
    ms.(user := ms.user.(sgCurrentDifficulty := d1), rows := AdjustDifficulty(ms.rows, d1))
  }

  /** From a stored difficulty in range, the two buttons keep it in range,
      undo each other away from the ends, and stop at the ends. */
  lemma DifficultyButtons(ms: MenuState)
    requires 1 <= ms.user.sgCurrentDifficulty <= MaxDifficulty
    ensures 1 <= IncreaseDifficulty(ms).user.sgCurrentDifficulty <= MaxDifficulty
    ensures 1 <= DecreaseDifficulty(ms).user.sgCurrentDifficulty <= MaxDifficulty
    ensures ms.user.sgCurrentDifficulty < MaxDifficulty ==>
      DecreaseDifficulty(IncreaseDifficulty(ms)).user == ms.user
    ensures ms.user.sgCurrentDifficulty > 1 ==>
      IncreaseDifficulty(DecreaseDifficulty(ms)).user == ms.user
    ensures ms.user.sgCurrentDifficulty == MaxDifficulty ==> IncreaseDifficulty(ms).user == ms.user
    ensures ms.user.sgCurrentDifficulty == 1 ==> DecreaseDifficulty(ms).user == ms.user
  {
  }

  /** BuySkin: a user with at least the chosen skin's price pays it and
      owns the skin, which can then be played; otherwise nothing changes.
      A chosen skin outside the list throws. */
  function BuySkin(ms: MenuState, prices: seq<int>): (r: Option<MenuState>)
    ensures r.Some? <==> 0 <= ms.user.sgChosenSkin < |prices|
    ensures r.Some? && ms.user.sgMoney >= prices[ms.user.sgChosenSkin] ==>
      && r.value.user == ms.user.(sgBoughtSkins := ms.user.sgBoughtSkins + [ms.user.sgChosenSkin],
                                  sgMoney := ms.user.sgMoney - prices[ms.user.sgChosenSkin])
      && r.value.canPlay && !r.value.purchaseShown
      && r.value.user.sgMoney >= 0
    ensures r.Some? && ms.user.sgMoney < prices[ms.user.sgChosenSkin] ==> r.value == ms
  {
    var c := ms.user.sgChosenSkin;
    if !(0 <= c < |prices|) then None
    else if ms.user.sgMoney >= prices[c] then
      var u := ms.user.(sgBoughtSkins := ms.user.sgBoughtSkins + [c], sgMoney := ms.user.sgMoney - prices[c]);
      SetCurrentSkin(ms.(user := u), c, prices)
    else Some(ms)
  }

  /** EnterGame: the flag is down, the user's skin and difficulty are
      shown. */
  function EnterGame(u: User, rows: Rows, prices: seq<int>): (r: Option<MenuState>)
    ensures r.Some? <==> 0 <= u.sgChosenSkin < |prices|
    ensures r.Some? ==>
      && r.value.user == u && !r.value.startPlaying
      && r.value.canPlay == Owns(u)
      && r.value.rows == AdjustDifficulty(rows, u.sgCurrentDifficulty)
  {
    var ms := MenuState(u, false, false, rows, false);
    match SetCurrentSkin(ms, u.sgChosenSkin, prices)
    case None => None
    case Some(ms1) => Some(ms1.(rows := AdjustDifficulty(rows, u.sgCurrentDifficulty)))
  }

  /** LoadSortingGame: the setup takes the user and the user's name,
      difficulty (also as the number of boxes), skin and hand. */
  function LoadSortingGame(u: User, s: Setup): (r: Setup)
    ensures r.user == Some(u) && r.userName == u.name && r.difficulty == u.sgCurrentDifficulty
    ensures r.boxesNum == u.sgCurrentDifficulty && r.chosenSkin == u.sgChosenSkin && r.hand == u.paralyzedHand
    ensures r == s.(user := r.user, userName := r.userName, difficulty := r.difficulty,
                    boxesNum := r.boxesNum, chosenSkin := r.chosenSkin, hand := r.hand)
  {
    s.(user := Some(u), userName := u.name, difficulty := u.sgCurrentDifficulty,
       boxesNum := u.sgCurrentDifficulty, chosenSkin := u.sgChosenSkin, hand := u.paralyzedHand)
  }

  /** Play: only a playable skin starts the game, which loads the setup
      and raises the flag; otherwise nothing happens. */
  function Play(ms: MenuState, s: Setup): (r: (MenuState, Setup))
    ensures ms.canPlay ==> r == (ms.(startPlaying := true), LoadSortingGame(ms.user, s))
    ensures !ms.canPlay ==> r == (ms, s)
  {
    if ms.canPlay then (ms.(startPlaying := true), LoadSortingGame(ms.user, s)) else (ms, s)
  }

  /** A game only ever starts with a skin the user owns, and then with the
      difficulty and skin the user chose in the menu. */
  lemma {:induction false} PlayOnlyOwnedSkins(u: User, rows: Rows, prices: seq<int>, s: Setup)
    requires 0 <= u.sgChosenSkin < |prices|
    ensures var ms := EnterGame(u, rows, prices).value;
      Play(ms, s).0.startPlaying ==>
        && Owns(u)
        && Play(ms, s).1.chosenSkin == u.sgChosenSkin
        && Play(ms, s).1.difficulty == u.sgCurrentDifficulty
  {
  }
}

=== FILE: sgsession.dfy ===
/** A Sorting Game session as a sequence of the events that reach the
    manager after the player presses Play: frames, fillings leaving the
    scene, coins dropping and leaving, and harder rounds. What the session
    promises about the user's money and statistics holds after every such
    sequence. */
module SGSession {
  import opened Common
  import opened Profile
  import opened SGSetUp
  import opened SGGameManager

  /** A Bounced event is a filling of the wrong type dropped on a box,
      which the box sends back (SortingRound.Enter). */
  datatype Event =
    | Frame(dt: real)
    | FillingGone(f: Item, inTrashCan: bool, gameValue: real)
    | CoinDropped
    | CoinGone(coin: nat, collected: bool)
    | Continue
    | Bounced

  /** What one event does to the manager. */
  function Apply(m: Manager, e: Event): Manager {
    match e
    case Frame(dt) => Update(m, dt)
    case FillingGone(f, inTrash, v) => DeleteFilling(m, f, inTrash, v)
    case CoinDropped => SpawnCoin(m).0
    case CoinGone(c, collected) => DeleteCoin(m, c, collected)
    case Continue => ContinueGame(m)
    case Bounced => CountError(m)
  }

  /** The events, one after another. */
  function Run(m: Manager, events: seq<Event>): Manager
    decreases |events|
  {
    if |events| == 0 then m else Run(Apply(m, events[0]), events[1..])
  }

  /** How many coins the player collected among the events. */
  function Collected(events: seq<Event>): nat
    decreases |events|
  {
    if |events| == 0 then 0
    else (if events[0].CoinGone? && events[0].collected then 1 else 0) + Collected(events[1..])
  }

  /** The statistic list of a number of boxes. */
  function ValuesFor(u: User, boxesNum: int): seq<real> {
    match boxesNum
    case 1 => u.sgValues1
    case 2 => u.sgValues2
    case 3 => u.sgValues3
    case _ => []
  }

  /** A user whose statistic list for a number of boxes is replaced. */
  function WithValues(u: User, boxesNum: int, values: seq<real>): User {
    match boxesNum
    case 1 => u.(sgValues1 := values)
    case 2 => u.(sgValues2 := values)
    case 3 => u.(sgValues3 := values)
    case _ => u
  }

  /** The session's user differs from the one it started with only in its
      money and in the statistic list of the session's number of boxes,
      which holds one value more once a round has been won. */
  predicate StatsKept(u: User, u0: User, boxesNum: int, gamesPlayed: int) {
    var now := ValuesFor(u, boxesNum);
    var before := ValuesFor(u0, boxesNum);
    && u == WithValues(u0.(sgMoney := u.sgMoney), boxesNum, now)
    && |now| == |before| + (if gamesPlayed >= 1 then 1 else 0)
    && now[..|before|] == before
  }

  /** The session's accounts: the money it started with is kept aside, the
      coins counted are those collected, the touch count stays zero, the
      menu never asks to play again on its own, every won round is on
      record, and the user's money lies between the starting money and the
      starting money plus the coins collected. */
  predicate Accounts(m: Manager, u0: User, collected: nat, infos0: nat) {
    && m.setup.user.Some?
    && m.currentCoins == u0.sgMoney
    && m.coinsCollected == collected
    && m.currentTouchCount == 0
    && (m.state == Menu ==> !m.startPlaying)
    && m.gamesPlayed >= 0
    && |m.gamesInfo| == infos0 + m.gamesPlayed
    && 1 <= m.boxesNum <= 3
    && StatsKept(m.setup.user.value, u0, m.boxesNum, m.gamesPlayed)
    && (m.gamesPlayed == 0 ==> m.setup.user.value.sgMoney == u0.sgMoney)
    && u0.sgMoney <= m.setup.user.value.sgMoney <= u0.sgMoney + collected
  }

  /** Pressing Play opens the accounts: the session starts with the user's
      money, nothing collected and nothing won. */
  lemma {:induction false} PlayOpensAccounts(m: Manager, u0: User, dt: real)
    requires m.state == Menu && m.startPlaying
    requires m.setup.user == Some(u0) && 1 <= m.setup.difficulty <= 3
    ensures Accounts(Update(m, dt), u0, 0, |m.gamesInfo|)
  {
    var s := SetUpGame(m.(state := Playing));
    assert s.boxesNum == m.setup.difficulty;
    assert s.setup.user == Some(u0);
  }

  /** A won round: the money becomes the starting money plus the coins
      collected, and the statistic is added or overwritten. */
  lemma {:induction false} WinKeepsAccounts(m: Manager, u0: User, collected: nat, infos0: nat, v: real)
    requires Accounts(m, u0, collected, infos0)
    ensures Accounts(EndGame(m, v), u0, collected, infos0)
  {
    if m.fillingSorted >= m.targetFillingNum {
      var r := EndGame(m, v);
      var u := m.setup.user.value;
      var b := m.boxesNum;
      var paid := u.(sgMoney := m.currentCoins + m.coinsCollected);
      assert r.setup.user.value == RecordGame(paid, b, m.gamesPlayed + 1, v);
      var before := ValuesFor(u0, b);
      var now := ValuesFor(u, b);
      var after := ValuesFor(r.setup.user.value, b);
      assert after == RecordStat(now, m.gamesPlayed + 1, v);
      if m.gamesPlayed == 0 {
        assert after == now + [v];
        assert after[..|before|] == now[..|before|];
      } else {
        assert |now| == |before| + 1;
        assert after == now[..|now| - 1] + [v];
        assert after[..|before|] == now[..|before|];
      }
    }
  }

  /** Two managers that agree on everything the accounts read. */
  predicate SameAccounts(m: Manager, r: Manager) {
    && r.setup == m.setup && r.currentCoins == m.currentCoins && r.coinsCollected == m.coinsCollected
    && r.currentTouchCount == m.currentTouchCount && r.gamesPlayed == m.gamesPlayed
    && r.gamesInfo == m.gamesInfo && r.boxesNum == m.boxesNum
    && r.state == m.state && r.startPlaying == m.startPlaying
  }

  /** A frame changes nothing the accounts read: in the menu the flag is
      down, and play only spawns fillings and runs the clock. */
  lemma FrameKeepsAccounts(m: Manager, u0: User, collected: nat, infos0: nat, dt: real)
    requires Accounts(m, u0, collected, infos0)
    ensures SameAccounts(m, Update(m, dt))
  {
  }

  /** A harder round keeps the accounts. */
  lemma ContinueKeepsAccounts(m: Manager, u0: User, collected: nat, infos0: nat)
    requires Accounts(m, u0, collected, infos0)
    ensures Accounts(ContinueGame(m), u0, collected, infos0)
  {
  }

  /** A filling leaving the scene keeps the accounts, sorted or not. */
  lemma {:induction false} FillingGoneKeepsAccounts(m: Manager, u0: User, collected: nat, infos0: nat, f: Item, inTrash: bool, v: real)
    requires Accounts(m, u0, collected, infos0)
    ensures Accounts(DeleteFilling(m, f, inTrash, v), u0, collected, infos0)
  {
    var r := DeleteFilling(m, f, inTrash, v);
    if inTrash {
      var m1 := m.(fillingSorted := m.fillingSorted + 1);
      AccountsOnlyReadTheirFields(m, m1, u0, collected, infos0);
      var e := EndGame(m1, v);
      WinKeepsAccounts(m1, u0, collected, infos0, v);
      assert r == e.(fillings := RemoveFirst(m.fillings, f));
      AccountsOnlyReadTheirFields(e, r, u0, collected, infos0);
    } else {
      assert r == m.(fillings := RemoveFirst(m.fillings, f));
      AccountsOnlyReadTheirFields(m, r, u0, collected, infos0);
    }
  }

  /** The accounts depend on nothing but the fields SameAccounts compares. */
  lemma AccountsOnlyReadTheirFields(m: Manager, r: Manager, u0: User, collected: nat, infos0: nat)
    requires Accounts(m, u0, collected, infos0) && SameAccounts(m, r)
    ensures Accounts(r, u0, collected, infos0)
  {
  }

  /** Every event keeps the accounts, counting a collected coin. */
  lemma {:induction false} EventKeepsAccounts(m: Manager, u0: User, collected: nat, infos0: nat, e: Event)
    requires Accounts(m, u0, collected, infos0)
    ensures Accounts(Apply(m, e), u0, collected + (if e.CoinGone? && e.collected then 1 else 0), infos0)
  {
    match e
    case Frame(dt) =>
      FrameKeepsAccounts(m, u0, collected, infos0, dt);
    case FillingGone(f, inTrash, v) =>
      FillingGoneKeepsAccounts(m, u0, collected, infos0, f, inTrash, v);
    case CoinDropped =>
      assert SameAccounts(m, SpawnCoin(m).0);
    case CoinGone(c, col) =>
    case Continue =>
      ContinueKeepsAccounts(m, u0, collected, infos0);
    case Bounced =>
      AccountsOnlyReadTheirFields(m, CountError(m), u0, collected, infos0);
  }

  /** The accounts survive any sequence of events. */
  lemma {:induction false} RunKeepsAccounts(m: Manager, u0: User, collected: nat, infos0: nat, events: seq<Event>)
    requires Accounts(m, u0, collected, infos0)
    ensures Accounts(Run(m, events), u0, collected + Collected(events), infos0)
    decreases |events|
  {
    if |events| > 0 {
      var e := events[0];
      EventKeepsAccounts(m, u0, collected, infos0, e);
      RunKeepsAccounts(Apply(m, e), u0, collected + (if e.CoinGone? && e.collected then 1 else 0), infos0, events[1..]);
    }
  }

  /** The session as a whole: after pressing Play and any events, the user
      has gained at most the coins collected and lost none, one statistic
      value at most was added for the whole session, however many rounds
      were won, and a win in the next event pays out exactly the starting
      money plus every coin collected. */
  lemma {:induction false} SessionKeepsAccounts(m: Manager, u0: User, dt: real, events: seq<Event>, f: Item, v: real)
    requires m.state == Menu && m.startPlaying
    requires m.setup.user == Some(u0) && 1 <= m.setup.difficulty <= 3
    ensures var r := Run(Update(m, dt), events);
      && Accounts(r, u0, Collected(events), |m.gamesInfo|)
      && (r.fillingSorted + 1 >= r.targetFillingNum ==>
            DeleteFilling(r, f, true, v).setup.user.value.sgMoney == u0.sgMoney + Collected(events))
  {
    PlayOpensAccounts(m, u0, dt);
    RunKeepsAccounts(Update(m, dt), u0, 0, |m.gamesInfo|, events);
  }

  /** How many fillings the events bounce off a box of the other type. */
  function Bounces(events: seq<Event>): nat
    decreases |events|
  {
    if |events| == 0 then 0 else (if events[0].Bounced? then 1 else 0) + Bounces(events[1..])
  }

  /** The events after the last harder round began, or None when no harder
      round began among them. */
  function SinceLastContinue(events: seq<Event>): Option<seq<Event>>
    decreases |events|
  {
    if |events| == 0 then None
    else match SinceLastContinue(events[1..])
      case Some(rest) => Some(rest)
      case None => if events[0].Continue? then Some(events[1..]) else None
  }

  /** What one event does to the error count: a bounce adds one, a harder
      round starts again from zero, and nothing else touches it. */
  lemma EventErrors(m: Manager, e: Event)
    requires m.state == Menu ==> !m.startPlaying
    ensures Apply(m, e).errors == (if e.Continue? then 0 else m.errors + (if e.Bounced? then 1 else 0))
  {
    match e
    case Frame(dt) =>
      if m.state == Playing {
        assert Apply(m, e) == Play(m, dt);
      } else {
        assert Apply(m, e) == m;
      }
    case _ =>
  }

  /** The errors an SGInfo logs are the wrong fillings of that round: after
      any events, the manager's error count is the number of bounces since
      the last harder round began, or, when none began, the count it had
      plus every bounce. */
  lemma {:induction false} ErrorsCountBounces(m: Manager, u0: User, collected: nat, infos0: nat, events: seq<Event>)
    requires Accounts(m, u0, collected, infos0)
    ensures SinceLastContinue(events).None? ==> Run(m, events).errors == m.errors + Bounces(events)
    ensures SinceLastContinue(events).Some? ==> Run(m, events).errors == Bounces(SinceLastContinue(events).value)
    decreases |events|
  {
    if |events| > 0 {
      var e := events[0];
      assert m.state == Menu ==> !m.startPlaying;
      EventErrors(m, e);
      EventKeepsAccounts(m, u0, collected, infos0, e);
      ErrorsCountBounces(Apply(m, e), u0, collected + (if e.CoinGone? && e.collected then 1 else 0), infos0, events[1..]);
    }
  }
}

=== FILE: sgsetup.dfy ===
/** The static configuration of the Sorting Game (SortingGame/SGSetUp.cs):
    what the menu hands to the game, and the per-difficulty parameter
    tables. The static class is one immutable record here. */
module SGSetUp {
  import opened Common
  import opened Profile

  datatype Setup = Setup(
    user: Option<User>,
    userName: string,
    difficulty: int,
    chosenSkin: int,
    hand: Hand,
    spawnInterval: real,
    boxesNum: int,
    targetFillingNum: int,
    fadeCoin: bool,
    fadeCoinDuration: real,
    coinDropProb: real,
    shrinkFilling: bool,
    shrinkFillingDuration: real)

  /** The static initialisers: no user, empty name, difficulty 2, skin 1,
      right hand; the parameters hold their zero values until SetValues. */
  function Defaults(): (s: Setup)
    ensures s.user.None? && s.userName == "" && s.difficulty == 2
    ensures s.chosenSkin == 1 && s.hand == Right
    ensures s.boxesNum == 0 && s.targetFillingNum == 0 && !s.fadeCoin && !s.shrinkFilling
    ensures s.spawnInterval == 0.0 && s.fadeCoinDuration == 0.0 && s.coinDropProb == 0.0 && s.shrinkFillingDuration == 0.0
  {
    Setup(None, "", 2, 1, Right, 0.0, 0, 0, false, 0.0, 0.0, false, 0.0)
  }

  /** The values every difficulty shares: coins fade after 5 s, a correct
      filling drops a coin with probability 0.15, fillings do not shrink and
      would take 5 s to. */
  predicate HasCommonValues(s: Setup) {
    && s.fadeCoin && s.fadeCoinDuration == 5.0 && s.coinDropProb == 0.15
    && !s.shrinkFilling && s.shrinkFillingDuration == 5.0
  }

  /** Only the game parameters differ between two setups. */
  predicate SameSelection(a: Setup, b: Setup) {
    && a.user == b.user && a.userName == b.userName && a.difficulty == b.difficulty
    && a.chosenSkin == b.chosenSkin && a.hand == b.hand
  }

  function SetCommonValues(s: Setup): (r: Setup)
    ensures HasCommonValues(r) && SameSelection(s, r)
    ensures r.spawnInterval == s.spawnInterval && r.boxesNum == s.boxesNum
    ensures r.targetFillingNum == s.targetFillingNum
  {
    s.(fadeCoin := true, fadeCoinDuration := 5.0, coinDropProb := 0.15,
       shrinkFilling := false, shrinkFillingDuration := 5.0)
  }

  /** Easy: a filling every 2.5 s, one box, ten fillings to sort. */
  function DiffFirst(s: Setup): Setup {
    SetCommonValues(s.(spawnInterval := 2.5, boxesNum := 1, targetFillingNum := 10))
  }

  /** Medium: a spawn every 3.5 s, two boxes, ten fillings to sort. */
  function DiffSecond(s: Setup): Setup {
    SetCommonValues(s.(spawnInterval := 3.5, boxesNum := 2, targetFillingNum := 10))
  }

  /** Hard: a spawn every 5 s, three boxes, twelve fillings to sort. */
  function DiffThird(s: Setup): Setup {
    SetCommonValues(s.(spawnInterval := 5.0, boxesNum := 3, targetFillingNum := 12))
  }

  /** The parameters one difficulty level selects, as a table. */
  function Table(difficulty: int): (real, int, int)
    requires 1 <= difficulty <= 3
  {
    [(2.5, 1, 10), (3.5, 2, 10), (5.0, 3, 12)][difficulty - 1]
  }

  /** SetValues: a difficulty from 1 to 3 loads its row of the table and the
      common values; it uses as many boxes as its number, and the target
      shares out evenly among the boxes. Any other difficulty leaves every
      parameter as it was. Nothing but the parameters ever changes. */
  function SetValues(s: Setup): (r: Setup)
    ensures SameSelection(s, r)
    ensures 1 <= s.difficulty <= 3 ==>
      && (r.spawnInterval, r.boxesNum, r.targetFillingNum) == Table(s.difficulty)
      && HasCommonValues(r)
      && r.boxesNum == s.difficulty
      && r.targetFillingNum > 0
      && r.targetFillingNum % r.boxesNum == 0
    ensures !(1 <= s.difficulty <= 3) ==> r == s
  {
    match s.difficulty
    case 1 => DiffFirst(s)
    case 2 => DiffSecond(s)
    case 3 => DiffThird(s)
    case _ => s
  }
}

=== FILE: shake.dfy ===
/** The shake controller of the Frying Game (KitchenGame/ShakeController.cs
    with the threshold handling of KitchenGame/Accelerometer.cs): while
    shaking is on, every frame in which the device is shaken hard enough
    along the current direction adds the frame time to the score; every 8
    seconds the direction switches between down and right. The averaged
    accelerometer reading is an input. */
module Shake {

  /** The threshold the accelerometer is declared with. */
  const DeclaredThreshold: real := 0.7

  /** Seconds between direction switches. */
  const TimeForShake: real := 8.0

  /** The two shake directions (Vector2.down and Vector2.right). */
  datatype Direction = Down | Right

  /** An accelerometer reading; z is never read. */
  datatype Acceleration = Acceleration(x: real, y: real)

  /** The controller: the shaking flag the frying manager sets, the score,
      the timer, the current direction and the detection threshold. */
  datatype Shaker = Shaker(shake: bool, curScore: real, timer: real, direction: Direction, threshold: real)

  function Abs(v: real): (r: real)
    ensures r >= 0.0 && (r == v || r == -v)
  {
    if v < 0.0 then -v else v
  }

  /** The controller as the scene creates it, before any Start. The source
      starts with a zero direction vector; Down stands in for it, since
      Play sets the direction before any frame reads it. */
  function Created(): (s: Shaker)
    ensures s.threshold == DeclaredThreshold && !s.shake && s.curScore == 0.0
  {
    Shaker(false, 0.0, 0.0, Down, DeclaredThreshold)
  }

  /** Accelerometer.Start: the threshold is squared (the low-pass set-up it
      also does is not modelled). */
  function AccelerometerStart(s: Shaker): (r: Shaker)
    ensures r == s.(threshold := s.threshold * s.threshold)
  {
    s.(threshold := s.threshold * s.threshold)
  }

  /** The state every game starts from: not shaking, no score, timer at
      zero, shaking downwards, with the given threshold. */
  function Reset(s: Shaker, threshold: real): (r: Shaker)
    ensures !r.shake && r.curScore == 0.0 && r.timer == 0.0 && r.direction == Down
    ensures r.threshold == threshold
  {
    Shaker(false, 0.0, 0.0, Down, threshold)
  }

  /** Play as written: it calls the base Start again, so the threshold is
      squared once more on every game. */
  function PlayAsWritten(s: Shaker): (r: Shaker)
    ensures r == Reset(s, AccelerometerStart(s).threshold)
    ensures r.threshold == s.threshold * s.threshold
  {
    var started := AccelerometerStart(s);
    Reset(started, started.threshold)
  }

  /** Play as intended: the game state is reset and the threshold squared
      once when the scene started is kept. */
  function Play(s: Shaker): (r: Shaker)
    ensures !r.shake && r.curScore == 0.0 && r.timer == 0.0 && r.direction == Down
    ensures r.threshold == s.threshold
  {
    Reset(s, s.threshold)
  }

  /** n games in a row. */
  function PlaysAsWritten(s: Shaker, n: nat): Shaker
    decreases n
  {
    if n == 0 then s else PlaysAsWritten(PlayAsWritten(s), n - 1)
  }

  function Plays(s: Shaker, n: nat): Shaker
    decreases n
  {
    if n == 0 then s else Plays(Play(s), n - 1)
  }

  /** As written, each game is easier than the one before: from the scene
      start (0.7 squared to 0.49) the first game detects shakes of 0.2401
      and the second of 0.05764801. */
  lemma ThresholdDrifts(s: Shaker)
    requires s.threshold == DeclaredThreshold
    ensures AccelerometerStart(s).threshold == 0.49
    ensures PlaysAsWritten(AccelerometerStart(s), 1).threshold == 0.2401
    ensures PlaysAsWritten(AccelerometerStart(s), 2).threshold == 0.05764801
  {
  }

  /** With the threshold left alone, every game of a scene detects shakes
      against the same threshold. */
  lemma {:induction false} PlaysKeepThreshold(s: Shaker, n: nat)
    ensures Plays(s, n).threshold == s.threshold
    ensures n > 0 ==> Plays(s, n) == Reset(s, s.threshold)
    decreases n
  {
    if n > 0 {
      PlaysKeepThreshold(Play(s), n - 1);
    }
  }

  /** ChangedDirection: down becomes right and anything else down. */
  function ChangedDirection(d: Direction): (r: Direction)
    ensures r != d
  {
    if d == Down then Right else Down
  }

  /** Two switches bring the direction back. */
  lemma ChangedDirectionTwice(d: Direction)
    ensures ChangedDirection(ChangedDirection(d)) == d
  {
  }

  /** The reading counts as a shake along the current direction: the
      magnitude on the direction's axis reaches the threshold. */
  predicate Counts(s: Shaker, acc: Acceleration) {
    || (s.direction == Right && Abs(acc.x) >= s.threshold)
    || (s.direction == Down && Abs(acc.y) >= s.threshold)
  }

  /** Shaking: the frame time is added when the reading counts. Only the
      axis of the current direction is looked at, so the score grows by
      at most one frame time. */
  function Shaking(s: Shaker, acc: Acceleration, dt: real): (r: Shaker)
    ensures r.curScore == s.curScore + (if Counts(s, acc) then dt else 0.0)
    ensures r == s.(curScore := r.curScore)
  {
    var s1 := if Abs(acc.x) >= s.threshold && s.direction == Right then s.(curScore := s.curScore + dt) else s;
    if Abs(acc.y) >= s1.threshold && s1.direction == Down then s1.(curScore := s1.curScore + dt) else s1
  }

  /** Update: score while shaking, advance the timer and, once it reaches 8
      seconds, switch direction and restart the timer. */
  function Update(s: Shaker, acc: Acceleration, dt: real): (r: Shaker)
    ensures r.curScore == s.curScore + (if s.shake && Counts(s, acc) then dt else 0.0)
    ensures s.timer + dt >= TimeForShake ==> r.timer == 0.0 && r.direction == ChangedDirection(s.direction)
    ensures s.timer + dt < TimeForShake ==> r.timer == s.timer + dt && r.direction == s.direction
    ensures r.shake == s.shake && r.threshold == s.threshold
  {
    var s1 := if s.shake then Shaking(s, acc, dt) else s;
    var s2 := s1.(timer := s1.timer + dt);
    if s2.timer >= TimeForShake then s2.(direction := ChangedDirection(s2.direction), timer := 0.0) else s2
  }

  /** A run of frames, each with its reading and frame time. */
  function Frames(s: Shaker, accs: seq<Acceleration>, dts: seq<real>): Shaker
    requires |accs| == |dts|
    decreases |accs|
  {
    if |accs| == 0 then s else Frames(Update(s, accs[0], dts[0]), accs[1..], dts[1..])
  }

  /** Over frames with non-negative frame times the score never falls;
      with shaking off it does not move at all, and the timer always stays
      below the switching time once it starts there. */
  lemma {:induction false} FramesKeepScore(s: Shaker, accs: seq<Acceleration>, dts: seq<real>)
    requires |accs| == |dts|
    requires forall i :: 0 <= i < |dts| ==> dts[i] >= 0.0
    requires 0.0 <= s.timer < TimeForShake
    ensures Frames(s, accs, dts).curScore >= s.curScore
    ensures !s.shake ==> Frames(s, accs, dts).curScore == s.curScore
    ensures 0.0 <= Frames(s, accs, dts).timer < TimeForShake
    ensures Frames(s, accs, dts).shake == s.shake && Frames(s, accs, dts).threshold == s.threshold
    decreases |accs|
  {
    if |accs| > 0 {
      FramesKeepScore(Update(s, accs[0], dts[0]), accs[1..], dts[1..]);
    }
  }
}

=== FILE: sortinground.dfy ===
/** A round of the Sorting Game seen from its boxes: the manager's count of
    sorted fillings against the fillings the boxes hold. Together with the
    target sharing of SpawnBoxes this is why a round is won exactly when
    every box is full. */
module SortingRound {
  import opened Common
  import opened Box
  import F = Filling

  /** The fillings held by all boxes together. */
  function Held(boxes: seq<Box>): int
    decreases |boxes|
  {
    if |boxes| == 0 then 0 else boxes[0].count + Held(boxes[1..])
  }

  /** The round's bookkeeping: every box is valid and the sorted count is
      what the boxes hold. */
  predicate Consistent(boxes: seq<Box>, sorted: int) {
    && (forall i :: 0 <= i < |boxes| ==> Valid(boxes[i]))
    && sorted == Held(boxes)
  }

  /** Freshly spawned boxes hold nothing, and nothing is sorted yet. */
  lemma {:induction false} FreshBoxesHoldNothing(boxes: seq<Box>)
    requires forall i :: 0 <= i < |boxes| ==> boxes[i].count == 0
    ensures Held(boxes) == 0
    decreases |boxes|
  {
    if |boxes| > 0 {
      FreshBoxesHoldNothing(boxes[1..]);
    }
  }

  /** Held counts a change in one box and nothing else. */
  lemma {:induction false} HeldUpdate(boxes: seq<Box>, j: nat, b: Box)
    requires j < |boxes|
    ensures Held(boxes[j := b]) == Held(boxes) - boxes[j].count + b.count
    decreases |boxes|
  {
    if j > 0 {
      HeldUpdate(boxes[1..], j - 1, b);
      assert boxes[j := b][1..] == boxes[1..][j - 1 := b];
    } else {
      assert boxes[j := b][1..] == boxes[1..];
    }
  }

  /** A filling meeting box j: the box takes its entry, the manager counts
      the filling as sorted when it went into the trash can, and counts an
      error when the box sent it back. Only a held box meeting a held
      filling reacts at all. */
  function Enter(boxes: seq<Box>, sorted: int, errors: int, j: nat, tag: string, f: F.Filling, roll: real): (r: (seq<Box>, int, int))
    requires j < |boxes|
    ensures |r.0| == |boxes|
    ensures var reacts := boxes[j].touch.isTouched && tag == "Filling" && f.touch.isTouched;
      && r.1 == sorted + (if reacts && f.kind == boxes[j].kind && !boxes[j].isFull then 1 else 0)
      && r.2 == errors + (if reacts && f.kind != boxes[j].kind then 1 else 0)
    ensures forall i :: 0 <= i < |boxes| && i != j ==> r.0[i] == boxes[i]
  {
    var e := OnTriggerEnter(boxes[j], tag, f, roll);
    (boxes[j := e.box], if e.filling == Gone(true) then sorted + 1 else sorted,
     if e.error then errors + 1 else errors)
  }

  /** Every filling meeting a box keeps the round consistent. */
  lemma {:induction false} EnterKeepsConsistent(boxes: seq<Box>, sorted: int, errors: int, j: nat, tag: string, f: F.Filling, roll: real)
    requires j < |boxes| && Consistent(boxes, sorted)
    ensures Consistent(Enter(boxes, sorted, errors, j, tag, f, roll).0, Enter(boxes, sorted, errors, j, tag, f, roll).1)
  {
    var e := OnTriggerEnter(boxes[j], tag, f, roll);
    EntryKeepsBoxValid(boxes[j], tag, f, roll);
    HeldUpdate(boxes, j, e.box);
  }

  /** The boxes hold at most the sum of their targets, and exactly that
      only when every box is full. */
  lemma {:induction false} HeldAtMostTargets(boxes: seq<Box>, share: int)
    requires forall i :: 0 <= i < |boxes| ==> Valid(boxes[i]) && boxes[i].target == share
    ensures Held(boxes) <= share * |boxes|
    ensures Held(boxes) == share * |boxes| <==> forall i :: 0 <= i < |boxes| ==> boxes[i].isFull
    decreases |boxes|
  {
    if |boxes| > 0 {
      HeldAtMostTargets(boxes[1..], share);
      assert share * |boxes| == share + share * |boxes[1..]|;
      if forall i :: 0 <= i < |boxes| ==> boxes[i].isFull {
        assert forall i :: 0 <= i < |boxes[1..]| ==> boxes[1..][i].isFull by {
          forall i | 0 <= i < |boxes[1..]| ensures boxes[1..][i].isFull {
            assert boxes[1..][i] == boxes[i + 1];
          }
        }
      }
      if Held(boxes) == share * |boxes| {
        forall i | 0 <= i < |boxes| ensures boxes[i].isFull {
          if i > 0 {
            assert boxes[i] == boxes[1..][i - 1];
          }
        }
      }
    }
  }

  /** The win condition of EndGame: with the round's target shared evenly
      among n boxes, the sorted count reaches the target exactly when
      every box is full, and never exceeds it. */
  lemma {:induction false} WonExactlyWhenAllFull(boxes: seq<Box>, sorted: int, target: int)
    requires Consistent(boxes, sorted)
    requires |boxes| >= 1 && target % |boxes| == 0
    requires forall i :: 0 <= i < |boxes| ==> boxes[i].target == target / |boxes|
    ensures sorted <= target
    ensures sorted >= target <==> forall i :: 0 <= i < |boxes| ==> boxes[i].isFull
  {
    HeldAtMostTargets(boxes, target / |boxes|);
    assert target / |boxes| * |boxes| == target;
  }
}

=== FILE: statistics.dfy ===
/** Statistics shaping (Common/StatisticsManager.cs): a user's statistic
    lists become polylines of points (game number, height) on one shared
    scale from 1 to 11, and the grid gets one column per game of the
    longest list. The line and grid objects are replaced by the points
    and grid size they receive. */
module Statistics {
  import opened Common
  import opened Profile
  import opened Grid

  /** The width of the target range: heights run from 1 to 11. */
  const TargetRange: real := 10.0

  /** FindMinFromList: float.MaxValue for an empty list, otherwise the
      smallest element. */
  function FindMin(list: seq<real>): (r: real)
    ensures |list| == 0 ==> r == FloatMax
    ensures |list| > 0 ==> (exists i :: 0 <= i < |list| && list[i] == r)
    ensures forall i :: 0 <= i < |list| ==> r <= list[i]
    decreases |list|
  {
    if |list| == 0 then FloatMax
    else if |list| == 1 then list[0]
    else
      var m := FindMin(list[1..]);
      assert forall i :: 1 <= i < |list| ==> list[i] == list[1..][i - 1];
      if list[0] <= m then list[0] else m
  }

  /** FindMaxFromList: float.MinValue for an empty list, otherwise the
      largest element. */
  function FindMax(list: seq<real>): (r: real)
    ensures |list| == 0 ==> r == -FloatMax
    ensures |list| > 0 ==> (exists i :: 0 <= i < |list| && list[i] == r)
    ensures forall i :: 0 <= i < |list| ==> list[i] <= r
    decreases |list|
  {
    if |list| == 0 then -FloatMax
    else if |list| == 1 then list[0]
    else
      var m := FindMax(list[1..]);
      assert forall i :: 1 <= i < |list| ==> list[i] == list[1..][i - 1];
      if list[0] >= m then list[0] else m
  }

  /** Some list holds the value v. */
  predicate Occurs(lists: seq<seq<real>>, v: real) {
    exists k, i :: 0 <= k < |lists| && 0 <= i < |lists[k]| && lists[k][i] == v
  }

  /** A value of the tail of the lists is a value of the lists. */
  lemma OccursInTail(lists: seq<seq<real>>, v: real)
    requires |lists| > 0 && Occurs(lists[1..], v)
    ensures Occurs(lists, v)
  {
    var k, i :| 0 <= k < |lists[1..]| && 0 <= i < |lists[1..][k]| && lists[1..][k][i] == v;
    assert lists[k + 1][i] == v;
  }

  /** Mathf.Min over the minima of several lists: the smallest value of
      any list, and float.MaxValue, which an empty list gives, when no list
      holds anything smaller. */
  function Lowest(lists: seq<seq<real>>): (r: real)
    ensures forall k, i :: 0 <= k < |lists| && 0 <= i < |lists[k]| ==> r <= lists[k][i]
    ensures r <= FloatMax
    ensures r == FloatMax || Occurs(lists, r)
    decreases |lists|
  {
    if |lists| == 0 then FloatMax
    else
      var rest := Lowest(lists[1..]);
      assert forall k :: 1 <= k < |lists| ==> lists[k] == lists[1..][k - 1];
      var m := FindMin(lists[0]);
      if m <= rest then
        if |lists[0]| == 0 then m
        else
          var i :| 0 <= i < |lists[0]| && lists[0][i] == m;
          assert Occurs(lists, m) by { assert lists[0][i] == m; }
          m
      else
        if rest != FloatMax then OccursInTail(lists, rest); rest else rest
  }

  /** Mathf.Max over the maxima of several lists: the largest value of any
      list, and float.MinValue, which an empty list gives, when no list
      holds anything larger. */
  function Highest(lists: seq<seq<real>>): (r: real)
    ensures forall k, i :: 0 <= k < |lists| && 0 <= i < |lists[k]| ==> lists[k][i] <= r
    ensures -FloatMax <= r
    ensures r == -FloatMax || Occurs(lists, r)
    decreases |lists|
  {
    if |lists| == 0 then -FloatMax
    else
      var rest := Highest(lists[1..]);
      assert forall k :: 1 <= k < |lists| ==> lists[k] == lists[1..][k - 1];
      var m := FindMax(lists[0]);
      if m >= rest then
        if |lists[0]| == 0 then m
        else
          var i :| 0 <= i < |lists[0]| && lists[0][i] == m;
          assert Occurs(lists, m) by { assert lists[0][i] == m; }
          m
      else
        if rest != -FloatMax then OccursInTail(lists, rest); rest else rest
  }

  /** The length of the longest list (Mathf.Max over the counts); zero for
      no lists. */
  function Longest(lists: seq<seq<real>>): (n: nat)
    ensures forall k :: 0 <= k < |lists| ==> |lists[k]| <= n
    ensures |lists| > 0 ==> exists k :: 0 <= k < |lists| && |lists[k]| == n
    decreases |lists|
  {
    if |lists| == 0 then 0
    else
      var rest := Longest(lists[1..]);
      assert forall k :: 1 <= k < |lists| ==> lists[k] == lists[1..][k - 1];
      if |lists[0]| >= rest then |lists[0]| else rest
  }

  /** A single-precision result where a division by zero matters. */
  datatype Float = Finite(v: real) | PosInf | NegInf | NaN

  /** Float division: by zero it gives an infinity of the dividend's sign,
      or NaN for 0 / 0. */
  function Divide(a: real, b: real): (r: Float)
    ensures b != 0.0 ==> r == Finite(a / b)
    ensures b == 0.0 ==> (r == NaN <==> a == 0.0)
    ensures b == 0.0 ==> r != Finite(0.0) && r.Finite? == false
    ensures b == 0.0 && a > 0.0 ==> r == PosInf
    ensures b == 0.0 && a < 0.0 ==> r == NegInf
  {
    if b != 0.0 then Finite(a / b)
    else if a > 0.0 then PosInf
    else if a < 0.0 then NegInf
    else NaN
  }

  /** scaled * targetRange + 1 in floats: infinities and NaN stay as they
      are. */
  function Stretch(s: Float): (r: Float)
    ensures s.Finite? ==> r == Finite(s.v * TargetRange + 1.0)
    ensures !s.Finite? ==> r == s
  {
    if s.Finite? then Finite(s.v * TargetRange + 1.0) else s
  }

  /** AlignValues as written: no values give none; one value gives
      targetRange / 2 when min and max agree; otherwise every value is
      scaled by max - min, which divides by zero when they agree. */
  function AlignValuesAsWritten(values: seq<real>, min: real, max: real): (r: seq<Float>)
    ensures |r| == |values|
    ensures |values| == 1 && min == max ==> r == [Finite(TargetRange / 2.0)]
    ensures !(|values| == 1 && min == max) ==>
      forall i :: 0 <= i < |values| ==> r[i] == Stretch(Divide(values[i] - min, max - min))
  {
    if |values| == 0 then []
    else if |values| == 1 && min == max then [Finite(TargetRange / 2.0)]
    else seq(|values|, i requires 0 <= i < |values| => Stretch(Divide(values[i] - min, max - min)))
  }

  /** As written, a list of two or more equal values, the only values on
      the chart, is aligned to NaN: (v - v) / (v - v). A single such value
      gets a height of 5. */
  lemma EqualValuesAlignToNaN(v: real)
    ensures AlignValuesAsWritten([v, v], v, v) == [NaN, NaN]
    ensures AlignValuesAsWritten([v], v, v) == [Finite(5.0)]
    ensures AlignValues([v, v], v, v) == [5.0, 5.0]
  {
  }

  /** The height of one value, corrected: a scale without width puts every
      value at 5, as the single-value case does; otherwise min goes to 1,
      max to 11, and the scale keeps the order of values. */
  function Align(v: real, min: real, max: real): (a: real)
    ensures min == max ==> a == TargetRange / 2.0
    ensures min < max ==> (v == min ==> a == 1.0) && (v == max ==> a == 11.0)
    ensures min < max && min <= v <= max ==> 1.0 <= a <= 11.0
  {
    if min == max then TargetRange / 2.0
    else
      ScaleInUnit(v, min, max);
      (v - min) / (max - min) * TargetRange + 1.0
  }

  /** A value between min and max sits between 0 and 1 of the way up. */
  lemma ScaleInUnit(v: real, min: real, max: real)
    requires min != max
    ensures min < max && min <= v <= max ==> 0.0 <= (v - min) / (max - min) <= 1.0
  {
    if min < max && min <= v <= max {
      var a, d := v - min, max - min;
      var s := a / d;
      assert s * d == a;
    }
  }

  /** A larger value never gets a lower height. */
  lemma AlignMonotone(v: real, w: real, min: real, max: real)
    requires v <= w && min <= max
    ensures Align(v, min, max) <= Align(w, min, max)
  {
    if min < max {
      DivideMonotone(v - min, w - min, max - min);
    }
  }

  /** Dividing by a positive number keeps the order. */
  lemma DivideMonotone(p: real, q: real, d: real)
    requires p <= q && d > 0.0
    ensures p / d <= q / d
  {
    var a, b := p / d, q / d;
    assert a * d == p && b * d == q;
    assert (b - a) * d == q - p;
  }

  /** AlignValues, corrected: each value gets its height on the scale from
      min to max. Where the written code gives a number, the two agree. */
  function AlignValues(values: seq<real>, min: real, max: real): (r: seq<real>)
    ensures |r| == |values|
    ensures min == max ==> forall i :: 0 <= i < |r| ==> r[i] == 5.0
    ensures min < max ==> forall i :: 0 <= i < |r| ==> (min <= values[i] <= max ==> 1.0 <= r[i] <= 11.0)
    ensures min < max ==> forall i :: 0 <= i < |r| ==> (values[i] == min ==> r[i] == 1.0) && (values[i] == max ==> r[i] == 11.0)
    ensures forall i :: 0 <= i < |r| ==> r[i] == Align(values[i], min, max)
  {
    seq(|values|, i requires 0 <= i < |values| => Align(values[i], min, max))
  }

  /** The corrected alignment changes only what the written code turns
      into NaN or an infinity: whenever there are fewer than two values or
      the scale has a width, the two give the same heights. */
  lemma AlignAgreesAsWritten(values: seq<real>, min: real, max: real)
    requires |values| <= 1 || min != max
    ensures |AlignValuesAsWritten(values, min, max)| == |values|
    ensures forall i :: 0 <= i < |values| ==> AlignValuesAsWritten(values, min, max)[i] == Finite(AlignValues(values, min, max)[i])
  {
  }

  /** SetLineValues: the points of a line are the origin, then one point
      per value at x = its game number (1, 2, ...) and y = the value. */
  function SetLineValues(values: seq<real>): (pts: seq<Vec2>)
    ensures |pts| == |values| + 1 && pts[0] == Vec2(0.0, 0.0)
    ensures forall i :: 0 <= i < |values| ==> pts[i + 1] == Vec2((i + 1) as real, values[i])
  {
    [Vec2(0.0, 0.0)] + seq(|values|, i requires 0 <= i < |values| => Vec2((i + 1) as real, values[i]))
  }

  /** A chart: one polyline per statistic list, and the grid size. */
  datatype Chart = Chart(lines: seq<seq<Vec2>>, grid: GridSize)

  /** The line plots the values: it starts at the origin, point i + 1 is
      at x = i + 1, and every height lies in [1, 11]. */
  predicate Plots(pts: seq<Vec2>, values: seq<real>) {
    && |pts| == |values| + 1
    && pts[0] == Vec2(0.0, 0.0)
    && forall i :: 1 <= i < |pts| ==> pts[i].x == i as real && 1.0 <= pts[i].y <= 11.0
  }

  /** The heights of all lines share one scale: a value no larger than
      another, in any two lists, is drawn no higher. */
  predicate SharedScale(lines: seq<seq<Vec2>>, lists: seq<seq<real>>) {
    forall k, l, i, j ::
      0 <= k < |lists| && 0 <= l < |lists| && 0 <= i < |lists[k]| && 0 <= j < |lists[l]| && lists[k][i] <= lists[l][j]
      && k < |lines| && l < |lines| && i + 1 < |lines[k]| && j + 1 < |lines[l]|
      ==> lines[k][i + 1].y <= lines[l][j + 1].y
  }

  /** A list whose values lie between lo and hi plots as a line within
      the chart's heights. */
  lemma {:induction false} LinePlots(values: seq<real>, lo: real, hi: real)
    requires forall i :: 0 <= i < |values| ==> lo <= values[i] <= hi
    ensures Plots(SetLineValues(AlignValues(values, lo, hi)), values)
  {
    var pts := SetLineValues(AlignValues(values, lo, hi));
    forall i | 1 <= i < |pts| ensures pts[i].x == i as real && 1.0 <= pts[i].y <= 11.0 {
      assert pts[i] == Vec2(i as real, AlignValues(values, lo, hi)[i - 1]);
      assert lo <= values[i - 1] <= hi;
    }
  }

  /** The chart of several lists on one scale, from the smallest to the
      largest value of all of them, with one grid column per game of the
      longest list. */
  function ChartOf(lists: seq<seq<real>>, grid: GridSize): (c: Chart)
    ensures |c.lines| == |lists|
    ensures forall k :: 0 <= k < |lists| ==> Plots(c.lines[k], lists[k])
    ensures forall k :: 0 <= k < |lists| ==> |c.lines[k]| == |lists[k]| + 1
    ensures SharedScale(c.lines, lists)
    ensures c.grid.x == Longest(lists) && c.grid.y == grid.y
  {
    var lo := Lowest(lists);
    var hi := Highest(lists);
    var lines := seq(|lists|, k requires 0 <= k < |lists| => SetLineValues(AlignValues(lists[k], lo, hi)));
    assert forall k :: 0 <= k < |lists| ==> Plots(lines[k], lists[k]) by {
      forall k | 0 <= k < |lists| ensures Plots(lines[k], lists[k]) {
        LinePlots(lists[k], lo, hi);
      }
    }
    assert SharedScale(lines, lists) by {
      forall k, l, i, j |
        0 <= k < |lists| && 0 <= l < |lists| && 0 <= i < |lists[k]| && 0 <= j < |lists[l]| && lists[k][i] <= lists[l][j]
        ensures lines[k][i + 1].y <= lines[l][j + 1].y
      {
        AlignMonotone(lists[k][i], lists[l][j], lo, hi);
      }
    }
    Chart(lines, SetGridSize(grid, GridSize(Longest(lists), 0)))
  }

  /** The Sorting Game's lists: one per number of boxes. */
  function SGLists(u: User): seq<seq<real>> {
    [u.sgValues1, u.sgValues2, u.sgValues3]
  }

  /** The longest of three lists is the largest of their three counts. */
  lemma LongestOfThree(a: seq<real>, b: seq<real>, c: seq<real>)
    ensures Longest([a, b, c]) == MaxInt(|a|, MaxInt(|b|, |c|))
  {
    assert [a, b, c][1..] == [b, c];
    assert [b, c][1..] == [c];
    assert [c][1..] == [];
  }

  /** SetSGLines: three lines on one scale, one per number of boxes, and a
      grid as wide as the longest list. */
  function SetSGLines(u: User, grid: GridSize): (c: Chart)
    ensures |c.lines| == 3
    ensures Plots(c.lines[0], u.sgValues1) && Plots(c.lines[1], u.sgValues2) && Plots(c.lines[2], u.sgValues3)
    ensures SharedScale(c.lines, SGLists(u))
    ensures c.grid.x == MaxInt(|u.sgValues1|, MaxInt(|u.sgValues2|, |u.sgValues3|)) && c.grid.y == grid.y
  {
    var lists := SGLists(u);
    var c := ChartOf(lists, grid);
    assert Plots(c.lines[0], lists[0]) && Plots(c.lines[1], lists[1]) && Plots(c.lines[2], lists[2]);
    LongestOfThree(u.sgValues1, u.sgValues2, u.sgValues3);
    c
  }

  /** GenerateValuesForKGStat: the rate of each game, its score per unit of
      game time. Indexing a time list shorter than the score list throws. */
  function GenerateValuesForKGStat(time: seq<real>, val: seq<real>): (r: Option<seq<real>>)
    requires forall i :: 0 <= i < |time| ==> time[i] != 0.0
    ensures r.Some? <==> |val| <= |time|
    ensures r.Some? ==> |r.value| == |val| && forall i :: 0 <= i < |val| ==> r.value[i] * time[i] == val[i]
  {
    if |val| > |time| then None
    else
      Some(seq(|val|, i requires 0 <= i < |val| && |val| <= |time| => val[i] * (1.0 / time[i])))
  }

  /** SetKGLines: the frying and pouring rates as two lines on one scale,
      and a grid as wide as the longer list. */
  function SetKGLines(u: User, grid: GridSize): (c: Option<Chart>)
    requires forall i :: 0 <= i < |u.fgTime| ==> u.fgTime[i] != 0.0
    requires forall i :: 0 <= i < |u.pgTime| ==> u.pgTime[i] != 0.0
    ensures c.Some? <==> |u.fgEggs| <= |u.fgTime| && |u.pgGlass| <= |u.pgTime|
    ensures c.Some? ==>
      && |c.value.lines| == 2
      && Plots(c.value.lines[0], GenerateValuesForKGStat(u.fgTime, u.fgEggs).value)
      && Plots(c.value.lines[1], GenerateValuesForKGStat(u.pgTime, u.pgGlass).value)
      && c.value.grid.x == MaxInt(|u.fgEggs|, |u.pgGlass|) && c.value.grid.y == grid.y
  {
    match (GenerateValuesForKGStat(u.fgTime, u.fgEggs), GenerateValuesForKGStat(u.pgTime, u.pgGlass))
    case (Some(pan), Some(water)) => Some(ChartOf([pan, water], grid))
    case _ => None
  }
}

=== FILE: touchable.dfy ===
/** The touch ownership protocol shared by every draggable object
    (Common/Touchable.cs): an object captures at most one finger, follows it
    while it moves and lets go when it lifts. Each subclass decides how
    touches are arbitrated and what starting, dragging and dropping do to it;
    those overrides live in the modules of the subclasses and are built from
    the base steps here. */
module Touchable {
  import opened Common

  datatype TouchPhase = Began | Moved | Stationary | Ended | Canceled

  /** One entry of Input.touches as one object sees it: `overlaps` says
      whether the touch point lies inside that object's collider. Positions
      are world positions; the camera's screen-to-world mapping is not part
      of the model. */
  datatype Touch = Touch(fingerId: int, phase: TouchPhase, position: Vec2, overlaps: bool)

  /** The zero-initialised UnityEngine.Touch that FindTouch returns when no
      touch has the finger id: finger 0, and phase Began, the enum's first
      value. */
  const DefaultTouch: Touch := Touch(0, Began, Vec2(0.0, 0.0), false)

  /** The touch id of an object that holds no finger. */
  const NoTouch: int := -1

  /** The number of distinct sorting orders the arbitration works with. */
  const MaxOrderInLayer: int := 32000

  /** The base state of a Touchable: whether it accepts touches, whether it
      holds a finger and which one, where it is, and where it was when it was
      last dropped. */
  datatype TouchState = TouchState(
    canTouch: bool,
    isTouched: bool,
    touchId: int,
    position: Vec2,
    positionBeforeDrag: Vec2)

  /** Holding a finger and having a touch id are the same thing. */
  predicate Owned(s: TouchState) {
    s.isTouched <==> s.touchId != NoTouch
  }

  /** The weaker link that survives a manager clearing `isTouched` directly
      (SetIsTouched(false) keeps the stale id): a touched object always has
      a real finger id. */
  predicate HoldsRealFinger(s: TouchState) {
    s.isTouched ==> s.touchId >= 0
  }

  /** Every finger id of the current touches is a real (non-negative) one. */
  predicate RealFingers(touches: seq<Touch>) {
    forall i :: 0 <= i < |touches| ==> touches[i].fingerId >= 0
  }

  /** Start: a fresh object accepts touches, holds no finger and remembers
      its spawn position. */
  function Start(position: Vec2): (s: TouchState)
    ensures s.canTouch && !s.isTouched && s.touchId == NoTouch
    ensures Owned(s) && HoldsRealFinger(s)
    ensures s.position == position && s.positionBeforeDrag == position
  {
    TouchState(true, false, NoTouch, position, position)
  }

  /** A touch an object may capture: it has just begun, it lies on the
      object, and the object's arbitration grants it. */
  predicate Qualifies(t: Touch, closest: Touch -> bool) {
    t.phase == Began && t.overlaps && closest(t)
  }

  /** The position of the first touch that qualifies, scanning in the order
      of Input.touches. */
  function FirstQualifying(touches: seq<Touch>, closest: Touch -> bool): (r: Option<nat>)
    ensures r.Some? ==> r.value < |touches| && Qualifies(touches[r.value], closest)
    ensures r.Some? ==> forall j :: 0 <= j < r.value ==> !Qualifies(touches[j], closest)
    ensures r.None? <==> forall j :: 0 <= j < |touches| ==> !Qualifies(touches[j], closest)
    decreases |touches|
  {
    if |touches| == 0 then None
    else if Qualifies(touches[0], closest) then Some(0)
    else
      match FirstQualifying(touches[1..], closest)
      case None => None
      case Some(i) => Some(i + 1)
  }

  /** OnTriggerTouch's choice: only an untouched object that accepts touches
      looks at the touches, and it captures at most one, the first that
      qualifies. */
  function TouchToStart(s: TouchState, touches: seq<Touch>, closest: Touch -> bool): (r: Option<Touch>)
    ensures r.Some? <==>
      !s.isTouched && s.canTouch && exists j :: 0 <= j < |touches| && Qualifies(touches[j], closest)
    ensures r.Some? ==>
      exists i :: 0 <= i < |touches| && touches[i] == r.value && Qualifies(touches[i], closest)
                  && forall j :: 0 <= j < i ==> !Qualifies(touches[j], closest)
  {
    if !s.isTouched && s.canTouch then
      match FirstQualifying(touches, closest)
      case None => None
      case Some(i) => Some(touches[i])
    else None
  }

  /** StartTouch: the object now holds the touch's finger. */
  function StartTouch(s: TouchState, t: Touch): (r: TouchState)
    ensures r.isTouched && r.touchId == t.fingerId
    ensures t.fingerId >= 0 ==> Owned(r) && HoldsRealFinger(r)
    ensures r.position == s.position && r.positionBeforeDrag == s.positionBeforeDrag
    ensures r.canTouch == s.canTouch
  {
    s.(touchId := t.fingerId, isTouched := true)
  }

  /** Drop: the object lets go, holds no finger, and its current position
      becomes the position it returns to. */
  function Drop(s: TouchState): (r: TouchState)
    ensures !r.isTouched && r.touchId == NoTouch && Owned(r) && HoldsRealFinger(r)
    ensures r.positionBeforeDrag == s.position && r.position == s.position
    ensures r.canTouch == s.canTouch
  {
    s.(positionBeforeDrag := s.position, touchId := NoTouch, isTouched := false)
  }

  /** CheckCollisions of the base class: a top/bottom border pins the
      vertical coordinate and a side border pins the horizontal one, each to
      the current position; otherwise the target passes through. */
  function CheckCollisions(current: Vec2, target: Vec2, hitTopBottom: bool, hitSide: bool): (r: Vec2)
    ensures r.y == (if hitTopBottom then current.y else target.y)
    ensures r.x == (if hitSide then current.x else target.x)
    ensures !hitTopBottom && !hitSide ==> r == target
  {
    Vec2(if hitSide then current.x else target.x, if hitTopBottom then current.y else target.y)
  }

  /** Drag of the base class: only a touched object moves, to the target
      position as CheckCollisions adjusts it. */
  function Drag(s: TouchState, target: Vec2, hitTopBottom: bool, hitSide: bool): (r: TouchState)
    ensures !s.isTouched ==> r == s
    ensures s.isTouched ==> r.position == CheckCollisions(s.position, target, hitTopBottom, hitSide)
    ensures r == s.(position := r.position)
  {
    if s.isTouched then s.(position := CheckCollisions(s.position, target, hitTopBottom, hitSide)) else s
  }

  /** TouchExist: some current touch has the finger id. */
  function TouchExist(touches: seq<Touch>, id: int): (r: bool)
    ensures r <==> exists i :: 0 <= i < |touches| && touches[i].fingerId == id
    decreases |touches|
  {
    if |touches| == 0 then false
    else if touches[0].fingerId == id then true
    else TouchExist(touches[1..], id)
  }

  /** FindTouch: the first touch with the finger id, or the default touch
      when there is none. */
  function FindTouch(touches: seq<Touch>, id: int): (t: Touch)
    ensures TouchExist(touches, id) ==>
      exists i :: 0 <= i < |touches| && touches[i] == t && t.fingerId == id
    ensures !TouchExist(touches, id) ==> t == DefaultTouch
    decreases |touches|
  {
    if |touches| == 0 then DefaultTouch
    else if touches[0].fingerId == id then touches[0]
    else FindTouch(touches[1..], id)
  }

  /** What OnTriggerDrag does with the object's finger this frame. */
  datatype DragAction = Stay | DropIt | DragTo(target: Vec2)

  /** OnTriggerDrag's decision. Only a touched object acts; a lifted or
      cancelled finger drops it, a moving finger drags it, a stationary one
      does nothing, and a finger reported as just begun drops it only when
      its id is gone, which is the only way FindTouch can report Began for a
      held finger. */
  function DragDecision(s: TouchState, touches: seq<Touch>): (a: DragAction)
    ensures !s.isTouched ==> a == Stay
    ensures s.isTouched && !TouchExist(touches, s.touchId) ==> a == DropIt
    ensures s.isTouched && TouchExist(touches, s.touchId) ==>
      var t := FindTouch(touches, s.touchId);
      && (a == DropIt <==> t.phase == Ended || t.phase == Canceled)
      && (a.DragTo? <==> t.phase == Moved)
      && (a.DragTo? ==> a.target == t.position)
  {
    if !s.isTouched then Stay
    else
      var t := FindTouch(touches, s.touchId);
      match t.phase
      case Began => if !TouchExist(touches, s.touchId) then DropIt else Stay
      case Moved => DragTo(t.position)
      case Stationary => Stay
      case Ended => DropIt
      case Canceled => DropIt
  }

  /** The base OnTriggerTouch with the default arbitration, which grants
      every touch. */
  function OnTriggerTouch(s: TouchState, touches: seq<Touch>): (r: TouchState)
    ensures TouchToStart(s, touches, DefaultClosest).None? ==> r == s
    ensures TouchToStart(s, touches, DefaultClosest).Some? ==>
      r == StartTouch(s, TouchToStart(s, touches, DefaultClosest).value)
  {
    match TouchToStart(s, touches, DefaultClosest)
    case None => s
    case Some(t) => StartTouch(s, t)
  }

  /** IsClosestObjectToTouch of the base class: every touch is granted. */
  function DefaultClosest(t: Touch): (r: bool)
    ensures r
  {
    true
  }

  /** The base OnTriggerDrag: a drop, a drag through CheckCollisions (the
      border flags are the overlaps at the target position), or nothing. */
  function OnTriggerDrag(s: TouchState, touches: seq<Touch>, hitTopBottom: bool, hitSide: bool): (r: TouchState)
  {
    match DragDecision(s, touches)
    case Stay => s
    case DropIt => Drop(s)
    case DragTo(p) => Drag(s, p, hitTopBottom, hitSide)
  }

  /** The base protocol keeps "touched iff it has a finger id" as long as
      finger ids are real ones: a frame of touch and drag handling cannot
      leave a touched object without a finger or an untouched one with one. */
  lemma {:induction false} ProtocolKeepsOwnership(s: TouchState, touches: seq<Touch>, hitTopBottom: bool, hitSide: bool)
    requires Owned(s) && RealFingers(touches)
    ensures Owned(OnTriggerTouch(s, touches))
    ensures Owned(OnTriggerDrag(OnTriggerTouch(s, touches), touches, hitTopBottom, hitSide))
    ensures HoldsRealFinger(s) ==> HoldsRealFinger(OnTriggerDrag(OnTriggerTouch(s, touches), touches, hitTopBottom, hitSide))
  {
    var choice := TouchToStart(s, touches, DefaultClosest);
    if choice.Some? {
      var i :| 0 <= i < |touches| && touches[i] == choice.value
        && Qualifies(touches[i], DefaultClosest)
        && forall j :: 0 <= j < i ==> !Qualifies(touches[j], DefaultClosest);
      assert choice.value.fingerId >= 0;
    }
  }

  /** A held finger that is no longer on the screen always drops the object,
      whatever phase the finger had last. */
  lemma {:induction false} VanishedFingerDrops(s: TouchState, touches: seq<Touch>, hitTopBottom: bool, hitSide: bool)
    requires s.isTouched
    requires forall i :: 0 <= i < |touches| ==> touches[i].fingerId != s.touchId
    ensures OnTriggerDrag(s, touches, hitTopBottom, hitSide) == Drop(s)
  {
    assert !TouchExist(touches, s.touchId);
  }
}
